=== FILE: README.md ===
# Fortschrittlicher E-Mail-Dienst — a Dafny model of the mail core

The system is a small mail service built from four kinds of servers and one client:

- A **transfer server** speaks DMTP with clients.
  - It accepts a message once its `send` checks pass, puts it on a queue, and starts a forwarding task.
  - The forwarding task resolves every recipient domain through the nameserver tree.
  - It replays the message once per domain to that domain's mailbox server, as eight DMTP lines.
  - It bounces unknown domains back to the sender.
  - It reports each sender to the monitoring server.
- A **mailbox server** runs two services:
  - a DMTP variant that stores incoming messages in per-user mailboxes;
  - DMAP, through which a logged-in user lists, shows and deletes messages.
  - DMAP can be switched to an encrypted channel: an RSA-sealed AES key offer, a challenge echo, then AES-CTR with Base64 lines.
- A **nameserver** holds child zones and mailbox addresses.
- The **monitoring server** counts UDP reports per transfer server and per sender.
- The **message client** does the following:
  - sends mail with an HMAC over sender, recipients, subject and data;
  - lists its inbox;
  - verifies a stored message's HMAC.

Every component is modelled as pure functions over immutable data:

- `Dmtp`: the DMTP engine. `ProcessInput` is the transfer side; `ValidateRequest` is the mailbox side.
- `Dmap`: the DMAP engine.
- `Users`: a mailbox.
- `Nameservers`: the nameserver tree as a map of nodes.
- `Forwarding`: the forwarding task.
- `MailboxHandler`: the mailbox server's DMTP session.
- `Relay`: the end-to-end replay of one message into a mailbox.
- `ClientHandler`: the transfer server's session.
- `Crypto`: the cryptographic primitives, as parameters obeying stated laws.
- `MailboxAccess`: the DMAP session with its handshake.
- `ClientConnection`: the client's DMAP handshake and DMTP submission.
- `MessageClient`: `msg`, `inbox` and `verify`.
- `Monitoring`: the packet counter.

Three modules are shared helpers:

- `JString`: Java's `String` operations.
- `Patterns`: the regular expressions, as hand-written scanners.
- `Wrappers`: `Option`, `Result` and `Outcome`.

Some modelling choices:

- A Java `null` is `None`. A message field that is `null` prints as `"null"` when concatenated.
- An exception that ends a thread (`parseInt`, an index out of bounds, a `null` dereference) is an explicit `Abort` or `Crash` outcome, not a precondition.
- Java `int` arithmetic wraps explicitly:
  - message ids in `Users.AddMessage`;
  - counters in `Monitoring.Inc`.
- `$` without MULTILINE also matches just before one final line terminator ("\n", "\r", "\r\n", U+0085, U+2028 or U+2029). The matched text leaves that terminator out.
- In `\w+@<domain>`, a `.` in the spliced domain matches any character except a line terminator, because the source splices the domain into the regular expression unescaped.

## Model

| member | source | states |
|---|---|---|
| Dmtp.ProcessInput | src/main/java/dslab/protocol/DMTP.java:26-111 | "quit" in any state answers "ok bye" and changes nothing. The first other line in WAITING is greeted and moves to BEGIN. In BEGIN only "begin" (any case) opens EMAIL; any other line is a protocol error and leaves the engine as it was. EMAIL is never left. A well-addressed message stays well addressed. The hash only ever changes to a non-empty value. |
| Dmtp.Argument | src/main/java/dslab/protocol/DMTP.java:43-47 | There is an argument exactly when the request starts with the keyword and a space and continues after it. The argument is then non-empty, and the request is keyword, space, argument. |
| Dmtp.ArgumentOf | src/main/java/dslab/protocol/DMTP.java:43-47 | Round trip: for any non-empty x, the argument of "keyword x" is x. |
| Dmtp.TransferCommand | src/main/java/dslab/protocol/DMTP.java:42-108 | One EMAIL line keeps the message well addressed. It changes the hash only on a "hash" line, and only to a present value. |
| Dmtp.SubjectSets | src/main/java/dslab/protocol/DMTP.java:43-49 | "subject t" with non-empty t sets exactly the subject to t, answers "ok" and changes nothing else. |
| Dmtp.FromChecksAddress | src/main/java/dslab/protocol/DMTP.java:50-61 | "from t" sets the sender if and only if t is an address followed by at most one final line terminator. The stored sender is the address without that terminator, as `matcher.group()` returns it; a whole address is stored as it is. Otherwise the reply is "error invalid sender" and nothing changes. |
| Dmtp.FromRoutes | src/main/java/dslab/protocol/DMTP.java:50-61 | In EMAIL a "from" line reaches the sender check: the match sets the sender and answers "ok", no match answers "error invalid sender". |
| Dmtp.DataSets | src/main/java/dslab/protocol/DMTP.java:62-68 | "data t" sets exactly the content to t and answers "ok". |
| Dmtp.ToReplacesRecipients | src/main/java/dslab/protocol/DMTP.java:69-84 | "to t" replaces the recipient list by the address matches in t, left to right, and answers "ok <count>". With no match it answers "error no recipients" and the list is cleared. |
| Dmtp.ToCommand | src/main/java/dslab/protocol/DMTP.java:69-84 | The same for one step of the command table. |
| Dmtp.ToCountsAddresses | src/main/java/dslab/protocol/DMTP.java:69-84 | A comma-joined list of valid addresses is stored exactly as that list, with the reply "ok <its length>". |
| Dmtp.HashSets | src/main/java/dslab/protocol/DMTP.java:85-91 | "hash t" sets exactly the hash to t and answers "ok". |
| Dmtp.SendCheck | src/main/java/dslab/protocol/DMTP.java:92-105 | `send` answers "ok" if and only if subject, sender and data are present and non-empty and there is at least one recipient. |
| Dmtp.SendReport | src/main/java/dslab/protocol/DMTP.java:92-105 | `send` never changes the engine. When it refuses, it names the first missing field in the order subject, sender, content, recipients. |
| Dmtp.EmptyArgumentRejected | src/main/java/dslab/protocol/DMTP.java:43-91 | A keyword with nothing after it gets that field's error reply and leaves the engine unchanged. |
| Dmtp.UnknownLineRejected | src/main/java/dslab/protocol/DMTP.java:106-107 | In EMAIL, a line that starts with no keyword and is not "send" is a protocol error and changes nothing. |
| Dmtp.FeedWellAddressed | src/main/java/dslab/protocol/DMTP.java:50-84 | The message stays well addressed over any sequence of lines: the sender and every recipient passed the address pattern. |
| Dmtp.AcceptedOnSend | src/main/java/dslab/protocol/DMTP.java:92-105 | After any session from a fresh engine, a `send` answered "ok" means the message is accepted: well addressed, with every field present. |
| Dmtp.ValidateRequest | src/main/java/dslab/protocol/DMTP.java:113-190 | The mailbox engine follows the same quit/WAITING/BEGIN rules and never leaves EMAIL. |
| Dmtp.UnknownLocals | src/main/java/dslab/protocol/DMTP.java:159-168 | Exactly the matched local parts that are not configured users, taken from the matches. |
| Dmtp.ValidateTo | src/main/java/dslab/protocol/DMTP.java:151-175 | The mailbox `to` stores the whole text, commas removed, as the single recipient. It answers "ok 1" if and only if every local part at its own domain is a configured user. Otherwise it answers "error unknown recipient " followed by each unknown name. |
| Dmtp.MailboxToCommand | src/main/java/dslab/protocol/DMTP.java:151-175 | The same for one step of the mailbox command table. |
| Dmtp.ValidateSendAlwaysOk | src/main/java/dslab/protocol/DMTP.java:183-184 | The mailbox engine answers "ok" to `send` whatever its message holds, and changes nothing. |
| Patterns.AddressIffShape | src/main/java/dslab/protocol/DMTP.java:55 | The anchored core of the sender pattern accepts a whole string if and only if it is word '@' word '.' word. What `$` lets follow it is stated by Patterns.SenderMatchIff. |
| Patterns.SenderMatch | src/main/java/dslab/protocol/DMTP.java:55-57 | A match found by `find()` is an address that the string starts with. At most one final line terminator follows it ("\r\n" counts as one), since `$` without MULTILINE also matches before such a terminator. |
| Patterns.SenderMatchIff | src/main/java/dslab/protocol/DMTP.java:55-57 | The check yields address a for string s if and only if a is an address, s starts with a, and the rest of s is empty or one final line terminator. |
| Patterns.SenderBeforeLineSeparator | src/main/java/dslab/protocol/DMTP.java:55-57 | "a@b.c" followed by a LINE SEPARATOR, which `readLine` leaves in the line, is accepted as "a@b.c". |
| Patterns.FindAddressesJoin | src/main/java/dslab/protocol/DMTP.java:77-80 | Addresses joined by any non-word separator are found again one by one, in order. |
| Patterns.FoundAreAddresses | src/main/java/dslab/protocol/DMTP.java:77-80 | Every match the find loop collects is itself a whole address. |
| Patterns.SingleAddressFound | src/main/java/dslab/protocol/DMTP.java:77-80 | A text that is one address yields just that address. |
| Patterns.FindLocals | src/main/java/dslab/mailbox/MailboxHandler.java:74-77 | Every local part taken from a `\w+@<domain>` match is a word. |
| Patterns.FindLocalsJoin | src/main/java/dslab/mailbox/MailboxHandler.java:74-77 | Addresses `w@<domain>` joined by a non-word separator yield their local parts, in order. |
| Patterns.AddressParts | src/main/java/dslab/transfer/MailboxConnection.java:50 | Splitting an accepted address on '@' gives the local word and a domain of exactly two dot-separated words, which rejoin to the address. |
| Users.AddMessage | src/main/java/dslab/User.java:17-24 | Adding a message keeps the user's name and keeps every id a Java int. |
| Users.FirstMessageIdOne | src/main/java/dslab/User.java:22-23 | The first message of an empty mailbox is stored under id 1. |
| Users.NextIdIsFresh | src/main/java/dslab/User.java:18-21 | Below the wrap-around, the new id is the largest id plus one. It is larger than every stored id and so not yet in use. |
| Users.AddMessageFresh | src/main/java/dslab/User.java:17-24 | Below the wrap-around no message is overwritten. The mailbox gains exactly one id, which maps to the new message, and every other id keeps its message. |
| Users.AddMessageWellFormed | src/main/java/dslab/User.java:17-24 | Ids stay distinct Java ints, wrap-around included. |
| Users.AddMessageWraps | src/main/java/dslab/User.java:18-21 | When the largest id is the largest int, the next id is the smallest int. The new message is stored under it, overwriting any message already there. |
| Users.MaxId | src/main/java/dslab/User.java:19-21 | The head of the reverse-sorted key list is a stored id and no smaller than any other. |
| Users.Succ32 | src/main/java/dslab/User.java:21 | `key + 1` on a Java int: one more below the largest int, and the smallest int after it. |
| Users.NextId | src/main/java/dslab/User.java:17-25 | An empty mailbox stores under id 1. Below the wrap the new id exceeds every stored id. At the largest int it wraps to the smallest. |
| Users.Put | src/main/java/dslab/User.java:21-23 | `put` stores the entry and adds at most one entry. Its lookup effect is stated by Users.PutLookup. |
| Users.Remove | src/main/java/dslab/protocol/DMAP.java:58 | `remove` leaves no entry under the id and adds none. Its lookup effect is stated by Users.RemoveThenLookup. |
| Users.Lookup | src/main/java/dslab/protocol/DMAP.java:35-38 | A message is found under an id if and only if the id is a key of the mailbox. |
| Users.PutLookup | src/main/java/dslab/User.java:21-23 | `put` is a map update: the id now maps to the message and every other id is unchanged. |
| Users.RemoveThenLookup | src/main/java/dslab/protocol/DMAP.java:58 | `remove` hides exactly the removed id. |
| Users.FindUser | src/main/java/dslab/mailbox/MailboxHandler.java:89-98 | The index of the first user with the name. It is absent if and only if no user has that name. |
| Users.Ensure | src/main/java/dslab/mailbox/MailboxHandler.java:82-84 | A user is appended if and only if none has the name. The result indexes the user with the name. Unique names and well-formed mailboxes are kept. |
| Dmap.ProcessInput | src/main/java/dslab/protocol/DMAP.java:62-157 | The bound user stays an element of the list. The "in COMMANDS someone is logged in" invariant is preserved. The user list only grows and keeps its names. "quit" logs out and answers "ok bye". The first "startsecure" answers "ok <component id>". A login binds as the source is written (see Dmap.LoginOutcome). |
| Dmap.LoginStep | src/main/java/dslab/protocol/DMAP.java:87-121 | A LOGIN step keeps the bound user in the list and the list's names. It enters COMMANDS only with a user bound. A successful login binds through the source's own binding step, Dmap.BindAsWritten. |
| Dmap.CommandStep | src/main/java/dslab/protocol/DMAP.java:122-156 | A COMMANDS step keeps the same invariants. |
| Dmap.ListReply | src/main/java/dslab/protocol/DMAP.java:132-137 | The `list` reply always ends in "ok", and an empty mailbox lists as just "ok". The lines are stated by MessageClient.ListReplyJoined. |
| Dmap.ShowFields | src/main/java/dslab/protocol/DMAP.java:46-51 | `show` prints five field lines in the order from, to, subject, data, hash. A null field prints "null", and a null hash prints as an empty value. |
| Dmap.LoginOutcome | src/main/java/dslab/protocol/DMAP.java:87-115 | An unknown name gives "error user not found" and a wrong password gives "error wrong password"; neither changes anything but the phase. The right password gives "ok" and enters COMMANDS with the binding as written. When no user was bound or the name has an entry, the session holds the user with that name, appended if missing. When a user is still bound and the name has no entry, the old user stays bound and the list is unchanged. Names stay unique. |
| Dmap.LoginRejectsOther | src/main/java/dslab/protocol/DMAP.java:91-121 | In LOGIN, a line that is not a `login` request is a protocol error and binds no one new. |
| Dmap.LogoutClears | src/main/java/dslab/protocol/DMAP.java:123-128 | `logout` returns to LOGIN with no user and not secure, and answers "ok". |
| Dmap.SecureOutcome | src/main/java/dslab/protocol/DMAP.java:78-86 | In SECURE, "ok" returns to LOGIN and keeps the user. Anything else drops user and secure flag, goes back to WAITING and answers "". |
| Dmap.NoDataUnreachable | src/main/java/dslab/protocol/DMAP.java:129-131 | While the invariant holds, "no data available for this user" is never answered. |
| Dmap.ParseIdArg | src/main/java/dslab/protocol/DMAP.java:139-145 | The id argument is refused if and only if the request does not split into exactly two words. |
| Dmap.ParseIdArgOfPrinted | src/main/java/dslab/protocol/DMAP.java:139-145 | Round trip: "<keyword> <id>", with the id printed as Java prints an int, parses back to that id. |
| Dmap.ParseIdArgMissing | src/main/java/dslab/protocol/DMAP.java:140-141 | A bare keyword answers "error no message id given". |
| Dmap.ParseIdArgTooMany | src/main/java/dslab/protocol/DMAP.java:142-143 | Three words answer "error to many parameter". |
| Dmap.ShowReply | src/main/java/dslab/protocol/DMAP.java:34-52 | `show` answers "error unknown message id" if and only if the id is not stored. |
| Dmap.ShowStep | src/main/java/dslab/protocol/DMAP.java:138-145 | `show <id>` answers with the bound user's message under that id and changes nothing. |
| Dmap.DeleteStep | src/main/java/dslab/protocol/DMAP.java:146-153 | `delete <id>` removes a stored message and answers "ok". An unknown id answers the error and changes nothing. |
| Dmap.DeleteThenShow | src/main/java/dslab/protocol/DMAP.java:54-60 | After a successful delete, every other message of every user is unchanged. Showing or deleting the same id then answers "error unknown message id". |
| Dmap.EmptyList | src/main/java/dslab/protocol/DMAP.java:137 | An empty mailbox lists as the single line "ok". |
| Dmap.ProcessInputKeepsUsers | src/main/java/dslab/protocol/DMAP.java:102-111 | The engine keeps user names unique and every mailbox's ids distinct Java ints. |
| Dmap.GreetingStep | src/main/java/dslab/protocol/DMAP.java:75-77 | The first line of a session, whatever it is, is answered "ok DMAP2.0" and moves to LOGIN. |
| Dmap.SecureKeepsUser | src/main/java/dslab/protocol/DMAP.java:70-80 | `startsecure` from a logged-in session keeps the user, and the "ok" after it returns to LOGIN still holding that user. |
| Dmap.Bind | src/main/java/dslab/protocol/DMAP.java:102-111 | The corrected binding step: the session holds the user with the requested name. |
| Dmap.BindIntended | src/main/java/dslab/protocol/DMAP.java:102-111 | The corrected binding reuses the first user with the name, or appends one. It agrees with the binding as written if and only if no user was bound or the name already has an entry. |
| Dmap.BindAsWritten | src/main/java/dslab/protocol/DMAP.java:102-111 | The binding step as written yields an index into the list. It need not hold the requested name; see Dmap.StaleLoginBinding. |
| Dmap.StaleSessionReachable | src/main/java/dslab/protocol/DMAP.java:64-111 | "login alice pw", "startsecure", "ok" leaves the session in LOGIN still bound to alice. |
| Dmap.StaleSession | src/main/java/dslab/protocol/DMAP.java:64-111 | The same run for any user who gives the right password. |
| Dmap.StaleLoginBinding | src/main/java/dslab/protocol/DMAP.java:102-111 | From that state, "login bob pw2" (bob configured, no entry yet) is answered "ok" and the engine enters COMMANDS still holding alice, with the list unchanged. The corrected binding would append and hold bob. |
| Nameservers.GetNameserver | src/main/java/dslab/nameserver/Nameserver.java:197-202 | The child registered for the zone, absent if and only if none is. An unreachable node is a remote failure. |
| Nameservers.Lookup | src/main/java/dslab/nameserver/Nameserver.java:205-209 | The address registered for the name, null if and only if none is. |
| Nameservers.RegisterNameserver | src/main/java/dslab/nameserver/Nameserver.java:154-174 | The corrected registration: a successful one keeps the set of nodes. Its effect is stated by the lemmas below. |
| Nameservers.RegisterNameserverAsWritten | src/main/java/dslab/nameserver/Nameserver.java:154-174 | The registration as written keeps the set of nodes; see Nameservers.ForwardedReferenceLost. |
| Nameservers.RegisterMailboxServer | src/main/java/dslab/nameserver/Nameserver.java:177-194 | A successful mailbox registration keeps the set of nodes. |
| Nameservers.LabelsOfJoin | src/main/java/dslab/nameserver/Nameserver.java:158 | Splitting on dots inverts joining well-formed labels with dots. |
| Nameservers.RegisterChild | src/main/java/dslab/nameserver/Nameserver.java:166-170 | A new single label is stored as a child, `getNameserver` then returns it, and no other node changes. An existing one is refused as already registered. |
| Nameservers.RegisterUnknownZone | src/main/java/dslab/nameserver/Nameserver.java:171-172 | A domain of two or more labels whose top label is no child zone is refused as invalid, for zones and for mailboxes. |
| Nameservers.RegisterNameserverKeeps | src/main/java/dslab/nameserver/Nameserver.java:161-170 | Zone registration keeps the set of nodes and every existing child zone entry, and leaves every node's mailbox entries unchanged. |
| Nameservers.NameserverForward | src/main/java/dslab/nameserver/Nameserver.java:161-165 | A domain of two or more labels is handed to the child of its top label, with that label removed and the same reference. |
| Nameservers.RegisterNameserverReachable | src/main/java/dslab/nameserver/Nameserver.java:161-170 | After registration, walking the domain's labels from the same node arrives at the registered reference. |
| Nameservers.AsWrittenForwards | src/main/java/dslab/nameserver/Nameserver.java:165 | As written, the forwarded call carries the child's own reference instead of the registered one. |
| Nameservers.ForwardedReferenceLost | src/main/java/dslab/nameserver/Nameserver.java:165 | Concretely: registering node 2 for "earth.planet" at the root, as written, makes the walk arrive at node 1. |
| Nameservers.ForwardedReferenceKept | src/main/java/dslab/nameserver/Nameserver.java:161-167 | The corrected registration of the same zone arrives at node 2. |
| Nameservers.RegisterMailboxKeeps | src/main/java/dslab/nameserver/Nameserver.java:182-190 | Mailbox registration never changes a child zone and keeps every mailbox entry. |
| Nameservers.MailboxForward | src/main/java/dslab/nameserver/Nameserver.java:182-186 | A domain of two or more labels is handed to the child of its top label. |
| Nameservers.RegisterMailboxHere | src/main/java/dslab/nameserver/Nameserver.java:187-190 | A new single label is stored and `lookup` then returns its address. An existing one is refused. |
| Nameservers.RegisterMailboxResolves | src/main/java/dslab/nameserver/Nameserver.java:182-188 | Round trip: after registering a mailbox for a domain, walking its zones and looking up its first label yields the address. |
| Forwarding.Resolve | src/main/java/dslab/transfer/MailboxConnection.java:170-207 | Resolution throws if and only if the domain splits into no labels at all. |
| Forwarding.ResolveRegistered | src/main/java/dslab/transfer/MailboxConnection.java:170-198 | Round trip with the directory: a mailbox registered for a domain at the root is what resolving that domain yields. |
| Forwarding.ResolveNull | src/main/java/dslab/transfer/MailboxConnection.java:180-193 | Resolution yields null when the root is unreachable or the top zone is unknown. |
| Forwarding.Listed | src/main/java/dslab/transfer/MailboxConnection.java:210-213 | The accumulated list of a non-empty recipient list has at least the two characters that are then cut off. |
| Forwarding.ListedJoin | src/main/java/dslab/transfer/MailboxConnection.java:210-214 | The loop and the cut list the recipients separated by ", ". |
| Forwarding.ParseMessage | src/main/java/dslab/transfer/MailboxConnection.java:209-225 | The replay exists if and only if there is a recipient, since the cut throws on an empty list. It is eight lines, from "begin" to "send", "quit". |
| Forwarding.Envelope | src/main/java/dslab/transfer/MailboxConnection.java:209-225 | The eight lines field by field, with null fields printed "null". |
| Forwarding.ScanReplies | src/main/java/dslab/transfer/MailboxConnection.java:137-145 | An unknown-recipient result comes from some reply that contains the marker. |
| Forwarding.ScanCleanIff | src/main/java/dslab/transfer/MailboxConnection.java:141-145 | The scan stays clean if and only if no reply contains "error unknown recipient". |
| Forwarding.ScanTakesNames | src/main/java/dslab/transfer/MailboxConnection.java:141-144 | The mailbox server's unknown-recipient reply hands exactly the names after its 24-character prefix to the bounce. |
| Forwarding.Window | src/main/java/dslab/transfer/MailboxConnection.java:136-140 | The scan sees the replies after the greeting, one per request line: at most eight, each the reply read after its line. |
| Forwarding.Send | src/main/java/dslab/transfer/MailboxConnection.java:130-151 | With no recipients the replay throws. Otherwise the scan is clean if and only if none of the eight replies reports unknown recipients. |
| Forwarding.Port | src/main/java/dslab/transfer/MailboxConnection.java:97-100 | The port exists if and only if piece 1 of `host:port` exists, parses as an int and lies in 0..65535. Anything else is an exception the forwarding task does not catch. |
| Forwarding.PortOfPrinted | src/main/java/dslab/transfer/MailboxConnection.java:97-100 | Round trip: an entry "host:n" gives back n when n lies in 0..65535, and the exception otherwise. |
| Forwarding.Connect | src/main/java/dslab/transfer/MailboxConnection.java:97-103 | Setting up the connection crashes if and only if the port is unusable. Otherwise it succeeds exactly when the host accepts on that port; a failure is the IOException the loop catches. |
| Forwarding.Notice | src/main/java/dslab/transfer/MailboxConnection.java:114-124 | The failure notice goes to the sender alone, has subject "error delivery failure", is sent by "mailer@<host>", has no hash, and its body names the reason. |
| Forwarding.DeliveryFailure | src/main/java/dslab/transfer/MailboxConnection.java:105-128 | A sent notice is a bounce of exactly that notice to the address the sender's domain resolves to. A notice that is not dropped had the sender's domain resolved and a usable port. It is cut short if and only if the connection to the sender's server fails. |
| Forwarding.Report | src/main/java/dslab/transfer/MailboxConnection.java:67-84 | After a notice attempt the failure object exists: it is the notice when sent, and blank otherwise. Only a sent notice adds an event. An unreachable server for it ends the loop. The served domains are unchanged. |
| Forwarding.Deliver | src/main/java/dslab/transfer/MailboxConnection.java:49-86 | A recipient without '@' crashes. A pass only appends, at most two events. The only domain it may mark served is the recipient's. |
| Forwarding.Run | src/main/java/dslab/transfer/MailboxConnection.java:46-89 | The loop only appends to the events and the served domains. Once an IOException has left the loop, nothing more happens. |
| Forwarding.UnreachableHalts | src/main/java/dslab/transfer/MailboxConnection.java:56-94 | A recipient whose server cannot be reached ends the loop; later recipients are not handled, and both reports are still sent. |
| Forwarding.NoticeUnreachableHalts | src/main/java/dslab/transfer/MailboxConnection.java:73-94 | An unresolvable recipient whose sender's server cannot be reached ends the loop with a blank failure, and the reports are "null" and then the sender. |
| Forwarding.PortOutOfRangeCrashes | src/main/java/dslab/transfer/MailboxConnection.java:97-100 | A resolved entry whose port lies outside 0..65535 ends the forwarding task with an uncaught exception, and nothing is reported. |
| Forwarding.NoticeDropped | src/main/java/dslab/transfer/MailboxConnection.java:109-127 | When the sender's domain cannot be resolved, the notice is dropped, but the failure object still exists with every field null. |
| Forwarding.UnresolvedBounced | src/main/java/dslab/transfer/MailboxConnection.java:73-78 | A recipient whose domain cannot be found adds one notice to the sender and becomes the kept failure. |
| Forwarding.EachUnresolvedBounced | src/main/java/dslab/transfer/MailboxConnection.java:49-86 | When no recipient domain resolves, every recipient gets a notice of its own. The kept failure is the last one. |
| Forwarding.DeliverSound | src/main/java/dslab/transfer/MailboxConnection.java:49-86 | One loop pass keeps the run sound. |
| Forwarding.ForwardOncePerDomain | src/main/java/dslab/transfer/MailboxConnection.java:49-86 | A whole task, including one that a failed connect stopped early, contacts each domain's server at most once. It contacts it at the address the domain resolves to, with the full original message, and sends every failure notice to the sender alone. |
| Forwarding.Reports | src/main/java/dslab/transfer/MailboxConnection.java:87-94 | A crash reports nothing. A run that finished, or that an IOException cut short, reports two senders if and only if a failure object exists, and the last one is the message's own sender. |
| MailboxHandler.DeliverTo | src/main/java/dslab/mailbox/MailboxHandler.java:75-111 | Delivery keeps mailboxes well formed and names unique. Users not named, or not configured, are unchanged. New users are configured names from the recipient text. |
| MailboxHandler.Deliver | src/main/java/dslab/mailbox/MailboxHandler.java:71-87 | Delivery throws if and only if the message has no recipient entry. |
| MailboxHandler.Step | src/main/java/dslab/mailbox/MailboxHandler.java:75-87 | Handling one configured name adds at most one user. That user holds the name and has at least one message. All other users are unchanged. |
| MailboxHandler.DeliverCounts | src/main/java/dslab/mailbox/MailboxHandler.java:74-111 | Every configured user named in the recipient text gets the message once per occurrence of its name, after the messages it had. Every new user holds exactly its occurrences. |
| MailboxHandler.Serve | src/main/java/dslab/mailbox/MailboxHandler.java:47-57 | One reply per line. The loop stops only at the end of input, after a reply that ends the session, or when a delivery throws. |
| MailboxHandler.Session | src/main/java/dslab/mailbox/MailboxHandler.java:43-49 | The greeting comes first, before anything is read. |
| MailboxHandler.NoSendNoDelivery | src/main/java/dslab/mailbox/MailboxHandler.java:53-55 | Without a line "send", no mailbox changes. |
| MailboxHandler.SendWithoutRecipientCrashes | src/main/java/dslab/mailbox/MailboxHandler.java:71-73 | "begin", "send" is answered "ok" twice, and then the delivery throws. |
| Relay.SubjectLine | src/main/java/dslab/protocol/DMTP.java:130-136 | On the mailbox side, "subject x" sets the subject. |
| Relay.FromLine | src/main/java/dslab/protocol/DMTP.java:137-143 | On the mailbox side, "from x" sets the sender without any address check. |
| Relay.DataLine | src/main/java/dslab/protocol/DMTP.java:144-150 | On the mailbox side, "data x" sets the content. |
| Relay.ToLine | src/main/java/dslab/protocol/DMTP.java:151-175 | "to x" stores x without commas as the one recipient entry, and its reply never ends the session. |
| Relay.HashLine | src/main/java/dslab/protocol/DMTP.java:176-182 | On the mailbox side, "hash x" sets the hash. |
| Relay.SendQuit | src/main/java/dslab/mailbox/MailboxHandler.java:47-57 | "send" delivers the held message and "quit" closes with "ok bye". |
| Relay.RelayedIntact | src/main/java/dslab/transfer/MailboxConnection.java:209-225 | A replayed accepted message is answered on all eight lines without ending early. `send` is accepted, the session closes with "ok bye", and the relayed message reaches exactly the configured users named in its recipients. |
| ClientHandler.Serve | src/main/java/dslab/transfer/ClientHandler.java:56-66 | Only the last reply may end the session. A message is queued at most once per reply. |
| ClientHandler.Session | src/main/java/dslab/transfer/ClientHandler.java:51-54 | The greeting comes first. |
| ClientHandler.EnqueuedAccepted | src/main/java/dslab/transfer/ClientHandler.java:59-61 | A line that makes the loop enqueue leaves the engine unchanged, and the queued message is accepted. |
| ClientHandler.QueuedForwardable | src/main/java/dslab/transfer/ClientHandler.java:56-62 | Every queued message is accepted and has no empty hash. |
| ClientHandler.RepliesFollowEngine | src/main/java/dslab/transfer/ClientHandler.java:56-58 | The replies written are the engine's replies to the lines read, cut where the session ends. |
| ClientHandler.SendsRepeat | src/main/java/dslab/transfer/ClientHandler.java:59-61 | k repeated "send" lines queue the same message k times. |
| ClientHandler.QueuedArrivesIntact | src/main/java/dslab/transfer/ClientHandler.java:56-62 | End to end, for every queued message: the mailbox session answers its replay in full, closes with "ok bye" and delivers the relayed message. |
| Crypto.UnwrapWrap | src/main/java/dslab/mailbox/MailboxAccess.java:173-179 | A line encrypted and encoded on the channel decodes to the text sent. |
| Crypto.EncodeFree | src/main/java/dslab/mailbox/MailboxAccess.java:109-112 | Base64 text holds no space or line break, so splitting on spaces keeps it whole. |
| MailboxAccess.ParseOffer | src/main/java/dslab/mailbox/MailboxAccess.java:101-121 | An offer is taken only with a key and IV that AES accepts. |
| MailboxAccess.StartSecure | src/main/java/dslab/mailbox/MailboxAccess.java:92-144 | The handshake is established if and only if the offer parses and the next line decrypts to "ok". It writes nothing if and only if the offer does not parse. Otherwise it writes exactly the encrypted challenge echo. |
| MailboxAccess.Serve | src/main/java/dslab/mailbox/MailboxAccess.java:53-80 | At most one line is written per line read. |
| MailboxAccess.Session | src/main/java/dslab/mailbox/MailboxAccess.java:49-52 | The greeting comes first, in plaintext. |
| MailboxAccess.PlainUntilStartsecure | src/main/java/dslab/mailbox/MailboxAccess.java:59-75 | Until "startsecure", the handler is exactly the bare DMAP engine. |
| MailboxAccess.EncryptedTransparent | src/main/java/dslab/mailbox/MailboxAccess.java:54-58 | Once encrypted, requests sent encrypted are answered as the bare engine answers them, each reply encrypted. |
| MailboxAccess.StartsecureAnsweredPlain | src/main/java/dslab/mailbox/MailboxAccess.java:61-75 | The first "startsecure" is answered in plaintext with "ok <component id>", and the session goes on. |
| MailboxAccess.HandshakeStep | src/main/java/dslab/mailbox/MailboxAccess.java:66-73 | An unparsable offer ends the session with nothing written. Otherwise the echo is written, and the session goes on encrypted if and only if the next line decrypts to "ok". |
| MailboxAccess.ChannelNeverRefuses | src/main/java/dslab/mailbox/MailboxAccess.java:54-58 | Once encrypted, the loop never ends with a failed handshake. |
| ClientConnection.StartSecure | src/main/java/dslab/client/MessageClientMailboxHandler.java:46-124 | startSecure returns true if and only if the first answer starts "ok mailbox-" and the second word of the decrypted next line decodes to the challenge. It then wrote exactly "startsecure", the sealed offer and the encrypted "ok". It returns false if and only if that echo decodes to something else, and then it wrote no "ok". |
| ClientConnection.Echo | src/main/java/dslab/client/MessageClientMailboxHandler.java:98-99 | The echo is the Base64 decoding of the second space-separated word of the decrypted line. |
| ClientConnection.SealedOffer | src/main/java/dslab/client/MessageClientMailboxHandler.java:83-94 | Under the crypto laws the line decodes, and the server's private key opens it to the offer text. |
| ClientConnection.LoginLine | src/main/java/dslab/client/MessageClientMailboxHandler.java:126-128 | For a user name without whitespace, the login line splits into "login", the user and the printed password. |
| ClientConnection.Envelope | src/main/java/dslab/client/MessageClientMailboxHandler.java:144-163 | sendMessage writes seven lines: "begin", then each field behind its keyword and a space, then "send". |
| ClientConnection.Connects | src/main/java/dslab/client/MessageClientMailboxHandler.java:130-135 | connect succeeds exactly on the greeting "ok DMAP2.0"; used by ClientConnection.RunSession. |
| ClientConnection.ConnectsDmtp | src/main/java/dslab/client/MessageClientMailboxHandler.java:137-142 | connectDMTP succeeds exactly on the greeting "ok DMTP2.0"; used by MessageClient.Msg. |
| ClientConnection.Login | src/main/java/dslab/client/MessageClientMailboxHandler.java:126-128 | Login succeeds if and only if the answer decrypts to exactly "ok". |
| ClientConnection.RunSession | src/main/java/dslab/client/MessageClientMailboxHandler.java:36-44 | The login line is written if and only if connect and startSecure both returned true, and the login result is then what login returns. A greeting other than "ok DMAP2.0" writes nothing and returns false, and a missing greeting crashes. A logged-in run wrote exactly the four lines. |
| ClientConnection.Converse | src/main/java/dslab/client/MessageClientMailboxHandler.java:144-165 | The lines sent are a prefix of the envelope. The result is "ok" if and only if every reply starts with "ok", and only then is the whole envelope sent. Otherwise the first refusing reply is returned. |
| ClientConnection.SendMessage | src/main/java/dslab/client/MessageClientMailboxHandler.java:144-165 | `sendMessage` reports "ok" if and only if all seven replies start with "ok". |
| ClientConnection.OfferParses | src/main/java/dslab/client/MessageClientMailboxHandler.java:84-94 | Round trip: the server reads back exactly the offer the client sealed. |
| ClientConnection.EchoAccepted | src/main/java/dslab/client/MessageClientMailboxHandler.java:98-111 | The server's echo of the challenge is accepted by the client. |
| ClientConnection.EchoRejected | src/main/java/dslab/client/MessageClientMailboxHandler.java:98-115 | An echo of anything other than the challenge makes startSecure return false after the sealed offer, without writing the encrypted "ok". |
| ClientConnection.ServerTakesOffer | src/main/java/dslab/mailbox/MailboxAccess.java:66-71 | The sealed offer and the encrypted "ok" establish the channel on the server. |
| ClientConnection.ServerSide | src/main/java/dslab/mailbox/MailboxAccess.java:43-80 | The server's replies to a client's four lines: the greeting, "ok <component id>", the echo and the encrypted login "ok". |
| ClientConnection.ClientMeetsServer | src/main/java/dslab/client/MessageClientMailboxHandler.java:36-44 | End to end: a client run against a mailbox server holding its credentials goes through the handshake and logs in. |
| ClientConnection.ClientOnReplies | src/main/java/dslab/client/MessageClientMailboxHandler.java:36-44 | The client's run over the server's four answers logs in. |
| ClientConnection.ToStep | src/main/java/dslab/protocol/DMTP.java:69-84 | A comma-joined list of valid addresses sets exactly those recipients. |
| ClientConnection.EnvelopeServed | src/main/java/dslab/transfer/ClientHandler.java:56-62 | The transfer loop answers the whole envelope "ok" and queues the composed message. |
| ClientConnection.EnvelopeQueued | src/main/java/dslab/client/MessageClientMailboxHandler.java:144-165 | End to end: a well-formed envelope is queued as exactly that message, and `sendMessage` returns "ok". |
| ClientConnection.AllOk | src/main/java/dslab/client/MessageClientMailboxHandler.java:147-160 | Seven replies that each start with "ok" let `sendMessage` through. |
| MessageClient.Msg | src/main/java/dslab/client/MessageClient.java:161-175 | `msg` does nothing if and only if the first line is not the DMTP greeting. Otherwise what it sends is a prefix of the envelope carrying the HMAC. |
| MessageClient.MacInputSplits | src/main/java/dslab/client/MessageClient.java:164-166 | The authenticated text splits back on line breaks into sender, recipients, subject and data, when none of them holds a line break and data is non-empty. |
| MessageClient.MsgQueued | src/main/java/dslab/client/MessageClient.java:161-170 | `msg`'s envelope is queued by the transfer server as the message carrying its hash, and `msg` reports "ok". |
| MessageClient.AfterSpaces | src/main/java/dslab/client/MessageClient.java:133-135 | The text after the first space exists for every line if and only if every line has a space. |
| MessageClient.FieldWords | src/main/java/dslab/client/MessageClient.java:133-135 | The five field lines give back their five values. |
| MessageClient.Verify | src/main/java/dslab/client/MessageClient.java:127-157 | `verify` finishes only on an answer that trims and splits into six lines. |
| MessageClient.VerifyShow | src/main/java/dslab/client/MessageClient.java:130-148 | On a `show` answer, `verify` recomputes the HMAC of the printed sender, recipients, subject and data and compares it with the decoded hash. |
| MessageClient.MsgVerifies | src/main/java/dslab/client/MessageClient.java:127-148 | End to end: a message sent by `msg`, relayed and stored, is judged valid by `verify`. |
| MessageClient.RelayedRecipients | src/main/java/dslab/protocol/DMAP.java:39-43 | `show` prints a relayed message's recipients as the comma-joined list that was typed. |
| MessageClient.LeadingWords | src/main/java/dslab/client/MessageClient.java:90-97 | At most one id per line, and no id holds a space. |
| MessageClient.Inbox | src/main/java/dslab/client/MessageClient.java:82-99 | An answer of fewer than two lines shows nothing. |
| MessageClient.ListReplyJoined | src/main/java/dslab/protocol/DMAP.java:132-137 | A non-empty list answer is the list lines and "ok" joined by line breaks. |
| MessageClient.InboxShowsIds | src/main/java/dslab/client/MessageClient.java:84-97 | On the answer to `list`, `inbox` shows exactly the mailbox's ids in list order. |
| Monitoring.Inc | src/main/java/dslab/monitoring/MonitoringHandler.java:38-39 | `count + 1` on a Java int: an int congruent to n + 1 modulo 2^32. |
| Monitoring.Bump | src/main/java/dslab/monitoring/MonitoringHandler.java:37-48 | One more count for a key: it starts at 1 for a new key and is otherwise the old count plus one modulo 2^32. Every other key keeps its count. |
| Monitoring.Receive | src/main/java/dslab/monitoring/MonitoringHandler.java:31-48 | A packet of other than two parts changes nothing. A packet of two parts counts its trimmed server and address once each and leaves every other count unchanged. |
| Monitoring.Feed | src/main/java/dslab/monitoring/MonitoringHandler.java:24-50 | Every count stays a Java int. |
| Monitoring.PacketParts | src/main/java/dslab/monitoring/MonitoringHandler.java:31-36 | A transfer server's packet "<host:port> <sender>" reads back as its two tokens. |
| Monitoring.PacketCounted | src/main/java/dslab/monitoring/MonitoringHandler.java:31-48 | Such a packet counts its server and its sender once each. |
| Monitoring.CountsTally | src/main/java/dslab/monitoring/MonitoringHandler.java:24-50 | While no count passes the largest int, each server and sender is counted exactly as often as it was reported, on top of its earlier count. |
| Monitoring.CountIsTally | src/main/java/dslab/monitoring/MonitoringHandler.java:24-50 | From empty maps, a key appears if and only if it was reported, with its number of reports as count. |

## Left out

- Sockets, threads, the message queue, the executor, UDP sending, RMI and the interactive shells are left out. Each session is a function from the lines read to the lines written. The forwarding task is a function of the message, the nameserver tree and a parameter that gives each mailbox server's replies. Concurrency between sessions is not modelled.
- The outer `while (true)` of the mailbox DMTP handler and the `null`-read loop of the DMAP handler are left out. At the end of input they would re-run or spin; the model ends the session there.
- Cryptography is left out: RSA, AES-CTR, HMAC-SHA256, Base64 and the platform charset are parameters. The model uses only the laws the protocol relies on (`Crypto.Laws`). Key files, key generation and randomness are parameters too, and padding or cipher exceptions are not modelled.
- `System.lineSeparator()` is "\n". `readLine` is assumed never to see a '\r' inside a line.
- `equalsIgnoreCase` folds ASCII letters only.
- In the spliced domain of `\w+@<domain>` only `.` is treated as special; other metacharacters are assumed absent.
- The iteration order of `ConcurrentHashMap`, which `list` prints in, depends on the hash and is unspecified in the source; the model fixes insertion order.
- `Integer.parseInt` is modelled on an optional sign and the ASCII digits '0' to '9'. It fails outside the int range and on anything else. Java reads digits with `Character.digit`, so it also accepts other Unicode decimal digits ("show \u0661" shows message 1, and a port written in such digits is used). The model rejects them: `Dmap.ParseIdArg` treats them as not a number, which aborts the session, and `Forwarding.Port` as an uncaught exception.
- Message.java is not part of this model. A message is its five fields.
- Nameserver start-up, shutdown, the `nameservers` and `addresses` commands, and `TransferServer`, `MailboxServer`, `MonitoringServer`, `MailboxListenerThread` set-up code are not modelled. They only wire sockets and configuration.
- `close()` of the client handler sends an encrypted "quit". Before the handshake has created the cipher, the encryption throws a `NullPointerException`. This is modelled only as a `Crash` outcome.
- Whether a mailbox server accepts a connection is the parameter `reachable` of host and port. It is fixed for one forwarding task. An IOException while reading replies is a missing reply line (`None`). Other IOExceptions are not modelled.
- A queued message is forwarded as it was when queued. The source queues the engine's live object, which a later line on the same connection could still change; that aliasing is not modelled.
- MailboxHandler.Serve: the engine holds one `Message` object per connection, and `send` stores that same object in every recipient's mailbox. A later `subject`, `to`, `data` or `hash` line on the connection therefore changes messages already delivered, and a second `send` stores the object again. The model stores a copy of the message as it was at `send`, so it does not model this sharing.
- MailboxHandler.DeliverTo: stores a copy of the message; the sharing described for `MailboxHandler.Serve` is not modelled.
- MailboxHandler.DeliverCounts: requires every id to stay below the largest int for as many messages as are delivered, because past it `Users.AddMessageWraps` shows a wrapped id can overwrite a message.
- Relay.RelayedIntact: requires an accepted message with no empty hash. An empty hash would be sent as the line "hash ", which the mailbox side refuses.
- MailboxAccess.StartsecureAnsweredPlain: requires a component id other than "bye". The answer "ok bye" would end the session.
- MessageClient.MsgVerifies: holds only when the recipients were typed as the comma-separated list the transfer server extracts. `verify` recomputes the HMAC over the recipients as stored, not as typed.
- MessageClient.InboxShowsIds: requires the last list line to end in a visible character. `trim` would otherwise eat into it.
- Monitoring.Receive: a packet is the whole datagram. The source receives into one 1024-byte buffer, so a longer report is cut short before it is split; that truncation is not modelled.
- Monitoring.CountsTally: assumes every report fits in the 1024-byte receive buffer. A longer report is counted under a truncated sender in the source.
- Monitoring.CountIsTally: requires at most the largest int reports and tokens without whitespace, and assumes every report fits in the 1024-byte receive buffer (see `Monitoring.Receive`). The wrap-around past that is stated by `Monitoring.Inc`.
- Nameservers.RegisterNameserverKeeps: states that no child zone entry is lost and no mailbox entry changes. It does not state that exactly one child entry is added; `Nameservers.RegisterChild` states that for the node that stores it.
- Nameservers.RegisterNameserver: its own contract only keeps the set of nodes. What it stores and where is stated by `RegisterChild`, `NameserverForward` and `RegisterNameserverReachable`.
- Forwarding.Reports: lists the senders reported to the monitoring server. The UDP send itself is I/O.

## Findings

| source | as written | input that shows it | evidently intended | confidence | as-written member | corrected member |
|---|---|---|---|---|---|---|
| src/main/java/dslab/nameserver/Nameserver.java:165 | The forwarded `registerNameserver` call passes `childReferences.get(topLevel)`, the child itself, as the nameserver to register. | A root with zone "planet" served by node 1; register node 2 for "earth.planet" at the root. Node 1 then stores itself as child "earth". | Pass the `nameserver` argument down, so "earth" maps to node 2. | not executed | `Nameservers.RegisterNameserverAsWritten` (shown by `Nameservers.ForwardedReferenceLost`) | `Nameservers.RegisterNameserver` (proved by `Nameservers.ForwardedReferenceKept`, `Nameservers.RegisterNameserverReachable`) |
| src/main/java/dslab/protocol/DMAP.java:102-111 | After `startsecure` and "ok", the session is back in LOGIN still holding the old user. A successful login for a name with no user entry keeps that old binding, because a new user is created only while none is bound. | "login alice pw", "startsecure", "ok", "login bob pw2" (bob configured, no mailbox yet). The reply is "ok", but the session holds alice's mailbox. | Bind the user with the requested name, created if missing. | not executed | `Dmap.BindAsWritten` (the binding the engine uses; shown by `Dmap.StaleSessionReachable`, `Dmap.StaleLoginBinding`) | `Dmap.Bind` (proved by `Dmap.BindIntended`) |

=== FILE: client_connection.dfy ===
/** The message client's connection handler
    (dslab.client.MessageClientMailboxHandler): the greeting checks, the
    client half of the secure handshake with a mailbox server, the login over
    the encrypted channel, and the submission of one message to a transfer
    server. The client's random choices (challenge, AES key and IV) are
    parameters; lines the server sends are given as the sequence the client
    reads, and a line that is not there is the null that readLine returns. */
module ClientConnection {
  import opened Wrappers
  import opened JString
  import opened Crypto
  import Dmtp
  import Dmap
  import MailboxAccess
  import opened Users
  import opened Mail
  import opened Patterns
  import ClientHandler

  /** connect: the mailbox server's first line must be its greeting. */
  predicate Connects(greeting: string) {
    greeting == Dmap.Greeting
  }

  /** connectDMTP: the transfer server's first line must be its greeting. */
  predicate ConnectsDmtp(greeting: string) {
    greeting == Dmtp.Greeting
  }

  /** The i-th line read, None past the end. */
  function At(lines: seq<string>, i: nat): (r: Option<string>)
    ensures r.Some? <==> i < |lines|
    ensures r.Some? ==> r.value == lines[i]
  {
    if i < |lines| then Some(lines[i]) else None
  }

  // ------------------------------------------------------------- handshake

  /** The text the client seals for the server: "ok", then the challenge,
      the AES key and the IV, each in Base64, separated by single spaces. */
  function OfferText(p: Primitives, o: MailboxAccess.Offer): string {
    "ok " + p.encode(o.challenge) + " " + p.encode(o.channel.key) + " " + p.encode(o.channel.iv)
  }

  /** The line the client writes: the Base64 of the RSA-sealed offer. */
  function SealedOffer(p: Primitives, o: MailboxAccess.Offer): (r: string)
    ensures Laws(p) ==>
      p.decode(r).Some? && p.unseal(p.decode(r).value) == Some(p.bytes(OfferText(p, o)))
  {
    p.encode(p.seal(p.bytes(OfferText(p, o))))
  }

  /** The lines startSecure wrote and what it returned; Crash for an
      exception. */
  datatype Secured = Secured(sent: seq<string>, outcome: Outcome<bool>)

  /** The challenge the server echoed: the decrypted line's second word,
      Base64-decoded; None where one of those steps throws. */
  function Echo(p: Primitives, ch: Channel, line: string): (r: Option<Bytes>)
    ensures r.Some? ==>
      Unwrap(p, ch, line).Some?
      && |Split(Unwrap(p, ch, line).value, Exactly(' '))| >= 2
      && p.decode(Split(Unwrap(p, ch, line).value, Exactly(' '))[1]) == r
  {
    match Unwrap(p, ch, line)
    case None => None
    case Some(response) =>
      var words := Split(response, Exactly(' '));
      if |words| < 2 then None else p.decode(words[1])
  }

  /** startSecure: write "startsecure"; on an answer starting with
      "ok mailbox-" write the sealed offer, decrypt the next line and compare
      its second word, Base64-decoded, with the challenge; on a match write
      an encrypted "ok" and succeed, on a mismatch write nothing more and
      fail. Any other first answer reaches close(), whose encrypted "quit"
      fails before the cipher exists. */
  function StartSecure(p: Primitives, o: MailboxAccess.Offer, first: Option<string>, second: Option<string>): (r: Secured)
    ensures r.outcome == Ok(true) <==>
      first.Some? && StartsWith(first.value, "ok mailbox-")
      && second.Some? && Echo(p, o.channel, second.value) == Some(o.challenge)
    ensures r.outcome == Ok(false) <==>
      first.Some? && StartsWith(first.value, "ok mailbox-")
      && second.Some? && Echo(p, o.channel, second.value).Some?
      && Echo(p, o.channel, second.value).value != o.challenge
    ensures r.outcome == Ok(true) ==> r.sent == ["startsecure", SealedOffer(p, o), Wrap(p, o.channel, "ok")]
    ensures r.outcome != Ok(true) ==> r.sent == ["startsecure"] || r.sent == ["startsecure", SealedOffer(p, o)]
  {
    match first
    case None => Secured(["startsecure"], Crash)
    case Some(answer) =>
      if !StartsWith(answer, "ok mailbox-") then Secured(["startsecure"], Crash)
      else
        var sent := ["startsecure", SealedOffer(p, o)];
        match second
        case None => Secured(sent, Crash)
        case Some(line) =>
          match Echo(p, o.channel, line)
          case None => Secured(sent, Crash)
          case Some(echo) =>
            if echo == o.challenge then Secured(sent + [Wrap(p, o.channel, "ok")], Ok(true))
            else Secured(sent, Ok(false))
  }

  /** The login request for the configured user and numeric password. */
  function LoginLine(user: string, password: int): (r: string)
    ensures user != "" && FreeOf(user, Whitespace) ==>
      Split(r, Whitespace) == ["login", user, IntToString(password)]
  {
    if user != "" && FreeOf(user, Whitespace) then
      Dmap.IntToStringFree(password);
      var pw := IntToString(password);
      assert Join([user, pw], " ") == user + " " + pw by { assert [user, pw][1..] == [pw]; }
      assert Join(["login", user, pw], " ") == "login" + " " + Join([user, pw], " ") by {
        assert ["login", user, pw][1..] == [user, pw];
      }
      assert "login " + user + " " + pw == "login" + " " + (user + " " + pw);
      SplitJoinBy(["login", user, IntToString(password)], ' ', Whitespace);
      "login " + user + " " + IntToString(password)
    else "login " + user + " " + IntToString(password)
  }

  /** login: the decrypted answer must be exactly "ok". */
  function Login(p: Primitives, ch: Channel, answer: Option<string>): (r: Outcome<bool>)
    ensures r == Ok(true) <==> answer.Some? && Unwrap(p, ch, answer.value) == Some("ok")
  {
    match answer
    case None => Crash
    case Some(line) =>
      match Unwrap(p, ch, line)
      case None => Crash
      case Some(t) => Ok(t == "ok")
  }

  /** The lines run wrote and whether the login was accepted (false when it
      was never attempted). */
  datatype Run = Run(sent: seq<string>, loggedIn: Outcome<bool>)

  /** run: connect, then startSecure, then login, each only when the one
      before it succeeded. `replies` are the lines the mailbox server sends. */
  function RunSession(p: Primitives, o: MailboxAccess.Offer, user: string, password: int, replies: seq<string>): (r: Run)
    ensures r.loggedIn == Ok(true) ==>
      |replies| >= 1 && Connects(replies[0])
      && StartSecure(p, o, At(replies, 1), At(replies, 2)).outcome == Ok(true)
      && r.sent == ["startsecure", SealedOffer(p, o), Wrap(p, o.channel, "ok"), Wrap(p, o.channel, LoginLine(user, password))]
    ensures (|r.sent| == 4 && r.sent[3] == Wrap(p, o.channel, LoginLine(user, password)))
      <==> (|replies| >= 1 && Connects(replies[0]) && StartSecure(p, o, At(replies, 1), At(replies, 2)).outcome == Ok(true))
    ensures |replies| == 0 ==> r == Run([], Crash)
    ensures |replies| >= 1 && !Connects(replies[0]) ==> r == Run([], Ok(false))
    ensures |r.sent| == 4 ==> r.loggedIn == Login(p, o.channel, At(replies, 3))
  {
    if |replies| == 0 then Run([], Crash)
    else if !Connects(replies[0]) then Run([], Ok(false))
    else
      var s := StartSecure(p, o, At(replies, 1), At(replies, 2));
      match s.outcome
      case Crash => Run(s.sent, Crash)
      case Ok(accepted) =>
        if !accepted then Run(s.sent, Ok(false))
        else Run(s.sent + [Wrap(p, o.channel, LoginLine(user, password))], Login(p, o.channel, At(replies, 3)))
  }

  // ------------------------------------------------------------ submission

  /** The seven lines sendMessage writes, in order. */
  function Envelope(from: string, to: string, subject: string, data: string, hash: string): (r: seq<string>)
    ensures |r| == 7 && r[0] == "begin" && r[6] == "send"
    ensures r[1] == "from " + from && r[2] == "to " + to && r[3] == "subject " + subject
      && r[4] == "data " + data && r[5] == "hash " + hash
  {
    ["begin", "from " + from, "to " + to, "subject " + subject, "data " + data, "hash " + hash, "send"]
  }

  /** The lines written and the string returned. */
  datatype Exchange = Exchange(sent: seq<string>, answer: Outcome<string>)

  /** Write each line and read its reply; stop at the first reply that does
      not start with "ok" and return it, or return "ok" after the last line.
      A missing reply is a null whose startsWith throws. */
  function Converse(lines: seq<string>, replies: seq<string>): (r: Exchange)
    ensures |r.sent| <= |lines| && r.sent == lines[..|r.sent|]
    ensures r.answer == Ok("ok") <==>
      |replies| >= |lines| && forall i :: 0 <= i < |lines| ==> StartsWith(replies[i], "ok")
    ensures r.answer == Ok("ok") ==> r.sent == lines
    ensures r.answer.Ok? && r.answer.value != "ok" ==>
      0 < |r.sent| <= |replies| && r.answer.value == replies[|r.sent| - 1]
      && !StartsWith(r.answer.value, "ok")
      && forall i :: 0 <= i < |r.sent| - 1 ==> StartsWith(replies[i], "ok")
    decreases |lines|
  {
    if |lines| == 0 then Exchange([], Ok("ok"))
    else if |replies| == 0 then Exchange([lines[0]], Crash)
    else if !StartsWith(replies[0], "ok") then Exchange([lines[0]], Ok(replies[0]))
    else
      var rest := Converse(lines[1..], replies[1..]);
      Exchange([lines[0]] + rest.sent, rest.answer)
  }

  /** sendMessage: the envelope, line by line. */
  function SendMessage(from: string, to: string, subject: string, data: string, hash: string,
                       replies: seq<string>): (r: Exchange)
    ensures |r.sent| <= 7 && r.sent == Envelope(from, to, subject, data, hash)[..|r.sent|]
    ensures r.answer == Ok("ok") <==> |replies| >= 7 && forall i :: 0 <= i < 7 ==> StartsWith(replies[i], "ok")
  {
    Converse(Envelope(from, to, subject, data, hash), replies)
  }

  // ---------------------------------------------------------------- lemmas

  /** The mailbox server reads the client's sealed offer back exactly. */
  lemma OfferParses(p: Primitives, o: MailboxAccess.Offer)
    requires Laws(p) && AesAccepts(o.channel.key, o.channel.iv)
    ensures MailboxAccess.ParseOffer(p, SealedOffer(p, o)) == Some(o)
    ensures !EqualsIgnoreCase(SealedOffer(p, o), "startsecure")
  {
    var text := OfferText(p, o);
    var words := ["ok", p.encode(o.challenge), p.encode(o.channel.key), p.encode(o.channel.iv)];
    assert Join(words[3..], " ") == words[3];
    assert Join(words[2..], " ") == words[2] + " " + words[3] by { assert words[2..][1..] == words[3..]; }
    assert Join(words[1..], " ") == words[1] + " " + words[2] + " " + words[3] by { assert words[1..][1..] == words[2..]; }
    assert Join(words, " ") == text;
    EncodeFree(p, o.challenge);
    EncodeFree(p, o.channel.key);
    EncodeFree(p, o.channel.iv);
    assert o.channel.iv != [];
    SplitJoinBy(words, ' ', Exactly(' '));
    var sealed := p.seal(p.bytes(text));
    assert p.decode(SealedOffer(p, o)) == Some(sealed);
    assert p.unseal(sealed) == Some(p.bytes(text));
    assert p.text(p.bytes(text)) == text;
    assert |SealedOffer(p, o)| % 4 == 0;
  }

  /** The server's answer to the offer is accepted by the client: the echoed
      challenge matches and the client confirms with an encrypted "ok". */
  lemma EchoAccepted(p: Primitives, o: MailboxAccess.Offer, first: string)
    requires Laws(p) && o.challenge != [] && StartsWith(first, "ok mailbox-")
    ensures StartSecure(p, o, Some(first), Some(Wrap(p, o.channel, "ok " + p.encode(o.challenge))))
      == Secured(["startsecure", SealedOffer(p, o), Wrap(p, o.channel, "ok")], Ok(true))
  {
    var e := p.encode(o.challenge);
    UnwrapWrap(p, o.channel, "ok " + e);
    EncodeFree(p, o.challenge);
    assert Join(["ok", e], " ") == "ok " + e by { assert ["ok", e][1..] == [e]; }
    SplitJoinBy(["ok", e], ' ', Exactly(' '));
  }

  /** An echo of anything but the challenge makes startSecure return false
      after the sealed offer, without the encrypted "ok". */
  lemma EchoRejected(p: Primitives, o: MailboxAccess.Offer, first: string, other: Bytes)
    requires Laws(p) && other != [] && other != o.challenge && StartsWith(first, "ok mailbox-")
    ensures StartSecure(p, o, Some(first), Some(Wrap(p, o.channel, "ok " + p.encode(other))))
      == Secured(["startsecure", SealedOffer(p, o)], Ok(false))
  {
    var e := p.encode(other);
    UnwrapWrap(p, o.channel, "ok " + e);
    EncodeFree(p, other);
    assert Join(["ok", e], " ") == "ok " + e by { assert ["ok", e][1..] == [e]; }
    SplitJoinBy(["ok", e], ' ', Exactly(' '));
  }

  /** On the server, the sealed offer followed by the client's encrypted "ok"
      switches the connection to the offered channel. */
  lemma ServerTakesOffer(p: Primitives, srv: Dmap.Server, c: MailboxAccess.Conn, o: MailboxAccess.Offer, rest: seq<string>)
    requires Laws(p) && AesAccepts(o.channel.key, o.channel.iv)
    requires Dmap.Bound(c.session, c.users) && c.channel.None? && c.secure
    ensures var st := Dmap.ProcessInput(c.session, c.users, srv, "ok");
      var after := MailboxAccess.Serve(p, srv, MailboxAccess.Conn(st.session, st.users, true, Some(o.channel)), rest);
      MailboxAccess.Serve(p, srv, c, [SealedOffer(p, o), Wrap(p, o.channel, "ok")] + rest)
      == MailboxAccess.Trace([Wrap(p, o.channel, "ok " + p.encode(o.challenge))] + after.out, after.users, after.end)
  {
    OfferParses(p, o);
    UnwrapWrap(p, o.channel, "ok");
    var lines := [SealedOffer(p, o), Wrap(p, o.channel, "ok")] + rest;
    assert lines[0] == SealedOffer(p, o) && lines[1] == Wrap(p, o.channel, "ok") && lines[2..] == rest;
  }

  /** Over the established channel the server answers the encrypted login
      of a user it knows with an encrypted "ok". */
  lemma ServerLogsIn(p: Primitives, srv: Dmap.Server, users: seq<User>, ch: Channel, user: string, password: int)
    requires Laws(p)
    requires user != "" && FreeOf(user, Whitespace)
    requires user in srv.passwords && srv.passwords[user] == IntToString(password)
    ensures var t := MailboxAccess.Serve(p, srv, MailboxAccess.Conn(Dmap.Session(Dmap.Login, None, true), users, true, Some(ch)),
                                         [Wrap(p, ch, LoginLine(user, password))]);
      t.out == [Wrap(p, ch, "ok")] && t.end == MailboxAccess.Eof
  {
    var login := LoginLine(user, password);
    var s2 := Dmap.Session(Dmap.Login, None, true);
    MailboxAccess.EncryptedTransparent(p, srv, MailboxAccess.Conn(s2, users, true, Some(ch)), [login]);
    assert MailboxAccess.WrapAll(p, ch, [login]) == [Wrap(p, ch, login)];
    Dmap.IntToStringFree(password);
    Dmap.LoginOutcome(s2, users, srv, user, IntToString(password));
    var st := Dmap.ProcessInput(s2, users, srv, login);
    assert !MailboxAccess.Ends("ok");
    assert MailboxAccess.Plain(srv, s2, users, [login]) == MailboxAccess.Trace(["ok"], st.users, MailboxAccess.Eof);
    assert MailboxAccess.WrapAll(p, ch, ["ok"]) == [Wrap(p, ch, "ok")];
  }

  /** After its plaintext "ok <component id>", the server takes the offer,
      echoes the challenge and answers the login, all encrypted. */
  lemma ServerSecures(p: Primitives, srv: Dmap.Server, users: seq<User>, o: MailboxAccess.Offer, user: string, password: int)
    requires Laws(p) && AesAccepts(o.channel.key, o.channel.iv)
    requires user != "" && FreeOf(user, Whitespace)
    requires user in srv.passwords && srv.passwords[user] == IntToString(password)
    ensures var t := MailboxAccess.Serve(p, srv, MailboxAccess.Conn(Dmap.Session(Dmap.Secure, None, true), users, true, None),
        [SealedOffer(p, o), Wrap(p, o.channel, "ok"), Wrap(p, o.channel, LoginLine(user, password))]);
      t.out == [Wrap(p, o.channel, "ok " + p.encode(o.challenge)), Wrap(p, o.channel, "ok")]
      && t.end == MailboxAccess.Eof
  {
    var ch := o.channel;
    var s1 := Dmap.Session(Dmap.Secure, None, true);
    var login := LoginLine(user, password);
    ServerTakesOffer(p, srv, MailboxAccess.Conn(s1, users, true, None), o, [Wrap(p, ch, login)]);
    assert [SealedOffer(p, o), Wrap(p, ch, "ok"), Wrap(p, ch, login)]
      == [SealedOffer(p, o), Wrap(p, ch, "ok")] + [Wrap(p, ch, login)];
    assert !EqualsIgnoreCase("ok", "quit");
    assert EqualsIgnoreCase("ok", "ok");
    Dmap.SecureOutcome(s1, users, srv, "ok");
    ServerLogsIn(p, srv, users, ch, user, password);
  }

  /** The mailbox server's replies to the four lines a successful client
      writes: greeting, "ok <component id>", the echo, and "ok" to the login,
      the last two encrypted. */
  lemma ServerSide(p: Primitives, srv: Dmap.Server, users: seq<User>, o: MailboxAccess.Offer, user: string, password: int)
    requires Laws(p) && AesAccepts(o.channel.key, o.channel.iv)
    requires StartsWith(srv.componentId, "mailbox-")
    requires user != "" && FreeOf(user, Whitespace)
    requires user in srv.passwords && srv.passwords[user] == IntToString(password)
    ensures var t := MailboxAccess.Session(p, srv, users, [
        "startsecure", SealedOffer(p, o), Wrap(p, o.channel, "ok"), Wrap(p, o.channel, LoginLine(user, password))]);
      t.out == [Dmap.Greeting, "ok " + srv.componentId, Wrap(p, o.channel, "ok " + p.encode(o.challenge)),
                Wrap(p, o.channel, "ok")]
      && t.end == MailboxAccess.Eof
  {
    var offer := [SealedOffer(p, o), Wrap(p, o.channel, "ok"), Wrap(p, o.channel, LoginLine(user, password))];
    ServerSideOn(p, srv, users, o, user, password, offer,
      ["startsecure", SealedOffer(p, o), Wrap(p, o.channel, "ok"), Wrap(p, o.channel, LoginLine(user, password))]);
  }

  /** ServerSide with the client's lines kept abstract. */
  lemma ServerSideOn(p: Primitives, srv: Dmap.Server, users: seq<User>, o: MailboxAccess.Offer, user: string, password: int,
                     offer: seq<string>, lines: seq<string>)
    requires Laws(p) && AesAccepts(o.channel.key, o.channel.iv)
    requires StartsWith(srv.componentId, "mailbox-")
    requires user != "" && FreeOf(user, Whitespace)
    requires user in srv.passwords && srv.passwords[user] == IntToString(password)
    requires offer == [SealedOffer(p, o), Wrap(p, o.channel, "ok"), Wrap(p, o.channel, LoginLine(user, password))]
    requires lines == ["startsecure"] + offer
    ensures var t := MailboxAccess.Session(p, srv, users, lines);
      t.out == [Dmap.Greeting, "ok " + srv.componentId, Wrap(p, o.channel, "ok " + p.encode(o.challenge)),
                Wrap(p, o.channel, "ok")]
      && t.end == MailboxAccess.Eof
  {
    var s0 := Dmap.Session(Dmap.Login, None, false);
    assert !EqualsIgnoreCase("", "startsecure") && !EqualsIgnoreCase("", "quit");
    Dmap.GreetingStep(users, srv, "");
    AfterGreeting(p, srv, users, o, user, password, offer, lines);
    var rest := MailboxAccess.Serve(p, srv, MailboxAccess.Conn(s0, users, false, None), lines);
    assert [Dmap.Greeting] + rest.out == [Dmap.Greeting, "ok " + srv.componentId, Wrap(p, o.channel, "ok " + p.encode(o.challenge)),
                Wrap(p, o.channel, "ok")];
  }

  /** The server's replies after its greeting: "ok <component id>" in plain
      text, then the echo and the login's "ok" encrypted. */
  lemma AfterGreeting(p: Primitives, srv: Dmap.Server, users: seq<User>, o: MailboxAccess.Offer, user: string, password: int,
                      offer: seq<string>, lines: seq<string>)
    requires Laws(p) && AesAccepts(o.channel.key, o.channel.iv)
    requires StartsWith(srv.componentId, "mailbox-")
    requires user != "" && FreeOf(user, Whitespace)
    requires user in srv.passwords && srv.passwords[user] == IntToString(password)
    requires offer == [SealedOffer(p, o), Wrap(p, o.channel, "ok"), Wrap(p, o.channel, LoginLine(user, password))]
    requires lines == ["startsecure"] + offer
    ensures var t := MailboxAccess.Serve(p, srv, MailboxAccess.Conn(Dmap.Session(Dmap.Login, None, false), users, false, None), lines);
      t.out == ["ok " + srv.componentId, Wrap(p, o.channel, "ok " + p.encode(o.challenge)), Wrap(p, o.channel, "ok")]
      && t.end == MailboxAccess.Eof
  {
    var s0 := Dmap.Session(Dmap.Login, None, false);
    assert srv.componentId != "bye" by { assert srv.componentId[0] == 'm'; }
    MailboxAccess.StartsecureAnsweredPlain(p, srv, MailboxAccess.Conn(s0, users, false, None), offer);
    assert !EqualsIgnoreCase("startsecure", "quit") && EqualsIgnoreCase("startsecure", "startsecure");
    ServerSecures(p, srv, users, o, user, password);
    var after := MailboxAccess.Serve(p, srv, MailboxAccess.Conn(Dmap.Session(Dmap.Secure, None, true), users, true, None), offer);
    assert ["ok " + srv.componentId] + after.out
      == ["ok " + srv.componentId, Wrap(p, o.channel, "ok " + p.encode(o.challenge)), Wrap(p, o.channel, "ok")];
  }

  /** End to end: the lines a client writes, answered by a mailbox server
      holding the client's credentials, make the client's run go through the
      handshake and log in. */
  lemma ClientMeetsServer(p: Primitives, srv: Dmap.Server, users: seq<User>, o: MailboxAccess.Offer, user: string, password: int)
    requires Laws(p) && AesAccepts(o.channel.key, o.channel.iv) && o.challenge != []
    requires StartsWith(srv.componentId, "mailbox-")
    requires user != "" && FreeOf(user, Whitespace)
    requires user in srv.passwords && srv.passwords[user] == IntToString(password)
    ensures var sent := ["startsecure", SealedOffer(p, o), Wrap(p, o.channel, "ok"), Wrap(p, o.channel, LoginLine(user, password))];
      var t := MailboxAccess.Session(p, srv, users, sent);
      RunSession(p, o, user, password, t.out) == Run(sent, Ok(true))
  {
    ServerSide(p, srv, users, o, user, password);
    var t := MailboxAccess.Session(p, srv, users,
      ["startsecure", SealedOffer(p, o), Wrap(p, o.channel, "ok"), Wrap(p, o.channel, LoginLine(user, password))]);
    assert ("ok " + srv.componentId)[..11] == "ok " + srv.componentId[..8];
    ClientOnReplies(p, o, user, password, "ok " + srv.componentId, t.out);
  }

  /** The client's run over the four answers a mailbox server gives. */
  lemma ClientOnReplies(p: Primitives, o: MailboxAccess.Offer, user: string, password: int, first: string, replies: seq<string>)
    requires Laws(p) && o.challenge != [] && StartsWith(first, "ok mailbox-")
    requires replies == [Dmap.Greeting, first, Wrap(p, o.channel, "ok " + p.encode(o.challenge)), Wrap(p, o.channel, "ok")]
    ensures RunSession(p, o, user, password, replies)
      == Run(["startsecure", SealedOffer(p, o), Wrap(p, o.channel, "ok"), Wrap(p, o.channel, LoginLine(user, password))],
             Ok(true))
  {
    assert At(replies, 1) == Some(first) && At(replies, 2) == Some(replies[2]) && At(replies, 3) == Some(replies[3]);
    EchoAccepted(p, o, first);
    UnwrapWrap(p, o.channel, "ok");
  }

  /** One line of the transfer server's loop that neither ends the session:
      its reply is written, and the line's message is queued when the loop
      enqueues. */
  lemma ServeOn(e: Dmtp.Engine, line: string, rest: seq<string>)
    requires !Dmtp.Ends(Dmtp.ProcessInput(e, line).reply)
    ensures var st := Dmtp.ProcessInput(e, line);
      var tail := ClientHandler.Serve(st.engine, rest);
      ClientHandler.Serve(e, [line] + rest)
      == ClientHandler.Log([st.reply] + tail.replies,
                           (if ClientHandler.Enqueues(line, st.reply) then [st.engine.message] else []) + tail.queued)
  {
    assert ([line] + rest)[0] == line && ([line] + rest)[1..] == rest;
  }

  /** The composed message as the transfer engine holds it when "send"
      arrives. */
  function Composed(from: string, addrs: seq<string>, subject: string, data: string, hash: string): Message {
    Message(Some(from), addrs, Some(subject), Some(data), Some(hash))
  }

  /** A line the engine answers with a non-final reply other than a queued
      "send": the reply is written and the loop goes on from `next`. */
  lemma OkLine(e: Dmtp.Engine, line: string, rest: seq<string>, next: Dmtp.Engine, reply: string)
    requires Dmtp.ProcessInput(e, line) == Dmtp.Step(next, reply)
    requires !Dmtp.Ends(reply) && !EqualsIgnoreCase(line, "send")
    ensures var tail := ClientHandler.Serve(next, rest);
      ClientHandler.Serve(e, [line] + rest) == ClientHandler.Log([reply] + tail.replies, tail.queued)
  {
    ServeOn(e, line, rest);
  }

  lemma NotSend(line: string)
    requires |line| != 4 || LowerAscii(line[0]) != 's'
    ensures !EqualsIgnoreCase(line, "send")
  {
  }

  /** "send" for an accepted message in state EMAIL queues it. */
  lemma SendQueues(m: Message)
    requires Accepted(m)
    ensures ClientHandler.Serve(Dmtp.Engine(Dmtp.Email, m), ["send"]) == ClientHandler.Log(["ok"], [m])
  {
    Dmtp.SendReport(Dmtp.Engine(Dmtp.Email, m));
    assert EqualsIgnoreCase("send", "send");
    ServeOn(Dmtp.Engine(Dmtp.Email, m), "send", []);
  }

  /** The last four envelope lines in state EMAIL: three "ok"s, then "send"
      queues the message. */
  lemma EnvelopeTail(m: Message, subject: string, data: string, hash: string)
    requires Accepted(m.(subject := Some(subject), data := Some(data)))
    requires subject != "" && data != "" && hash != ""
    ensures var full := m.(subject := Some(subject), data := Some(data), hash := Some(hash));
      ClientHandler.Serve(Dmtp.Engine(Dmtp.Email, m), ["subject " + subject, "data " + data, "hash " + hash, "send"])
      == ClientHandler.Log(["ok", "ok", "ok", "ok"], [full])
  {
    SubjectThenRest(m, subject, data, hash, ["data " + data, "hash " + hash, "send"],
                    ["subject " + subject, "data " + data, "hash " + hash, "send"]);
  }

  /** The "subject" step of EnvelopeTail, with the lines kept abstract. */
  lemma SubjectThenRest(m: Message, subject: string, data: string, hash: string, rest: seq<string>, lines: seq<string>)
    requires Accepted(m.(subject := Some(subject), data := Some(data)))
    requires subject != "" && data != "" && hash != ""
    requires rest == ["data " + data, "hash " + hash, "send"] && lines == ["subject " + subject] + rest
    ensures ClientHandler.Serve(Dmtp.Engine(Dmtp.Email, m), lines)
      == ClientHandler.Log(["ok", "ok", "ok", "ok"], [m.(subject := Some(subject), data := Some(data), hash := Some(hash))])
  {
    var m3 := m.(subject := Some(subject));
    var tail := ClientHandler.Log(["ok", "ok", "ok"], [m.(subject := Some(subject), data := Some(data), hash := Some(hash))]);
    DataThenSend(m3, data, hash);
    Dmtp.SubjectSets(Dmtp.Engine(Dmtp.Email, m), subject);
    NotSend("subject " + subject);
    OkThen(Dmtp.Engine(Dmtp.Email, m), "subject " + subject, rest, Dmtp.Engine(Dmtp.Email, m3), "ok", tail);
  }

  /** "data", "hash" and "send" in state EMAIL: two "ok"s, then the queued
      message with both fields set. */
  lemma DataThenSend(m: Message, data: string, hash: string)
    requires Accepted(m.(data := Some(data)))
    requires data != "" && hash != ""
    ensures ClientHandler.Serve(Dmtp.Engine(Dmtp.Email, m), ["data " + data, "hash " + hash, "send"])
      == ClientHandler.Log(["ok", "ok", "ok"], [m.(data := Some(data), hash := Some(hash))])
  {
    var m4 := m.(data := Some(data));
    HashThenSend(m4, hash);
    Dmtp.DataSets(Dmtp.Engine(Dmtp.Email, m), data);
    NotSend("data " + data);
    OkThen(Dmtp.Engine(Dmtp.Email, m), "data " + data, ["hash " + hash, "send"], Dmtp.Engine(Dmtp.Email, m4), "ok",
           ClientHandler.Log(["ok", "ok"], [m4.(hash := Some(hash))]));
    assert ["data " + data] + ["hash " + hash, "send"] == ["data " + data, "hash " + hash, "send"];
  }

  /** "hash" and "send" in state EMAIL. */
  lemma HashThenSend(m: Message, hash: string)
    requires Accepted(m) && hash != ""
    ensures ClientHandler.Serve(Dmtp.Engine(Dmtp.Email, m), ["hash " + hash, "send"])
      == ClientHandler.Log(["ok", "ok"], [m.(hash := Some(hash))])
  {
    var m5 := m.(hash := Some(hash));
    SendQueues(m5);
    Dmtp.HashSets(Dmtp.Engine(Dmtp.Email, m), hash);
    NotSend("hash " + hash);
    OkThen(Dmtp.Engine(Dmtp.Email, m), "hash " + hash, ["send"], Dmtp.Engine(Dmtp.Email, m5), "ok",
           ClientHandler.Log(["ok"], [m5]));
    assert ["hash " + hash] + ["send"] == ["hash " + hash, "send"];
  }

  /** OkLine with the rest of the run already known. */
  lemma OkThen(e: Dmtp.Engine, line: string, rest: seq<string>, next: Dmtp.Engine, reply: string, tail: ClientHandler.Log)
    requires Dmtp.ProcessInput(e, line) == Dmtp.Step(next, reply)
    requires !Dmtp.Ends(reply) && !EqualsIgnoreCase(line, "send")
    requires ClientHandler.Serve(next, rest) == tail
    ensures ClientHandler.Serve(e, [line] + rest) == ClientHandler.Log([reply] + tail.replies, tail.queued)
  {
    OkLine(e, line, rest, next, reply);
  }

  /** The first three envelope lines from state BEGIN: "begin", a valid
      sender and the recipient list take the engine to EMAIL holding both. */
  lemma EnvelopeHead(from: string, addrs: seq<string>, rest: seq<string>)
    requires IsAddress(from) && |addrs| >= 1 && forall i :: 0 <= i < |addrs| ==> IsAddress(addrs[i])
    ensures var m2 := Blank.(sender := Some(from), recipients := addrs);
      var tail := ClientHandler.Serve(Dmtp.Engine(Dmtp.Email, m2), rest);
      ClientHandler.Serve(Dmtp.Engine(Dmtp.Begin, Blank), ["begin", "from " + from, "to " + Join(addrs, ",")] + rest)
      == ClientHandler.Log(["ok", "ok", "ok " + IntToString(|addrs|)] + tail.replies, tail.queued)
  {
    var to := Join(addrs, ",");
    var m1 := Blank.(sender := Some(from));
    var m2 := m1.(recipients := addrs);
    JoinLength(addrs, ",");
    assert from != "" && to != "";
    ToStep(m1, addrs);
    CountGoesOn(|addrs|);
    var okCount := "ok " + IntToString(|addrs|);
    NotSend("to " + to);
    OkLine(Dmtp.Engine(Dmtp.Email, m1), "to " + to, rest, Dmtp.Engine(Dmtp.Email, m2), okCount);
    FromStep(from, ["to " + to] + rest);
    BeginStep(["from " + from, "to " + to] + rest);
    Cons3("begin", "from " + from, "to " + to, rest);
    Cons3("ok", "ok", okCount, ClientHandler.Serve(Dmtp.Engine(Dmtp.Email, m2), rest).replies);
  }

  lemma Cons3<T>(a: T, b: T, c: T, rest: seq<T>)
    ensures [a, b, c] + rest == [a] + ([b] + ([c] + rest))
  {
  }

  /** "begin" in state BEGIN is answered "ok" and opens EMAIL. */
  lemma BeginStep(rest: seq<string>)
    ensures var tail := ClientHandler.Serve(Dmtp.Engine(Dmtp.Email, Blank), rest);
      ClientHandler.Serve(Dmtp.Engine(Dmtp.Begin, Blank), ["begin"] + rest)
      == ClientHandler.Log(["ok"] + tail.replies, tail.queued)
  {
    assert !EqualsIgnoreCase("begin", "quit") && EqualsIgnoreCase("begin", "begin");
    NotSend("begin");
    OkLine(Dmtp.Engine(Dmtp.Begin, Blank), "begin", rest, Dmtp.Engine(Dmtp.Email, Blank), "ok");
  }

  /** "from <address>" in EMAIL with a blank message sets the sender. */
  lemma FromStep(from: string, rest: seq<string>)
    requires IsAddress(from) && from != ""
    ensures var tail := ClientHandler.Serve(Dmtp.Engine(Dmtp.Email, Blank.(sender := Some(from))), rest);
      ClientHandler.Serve(Dmtp.Engine(Dmtp.Email, Blank), ["from " + from] + rest)
      == ClientHandler.Log(["ok"] + tail.replies, tail.queued)
  {
    Dmtp.FromRoutes(Dmtp.Engine(Dmtp.Email, Blank), from);
    Dmtp.SenderAlone(from);
    NotSend("from " + from);
    OkLine(Dmtp.Engine(Dmtp.Email, Blank), "from " + from, rest, Dmtp.Engine(Dmtp.Email, Blank.(sender := Some(from))), "ok");
  }

  /** "to" with a comma-joined list of valid addresses sets exactly them. */
  lemma ToStep(m: Message, addrs: seq<string>)
    requires |addrs| >= 1 && forall i :: 0 <= i < |addrs| ==> IsAddress(addrs[i])
    ensures Dmtp.ProcessInput(Dmtp.Engine(Dmtp.Email, m), "to " + Join(addrs, ","))
      == Dmtp.Step(Dmtp.Engine(Dmtp.Email, m.(recipients := addrs)), "ok " + IntToString(|addrs|))
  {
    var to := Join(addrs, ",");
    JoinLength(addrs, ",");
    Dmtp.ToReplacesRecipients(Dmtp.Engine(Dmtp.Email, m), to);
    Dmtp.ToCountsAddresses(Dmtp.Engine(Dmtp.Email, m), addrs);
  }

  /** The count reply "ok <n>" does not end the session. */
  lemma CountGoesOn(n: nat)
    ensures !Dmtp.Ends("ok " + IntToString(n))
  {
    var okCount := "ok " + IntToString(n);
    assert AllDigits(IntToString(n));
    assert okCount[3] == IntToString(n)[0];
    assert Dmtp.Bye[3] == 'b' && Dmtp.ProtocolError[0] == 'e';
  }

  lemma EnvelopeSplit(from: string, to: string, subject: string, data: string, hash: string)
    ensures Envelope(from, to, subject, data, hash)
      == ["begin", "from " + from, "to " + to] + ["subject " + subject, "data " + data, "hash " + hash, "send"]
  {
    var a := ["begin", "from " + from, "to " + to];
    var b := ["subject " + subject, "data " + data, "hash " + hash, "send"];
    var e := Envelope(from, to, subject, data, hash);
    assert |e| == |a + b| == 7;
    forall i | 0 <= i < 7 ensures e[i] == (a + b)[i] {
      if i < 3 { assert (a + b)[i] == a[i]; } else { assert (a + b)[i] == b[i - 3]; }
    }
  }

  /** The transfer server's loop, from BEGIN, answers the whole envelope and
      queues the composed message. */
  lemma EnvelopeServed(from: string, addrs: seq<string>, subject: string, data: string, hash: string)
    requires IsAddress(from) && |addrs| >= 1 && forall i :: 0 <= i < |addrs| ==> IsAddress(addrs[i])
    requires subject != "" && data != "" && hash != ""
    ensures ClientHandler.Serve(Dmtp.Engine(Dmtp.Begin, Blank), Envelope(from, Join(addrs, ","), subject, data, hash))
      == ClientHandler.Log(["ok", "ok", "ok " + IntToString(|addrs|), "ok", "ok", "ok", "ok"],
                           [Message(Some(from), addrs, Some(subject), Some(data), Some(hash))])
  {
    var m2 := Blank.(sender := Some(from), recipients := addrs);
    var tail := ["subject " + subject, "data " + data, "hash " + hash, "send"];
    EnvelopeSplit(from, Join(addrs, ","), subject, data, hash);
    var full := Message(Some(from), addrs, Some(subject), Some(data), Some(hash));
    assert m2.(subject := Some(subject), data := Some(data), hash := Some(hash)) == full;
    EnvelopeTail(m2, subject, data, hash);
    var t := ClientHandler.Serve(Dmtp.Engine(Dmtp.Email, m2), tail);
    assert t.replies == ["ok", "ok", "ok", "ok"] && t.queued == [full];
    EnvelopeHead(from, addrs, tail);
    Concat3x4("ok", "ok", "ok " + IntToString(|addrs|), "ok");
  }

  lemma Cons1x7<T>(g: T, a: T, c: T)
    ensures [g] + [a, a, c, a, a, a, a] == [g, a, a, c, a, a, a, a]
  {
  }

  lemma Concat3x4<T>(a: T, b: T, c: T, d: T)
    ensures [a, b, c] + [d, d, d, d] == [a, b, c, d, d, d, d]
  {
  }

  /** End to end: the envelope of a message from a valid address to a
      comma-separated list of valid addresses, with non-empty subject, data
      and hash, is answered "ok" at every line by the transfer server's
      session, which queues exactly that message; sendMessage returns "ok". */
  lemma EnvelopeQueued(from: string, addrs: seq<string>, subject: string, data: string, hash: string)
    requires IsAddress(from) && |addrs| >= 1 && forall i :: 0 <= i < |addrs| ==> IsAddress(addrs[i])
    requires subject != "" && data != "" && hash != ""
    ensures var t := ClientHandler.Session(Envelope(from, Join(addrs, ","), subject, data, hash));
      t.replies == [Dmtp.Greeting, "ok", "ok", "ok " + IntToString(|addrs|), "ok", "ok", "ok", "ok"]
      && t.queued == [Message(Some(from), addrs, Some(subject), Some(data), Some(hash))]
      && SendMessage(from, Join(addrs, ","), subject, data, hash, t.replies[1..])
         == Exchange(Envelope(from, Join(addrs, ","), subject, data, hash), Ok("ok"))
  {
    var lines := Envelope(from, Join(addrs, ","), subject, data, hash);
    var replies := ["ok", "ok", "ok " + IntToString(|addrs|), "ok", "ok", "ok", "ok"];
    ClientHandler.Greeted(lines);
    EnvelopeServed(from, addrs, subject, data, hash);
    var t := ClientHandler.Session(lines);
    assert t.replies == [Dmtp.Greeting] + replies;
    Cons1x7(Dmtp.Greeting, "ok", "ok " + IntToString(|addrs|));
    assert t.replies[1..] == replies;
    AllOk(lines, |addrs|);
    assert SendMessage(from, Join(addrs, ","), subject, data, hash, t.replies[1..]) == Converse(lines, replies);
  }

  /** Seven replies that all start with "ok" let sendMessage through. */
  lemma AllOk(lines: seq<string>, n: int)
    requires |lines| == 7
    ensures Converse(lines, ["ok", "ok", "ok " + IntToString(n), "ok", "ok", "ok", "ok"]) == Exchange(lines, Ok("ok"))
  {
    var replies := ["ok", "ok", "ok " + IntToString(n), "ok", "ok", "ok", "ok"];
    assert StartsWith(replies[2], "ok") by { assert replies[2][..2] == "ok"; }
    assert StartsWith("ok", "ok");
    assert forall i :: 0 <= i < |lines| ==> StartsWith(replies[i], "ok");
  }
}

=== FILE: client_handler.dfy ===
/** The transfer server's client session (dslab.transfer.ClientHandler.run):
    the engine's greeting, then one reply per request line. A line "send"
    (in any case) answered "ok" puts the engine's message on the forwarding
    queue; a reply "ok bye" or "error protocol error" ends the session. */
module ClientHandler {
  import opened Wrappers
  import opened JString
  import opened Mail
  import opened Users
  import opened Patterns
  import Dmtp
  import MailboxHandler
  import Forwarding
  import Relay

  /** What a session leaves behind: the reply lines written and the messages
      put on the queue, in order. Each queued message starts one forwarding
      task. */
  datatype Log = Log(replies: seq<string>, queued: seq<Message>)

  /** The condition under which the loop enqueues. */
  predicate Enqueues(request: string, reply: string) {
    EqualsIgnoreCase(request, "send") && reply == "ok"
  }

  /** The read loop of run, from engine `e`. */
  function Serve(e: Dmtp.Engine, lines: seq<string>): (r: Log)
    ensures |r.replies| <= |lines| && |r.queued| <= |r.replies|
    ensures |r.replies| == |lines| || (|r.replies| > 0 && Dmtp.Ends(r.replies[|r.replies| - 1]))
    ensures forall i :: 0 <= i < |r.replies| - 1 ==> !Dmtp.Ends(r.replies[i])
    decreases |lines|
  {
    if |lines| == 0 then Log([], [])
    else
      var st := Dmtp.ProcessInput(e, lines[0]);
      if Enqueues(lines[0], st.reply) then
        var rest := Serve(st.engine, lines[1..]);
        Log([st.reply] + rest.replies, [st.engine.message] + rest.queued)
      else if Dmtp.Ends(st.reply) then Log([st.reply], [])
      else
        var rest := Serve(st.engine, lines[1..]);
        Log([st.reply] + rest.replies, rest.queued)
  }

  /** run: the greeting is the engine's reply to an empty line, written
      before any request is read. */
  function Session(lines: seq<string>): (r: Log)
    ensures |r.replies| >= 1 && r.replies[0] == Dmtp.Greeting
    ensures |r.replies| <= |lines| + 1
  {
    var hello := Dmtp.ProcessInput(Dmtp.Fresh, "");
    var rest := Serve(hello.engine, lines);
    Log([hello.reply] + rest.replies, rest.queued)
  }

  // ---------------------------------------------------------------- lemmas

  /** The session starts the loop in BEGIN with a blank message. */
  lemma Greeted(lines: seq<string>)
    ensures var rest := Serve(Dmtp.Engine(Dmtp.Begin, Blank), lines);
      Session(lines) == Log([Dmtp.Greeting] + rest.replies, rest.queued)
  {
    Dmtp.NotQuit("");
  }

  /** In state EMAIL, "send" in any case runs the checks of `send` and leaves
      the engine as it was. */
  lemma SendInEmail(e: Dmtp.Engine, request: string)
    requires e.phase == Dmtp.Email && EqualsIgnoreCase(request, "send")
    ensures Dmtp.ProcessInput(e, request) == Dmtp.Step(e, Dmtp.SendCheck(e.message))
  {
    assert LowerAscii(request[0]) == LowerAscii("send"[0]);
    assert request[0] == 's' || request[0] == 'S';
    assert !StartsWith(request, "data") by { assert "data"[0] == 'd'; }
    assert !StartsWith(request, "to ") by { assert "to "[0] == 't'; }
    assert !StartsWith(request, "hash") by { assert "hash"[0] == 'h'; }
    assert !EqualsIgnoreCase(request, "quit") by { assert LowerAscii("quit"[0]) == 'q'; }
  }

  /** A line that makes the loop enqueue leaves the engine unchanged, and the
      message it enqueues is one the transfer engine accepts. */
  lemma EnqueuedAccepted(e: Dmtp.Engine, request: string)
    requires WellAddressed(e.message)
    requires Enqueues(request, Dmtp.ProcessInput(e, request).reply)
    ensures e.phase == Dmtp.Email && Dmtp.ProcessInput(e, request).engine == e
    ensures Accepted(e.message)
  {
    assert !EqualsIgnoreCase(request, "quit") by { assert LowerAscii("quit"[0]) != LowerAscii("send"[0]); }
    assert !EqualsIgnoreCase(request, "begin");
    if e.phase == Dmtp.Email {
      SendInEmail(e, request);
    }
  }

  /** A message fit to forward: accepted by `send`, and with no empty hash. */
  predicate Forwardable(m: Message) {
    Accepted(m) && m.hash != Some("")
  }

  /** Every message a session queues, starting from a well-addressed engine
      without an empty hash, is fit to forward. */
  lemma {:induction false} QueuedForwardable(e: Dmtp.Engine, lines: seq<string>)
    requires WellAddressed(e.message) && e.message.hash != Some("")
    ensures forall i :: 0 <= i < |Serve(e, lines).queued| ==> Forwardable(Serve(e, lines).queued[i])
    decreases |lines|
  {
    if |lines| > 0 {
      var st := Dmtp.ProcessInput(e, lines[0]);
      QueuedForwardable(st.engine, lines[1..]);
      if Enqueues(lines[0], st.reply) {
        EnqueuedAccepted(e, lines[0]);
      }
    }
  }

  /** The replies are the engine's own replies to the lines read, cut where
      the session ends. */
  lemma {:induction false} RepliesFollowEngine(e: Dmtp.Engine, lines: seq<string>)
    ensures Serve(e, lines).replies == Dmtp.Replies(e, lines)[..|Serve(e, lines).replies|]
    decreases |lines|
  {
    if |lines| > 0 {
      var st := Dmtp.ProcessInput(e, lines[0]);
      RepliesFollowEngine(st.engine, lines[1..]);
      var all := Dmtp.Replies(e, lines);
      assert all == [st.reply] + Dmtp.Replies(st.engine, lines[1..]);
    }
  }

  /** Repeated "send" lines on one connection enqueue the same message once
      per line. */
  lemma {:induction false} SendsRepeat(e: Dmtp.Engine, k: nat)
    requires e.phase == Dmtp.Email && Accepted(e.message)
    ensures Serve(e, seq(k, _ => "send")) == Log(seq(k, _ => "ok"), seq(k, _ => e.message))
    decreases k
  {
    if k > 0 {
      var lines := seq(k, _ => "send");
      assert lines[0] == "send" && lines[1..] == seq(k - 1, _ => "send");
      assert EqualsIgnoreCase("send", "send");
      SendInEmail(e, "send");
      SendsRepeat(e, k - 1);
      assert seq(k, _ => "ok") == ["ok"] + seq(k - 1, _ => "ok");
      assert seq(k, _ => e.message) == [e.message] + seq(k - 1, _ => e.message);
    }
  }

  /** End to end: every message a client session queues, once forwarded as
      the eight lines of the forwarding task, is answered in full by a
      mailbox server's session and delivered there as the relayed message. */
  lemma QueuedArrivesIntact(lines: seq<string>, i: nat, users: seq<User>, config: set<string>, domain: string)
    requires AllWellFormed(users) && i < |Session(lines).queued|
    ensures Forwardable(Session(lines).queued[i])
    ensures var m := Session(lines).queued[i];
      var t := MailboxHandler.Session(users, config, domain, Forwarding.ParseMessage(m).value);
      var r := Relay.Relayed(m);
      !t.crashed && |t.replies| == 9 && t.replies[8] == Dmtp.Bye
      && t.users == MailboxHandler.DeliverTo(users, FindLocals(r.recipients[0], domain), r, config)
  {
    Greeted(lines);
    QueuedForwardable(Dmtp.Engine(Dmtp.Begin, Blank), lines);
    Relay.RelayedIntact(users, config, domain, Session(lines).queued[i]);
  }
}

=== FILE: crypto.dfy ===
/** The encodings and ciphers the secure mailbox channel and the message
    integrity check are built from. The algorithms themselves are outside
    the model: each is a parameter, and `Laws` states the inverse relations
    the protocol depends on (section 4 of RFC 4648 for Base64, section 7.2 of
    RFC 8017 for RSA with PKCS #1 v1.5 padding, section 6.5 of NIST SP 800-38A
    for AES in counter mode, RFC 2104 for HMAC). */
module Crypto {
  import opened Wrappers
  import opened JString

  newtype Byte = b: int | 0 <= b < 256

  type Bytes = seq<Byte>

  /** One choice of the primitives. A decoder that throws answers None. */
  datatype Primitives = Primitives(
    encode: Bytes -> string,          // Base64.getEncoder().encodeToString
    decode: string -> Option<Bytes>,  // Base64.getDecoder().decode
    bytes: string -> Bytes,           // String.getBytes, default charset
    text: Bytes -> string,            // new String(bytes), default charset
    seal: Bytes -> Bytes,             // RSA encryption under the server's public key
    unseal: Bytes -> Option<Bytes>,   // RSA decryption under its private key
    aes: (Bytes, Bytes, Bytes) -> Bytes,  // AES/CTR doFinal with key and IV
    mac: (Bytes, Bytes) -> Bytes)     // HMAC-SHA256 with a key

  /** The alphabet of Base64 with padding (table 1 of RFC 4648). */
  predicate Base64Char(c: char) {
    'A' <= c <= 'Z' || 'a' <= c <= 'z' || '0' <= c <= '9' || c == '+' || c == '/' || c == '='
  }

  /** What the protocol relies on: Base64 decodes what it encoded, writes
      only its alphabet, in blocks of four characters, and writes something
      for a non-empty input; the
      charset round-trips text; the private key opens what the public key
      sealed; counter mode with the same key and IV is its own inverse
      (every doFinal restarts the key stream); HMAC-SHA256 gives 32 bytes. */
  ghost predicate Laws(p: Primitives) {
    (forall b :: p.decode(p.encode(b)) == Some(b))
    && (forall b, i :: 0 <= i < |p.encode(b)| ==> Base64Char(p.encode(b)[i]))
    && (forall b :: |p.encode(b)| % 4 == 0)
    && (forall b :: b != [] ==> p.encode(b) != "")
    && (forall s :: p.text(p.bytes(s)) == s)
    && (forall b :: p.unseal(p.seal(b)) == Some(b))
    && (forall k, iv, b :: p.aes(k, iv, p.aes(k, iv, b)) == b)
    && (forall k, b :: |p.mac(k, b)| == 32)
  }

  /** Key and IV sizes the AES cipher accepts at init: a 128, 192 or 256-bit
      key and a 16-byte IV. */
  predicate AesAccepts(key: Bytes, iv: Bytes) {
    (|key| == 16 || |key| == 24 || |key| == 32) && |iv| == 16
  }

  /** The AES session both ends hold after the handshake. */
  datatype Channel = Channel(key: Bytes, iv: Bytes)

  /** sendSecure's line: the Base64 of the encrypted text. */
  function Wrap(p: Primitives, ch: Channel, s: string): string {
    p.encode(p.aes(ch.key, ch.iv, p.bytes(s)))
  }

  /** readSecure's decoding of a line; None where Base64 decoding throws. */
  function Unwrap(p: Primitives, ch: Channel, line: string): Option<string> {
    match p.decode(line)
    case None => None
    case Some(c) => Some(p.text(p.aes(ch.key, ch.iv, c)))
  }

  /** A line written through the channel reads back as the text sent. */
  lemma UnwrapWrap(p: Primitives, ch: Channel, s: string)
    requires Laws(p)
    ensures Unwrap(p, ch, Wrap(p, ch, s)) == Some(s)
  {
    var c := p.aes(ch.key, ch.iv, p.bytes(s));
    assert p.decode(p.encode(c)) == Some(c);
    assert p.aes(ch.key, ch.iv, c) == p.bytes(s);
  }

  /** Base64 text holds neither a space nor a line break, so it survives
      being split into words or lines. */
  lemma EncodeFree(p: Primitives, b: Bytes)
    requires Laws(p)
    ensures FreeOf(p.encode(b), Exactly(' ')) && FreeOf(p.encode(b), Exactly('\n'))
  {
    forall k | 0 <= k < |p.encode(b)|
      ensures p.encode(b)[k] != ' ' && p.encode(b)[k] != '\n'
    {
      assert Base64Char(p.encode(b)[k]);
    }
  }
}

=== FILE: dmap.dfy ===
/** The mailbox access protocol engine (dslab.protocol.DMAP): a four-state
    machine over the mailbox server's user list. One call takes the session,
    the user list, the request line and gives the next session, the next user
    list and the reply.

    The session's logged-in user is a reference into the shared user list; it
    is modelled as an index into `users`, which only ever grows (users are
    appended, never removed), so an index once valid stays valid. */
module Dmap {
  import opened Wrappers
  import opened JString
  import opened Mail
  import opened Users

  datatype Phase = Waiting | Login | Commands | Secure

  /** `state`, `loggedInUser` (None for null) and `secure`. */
  datatype Session = Session(phase: Phase, bound: Option<nat>, secure: bool)

  const Fresh: Session := Session(Waiting, None, false)

  /** The server's fixed inputs: the user/password configuration and the
      component id announced on `startsecure`. */
  datatype Server = Server(passwords: map<string, string>, componentId: string)

  /** What one call yields: a reply line, or the NumberFormatException that
      `Integer.parseInt` throws on a malformed message id, which ends the
      session's thread. */
  datatype Outcome = Reply(line: string) | Abort

  datatype Step = Step(session: Session, users: seq<User>, out: Outcome)

  const Greeting: string := "ok DMAP2.0"
  const ProtocolError: string := "error protocol error"
  const UnknownError: string := "error unknown error"
  const UnknownId: string := "error unknown message id"
  const NoData: string := "no data available for this user"

  /** The logged-in user, when there is one, is an element of the list. */
  predicate Bound(s: Session, users: seq<User>) {
    s.bound.Some? ==> s.bound.value < |users|
  }

  /** The invariant the engine keeps: in COMMANDS a user is logged in. */
  predicate Valid(s: Session, users: seq<User>) {
    Bound(s, users) && (s.phase == Commands ==> s.bound.Some?)
  }

  // ------------------------------------------------------------ list / show

  /** One `list` line before the final trim. */
  function ListLine(e: Entry): string {
    IntToString(e.id) + " " + Text(e.message.sender) + " " + Text(e.message.subject)
  }

  /** The accumulated `list` text: every line followed by the separator. */
  function Listing(es: seq<Entry>): string {
    if |es| == 0 then "" else ListLine(es[0]) + "\n" + Listing(es[1..])
  }

  /** The `list` reply: the listing, trimmed, then "ok" on a line of its own. */
  function ListReply(es: seq<Entry>): (r: string)
    ensures |es| == 0 ==> r == "ok"
    ensures |r| >= 2 && r[|r| - 2..] == "ok"
  {
    var listing := Listing(es);
    if listing != "" then Trim(listing) + "\n" + "ok" else "ok"
  }

  /** The recipient field as `show` prints it: all recipient strings run
      together, every space turned into a comma. */
  function ShowRecipients(m: Message): string {
    ReplaceChar(Concat(m.recipients), ' ', Some(','))
  }

  function Concat(ss: seq<string>): string {
    if |ss| == 0 then "" else ss[0] + Concat(ss[1..])
  }

  /** The five field lines of `show`, without the final "ok". */
  function ShowFields(m: Message): (r: seq<string>)
    ensures |r| == 5
    ensures r[0] == "from " + Text(m.sender) && r[2] == "subject " + Text(m.subject)
      && r[3] == "data " + Text(m.data)
    ensures m.hash.Some? ==> r[4] == "hash " + m.hash.value
    ensures m.hash.None? ==> r[4] == "hash "
    ensures r[1] == "to " + ShowRecipients(m)
  {
    ["from " + Text(m.sender),
     "to " + ShowRecipients(m),
     "subject " + Text(m.subject),
     "data " + Text(m.data),
     "hash " + (if m.hash.Some? then m.hash.value else "")]
  }

  function ShowReply(es: seq<Entry>, id: int): (r: string)
    ensures Lookup(es, id).None? <==> r == UnknownId
  {
    match Lookup(es, id)
    case None => UnknownId
    case Some(m) =>
      var r := Join(ShowFields(m) + ["ok"], "\n");
      assert r[0] == 'f';
      r
  }

  /** Parse of `show <id>` / `delete <id>`: the id, or the error reply. */
  datatype IdArg = Id(id: int) | Bad(reply: string) | NotANumber

  function ParseIdArg(request: string): (r: IdArg)
    ensures r.Bad? <==> |Split(request, Whitespace)| != 2
  {
    var parts := Split(request, Whitespace);
    if |parts| <= 1 then Bad("error no message id given")
    else if |parts| > 2 then Bad("error to many parameter")
    else match ParseInt(parts[1])
      case None => NotANumber
      case Some(id) => Id(id)
  }

  // ------------------------------------------------------------------ login

  /** The binding step of a successful login AS WRITTEN (DMAP.java:102-111):
      the loop binds the first user with the name, but a new user is created
      only while no user is bound, so a session that still holds a user keeps
      it when the new name has no entry yet. */
  function BindAsWritten(users: seq<User>, bound: Option<nat>, name: string): (r: (seq<User>, nat))
    requires bound.Some? ==> bound.value < |users|
    ensures r.1 < |r.0|
  {
    match FindUser(users, name)
    case Some(k) => (users, k)
    case None =>
      if bound.Some? then (users, bound.value) else (users + [NewUser(name)], |users|)
  }

  /** The binding step as intended: the session ends up holding the user
      called `name`, appended when there is none. The engine below binds as
      the source is written; `BindIntended` relates the two. */
  function Bind(users: seq<User>, name: string): (r: (seq<User>, nat))
    ensures r.1 < |r.0| && r.0[r.1].name == name
  {
    Ensure(users, name)
  }

  /** What every step keeps: the logged-in user stays an element of the
      list, the list only grows and keeps its names, and COMMANDS is entered
      only with a user bound. */
  predicate Keeps(s: Session, users: seq<User>, r: Step) {
    Bound(r.session, r.users)
    && (Valid(s, users) ==> Valid(r.session, r.users))
    && |r.users| >= |users|
    && (forall i :: 0 <= i < |users| ==> r.users[i].name == users[i].name)
    && (r.session.phase == Commands ==> r.session.bound.Some? || s.phase == Commands)
  }

  function LoginStep(s: Session, users: seq<User>, srv: Server, request: string): (r: Step)
    requires s.phase == Login && Bound(s, users)
    ensures Keeps(s, users, r)
  {
    var s1 := if s.bound.Some? then s.(phase := Commands) else s;
    if !StartsWith(request, "login ") then Step(s1, users, Reply(ProtocolError))
    else
      var parts := Split(request, Whitespace);
      if |parts| != 3 then Step(s1, users, Reply(ProtocolError))
      else if parts[1] !in srv.passwords then Step(s1, users, Reply("error user not found"))
      else if srv.passwords[parts[1]] != parts[2] then Step(s1, users, Reply("error wrong password"))
      else
        var (us, k) := BindAsWritten(users, s.bound, parts[1]);
        Step(s1.(phase := Commands, bound := Some(k)), us, Reply("ok"))
  }

  function CommandStep(s: Session, users: seq<User>, request: string): (r: Step)
    requires s.phase == Commands && Bound(s, users)
    ensures Keeps(s, users, r)
  {
    if EqualsIgnoreCase(request, "logout") then Step(Session(Login, None, false), users, Reply("ok"))
    else if s.bound.None? then Step(s, users, Reply(NoData))
    else
      var k := s.bound.value;
      var u := users[k];
      if EqualsIgnoreCase(request, "list") then Step(s, users, Reply(ListReply(u.entries)))
      else if StartsWith(request, "show") then
        match ParseIdArg(request)
        case Bad(reply) => Step(s, users, Reply(reply))
        case NotANumber => Step(s, users, Abort)
        case Id(id) => Step(s, users, Reply(ShowReply(u.entries, id)))
      else if StartsWith(request, "delete") then
        match ParseIdArg(request)
        case Bad(reply) => Step(s, users, Reply(reply))
        case NotANumber => Step(s, users, Abort)
        case Id(id) =>
          if Lookup(u.entries, id).None? then Step(s, users, Reply(UnknownId))
          else Step(s, users[k := u.(entries := Remove(u.entries, id))], Reply("ok"))
      else Step(s, users, Reply(UnknownError))
  }

  /** DMAP.processInput. */
  function ProcessInput(s: Session, users: seq<User>, srv: Server, request: string): (r: Step)
    requires Bound(s, users)
    ensures Bound(r.session, r.users)
    ensures Valid(s, users) ==> Valid(r.session, r.users)
    ensures |r.users| >= |users|
    ensures forall i :: 0 <= i < |users| ==> r.users[i].name == users[i].name
    ensures EqualsIgnoreCase(request, "quit") ==>
      r == Step(Session(Login, None, false), users, Reply("ok bye"))
    ensures !EqualsIgnoreCase(request, "quit") && EqualsIgnoreCase(request, "startsecure") && !s.secure ==>
      r == Step(s.(phase := Secure, secure := true), users, Reply("ok " + srv.componentId))
    ensures r.session.phase == Commands ==> r.session.bound.Some? || s.phase == Commands
  {
    if EqualsIgnoreCase(request, "quit") then
      Step(Session(Login, None, false), users, Reply("ok bye"))
    else if EqualsIgnoreCase(request, "startsecure") && !s.secure then
      Step(s.(phase := Secure, secure := true), users, Reply("ok " + srv.componentId))
    else match s.phase
      case Waiting => Step(s.(phase := Login), users, Reply(Greeting))
      case Secure =>
        if EqualsIgnoreCase(request, "ok") then Step(s.(phase := Login), users, Reply(UnknownError))
        else Step(Session(Waiting, None, false), users, Reply(""))
      case Login => LoginStep(s, users, srv, request)
      case Commands => CommandStep(s, users, request)
  }

  // ---------------------------------------------------------------- lemmas

  lemma IntToStringFree(n: int)
    ensures FreeOf(IntToString(n), Whitespace) && IntToString(n) != ""
  {
    var t := IntToString(n);
    var digits := NatToString(if n < 0 then -n else n);
    forall k | 0 <= k < |t| ensures !IsDelim(Whitespace, t[k]) {
      if n < 0 && k > 0 { assert t[k] == digits[k - 1]; }
    }
  }

  /** `show <id>` and `delete <id>` with the id printed as `list` prints it
      parse back to that id. */
  lemma ParseIdArgOfPrinted(keyword: string, id: int)
    requires keyword != "" && FreeOf(keyword, Whitespace) && InInt32(id)
    ensures ParseIdArg(keyword + " " + IntToString(id)) == Id(id)
  {
    IntToStringFree(id);
    SplitJoinBy([keyword, IntToString(id)], ' ', Whitespace);
    ParseIntToString(id);
  }

  /** The number of words after the keyword is checked before the id is
      parsed. */
  lemma ParseIdArgMissing()
    ensures ParseIdArg("show") == Bad("error no message id given")
  {
    SplitJoinBy(["show"], ' ', Whitespace);
  }

  lemma ParseIdArgTooMany()
    ensures ParseIdArg("show 1 2") == Bad("error to many parameter")
  {
    assert "show 1 2" == Join(["show", "1", "2"], " ");
    SplitJoinBy(["show", "1", "2"], ' ', Whitespace);
  }

  /** A well-formed `login <name> <password>` in state LOGIN: an unknown name
      and a wrong password are reported as such and change nothing but the
      phase (a session that still holds a user enters COMMANDS first); the
      right password moves to COMMANDS with the binding the source performs:
      the user called <name> when the session held nobody or the name has an
      entry (appended when it has none), and otherwise the user the session
      already held. */
  lemma LoginOutcome(s: Session, users: seq<User>, srv: Server, name: string, password: string)
    requires s.phase == Login && Bound(s, users)
    requires name != "" && FreeOf(name, Whitespace) && password != "" && FreeOf(password, Whitespace)
    ensures var r := ProcessInput(s, users, srv, "login " + name + " " + password);
      var s1 := if s.bound.Some? then s.(phase := Commands) else s;
      (name !in srv.passwords ==> r == Step(s1, users, Reply("error user not found")))
      && (name in srv.passwords && srv.passwords[name] != password ==>
            r == Step(s1, users, Reply("error wrong password")))
      && (name in srv.passwords && srv.passwords[name] == password ==>
            r.out == Reply("ok") && r.session.phase == Commands && r.session.secure == s.secure
            && r.session.bound.Some?
            && (r.users, r.session.bound.value) == BindAsWritten(users, s.bound, name)
            && ((s.bound.None? || FindUser(users, name).Some?) ==>
                  r.users[r.session.bound.value].name == name
                  && (r.users, r.session.bound.value) == Bind(users, name))
            && (s.bound.Some? && FindUser(users, name).None? ==>
                  r.users == users && r.session.bound == s.bound)
            && (UniqueNames(users) ==> UniqueNames(r.users)))
  {
    var request := "login " + name + " " + password;
    assert Join(["login", name, password], " ") == "login" + " " + Join([name, password], " ");
    assert Join([name, password], " ") == name + " " + password;
    assert request == Join(["login", name, password], " ");
    SplitJoinBy(["login", name, password], ' ', Whitespace);
    assert StartsWith(request, "login ");
    assert !EqualsIgnoreCase(request, "quit") && !EqualsIgnoreCase(request, "startsecure") by {
      assert |request| >= 9 && request[6] != ' ';
      if |request| == 11 {
        assert LowerAscii(request[0]) != LowerAscii("startsecure"[0]);
      }
    }
  }

  /** `logout` leaves COMMANDS for LOGIN with nobody logged in. */
  lemma LogoutClears(s: Session, users: seq<User>, srv: Server)
    requires s.phase == Commands && Bound(s, users)
    ensures ProcessInput(s, users, srv, "logout") == Step(Session(Login, None, false), users, Reply("ok"))
  {
    assert !EqualsIgnoreCase("logout", "startsecure");
    assert EqualsIgnoreCase("logout", "logout");
  }

  /** In SECURE, "ok" returns to LOGIN; anything else drops the user and the
      secure flag and goes back to WAITING with an empty reply. */
  lemma SecureOutcome(s: Session, users: seq<User>, srv: Server, request: string)
    requires s.phase == Secure && s.secure && Bound(s, users)
    requires !EqualsIgnoreCase(request, "quit")
    ensures var r := ProcessInput(s, users, srv, request);
      r.users == users
      && (EqualsIgnoreCase(request, "ok") ==> r.session == s.(phase := Login))
      && (!EqualsIgnoreCase(request, "ok") ==> r == Step(Session(Waiting, None, false), users, Reply("")))
  {
  }

  /** In LOGIN any line that is not a `login` request is a protocol error and
      binds nobody new. */
  lemma LoginRejectsOther(s: Session, users: seq<User>, srv: Server, request: string)
    requires s.phase == Login && Bound(s, users)
    requires !EqualsIgnoreCase(request, "quit") && !(EqualsIgnoreCase(request, "startsecure") && !s.secure)
    requires !StartsWith(request, "login ")
    ensures var s1 := if s.bound.Some? then s.(phase := Commands) else s;
      ProcessInput(s, users, srv, request) == Step(s1, users, Reply(ProtocolError))
  {
  }

  /** While the invariant holds, the "no data available" reply cannot occur. */
  lemma NoDataUnreachable(s: Session, users: seq<User>, srv: Server, request: string)
    requires Valid(s, users)
    ensures ProcessInput(s, users, srv, request).out != Reply(NoData)
  {
    assert NoData[0] == 'n' && NoData[|NoData| - 1] == 'r';
    if EqualsIgnoreCase(request, "quit") || (EqualsIgnoreCase(request, "startsecure") && !s.secure) {
    } else if s.phase == Commands {
      ProcessInputCommands(s, users, srv, request);
      NoDataInCommands(s, users, request);
    }
  }

  /** A bound session in COMMANDS never answers "no data available". */
  lemma NoDataInCommands(s: Session, users: seq<User>, request: string)
    requires s.phase == Commands && Valid(s, users)
    ensures CommandStep(s, users, request).out != Reply(NoData)
  {
    assert NoData[0] == 'n' && NoData[|NoData| - 1] == 'r';
    if !EqualsIgnoreCase(request, "logout") {
      var u := users[s.bound.value];
      ListReplyEndsOk(u.entries);
      if StartsWith(request, "show") && ParseIdArg(request).Id? {
        var id := ParseIdArg(request).id;
        if Lookup(u.entries, id).Some? {
          assert ShowReply(u.entries, id)[0] == 'f';
        }
      }
    }
  }

  lemma ProcessInputCommands(s: Session, users: seq<User>, srv: Server, request: string)
    requires s.phase == Commands && Bound(s, users)
    requires !EqualsIgnoreCase(request, "quit") && !(EqualsIgnoreCase(request, "startsecure") && !s.secure)
    ensures ProcessInput(s, users, srv, request) == CommandStep(s, users, request)
  {
  }

  lemma ListReplyEndsOk(es: seq<Entry>)
    ensures |ListReply(es)| >= 2 && ListReply(es)[|ListReply(es)| - 1] == 'k'
  {
  }

  /** The request `<keyword> <id>` reaches the `show` or `delete` branch. */
  lemma IdCommandRoutes(keyword: string, id: int)
    requires keyword == "show" || keyword == "delete"
    ensures var request := keyword + " " + IntToString(id);
      !EqualsIgnoreCase(request, "quit") && !EqualsIgnoreCase(request, "startsecure")
      && !EqualsIgnoreCase(request, "logout") && !EqualsIgnoreCase(request, "list")
      && StartsWith(request, keyword) && (keyword == "delete" ==> !StartsWith(request, "show"))
  {
    var request := keyword + " " + IntToString(id);
    assert request[..|keyword|] == keyword;
    assert request[|keyword|] == ' ';
    assert LowerAscii(request[0]) != 'q' && LowerAscii(request[0]) != 'l';
    if |request| == 11 {
      assert LowerAscii(request[|keyword|]) != LowerAscii("startsecure"[|keyword|]);
    }
  }

  /** `show <id>` in COMMANDS answers with that message of the logged-in
      user, or "error unknown message id", and changes nothing. */
  lemma ShowStep(s: Session, users: seq<User>, srv: Server, id: int)
    requires s.phase == Commands && s.bound.Some? && s.bound.value < |users| && InInt32(id)
    ensures ProcessInput(s, users, srv, "show " + IntToString(id))
      == Step(s, users, Reply(ShowReply(users[s.bound.value].entries, id)))
  {
    var request := "show " + IntToString(id);
    assert "show" + " " == "show ";
    IdCommandRoutes("show", id);
    ParseIdArgOfPrinted("show", id);
    ProcessInputCommands(s, users, srv, request);
    assert ParseIdArg(request) == Id(id);
    var u := users[s.bound.value];
    assert CommandStep(s, users, request) == Step(s, users, Reply(ShowReply(u.entries, id)));
  }

  /** `delete <id>` in COMMANDS removes a stored message and answers "ok", or
      answers "error unknown message id" and changes nothing. */
  lemma DeleteStep(s: Session, users: seq<User>, srv: Server, id: int)
    requires s.phase == Commands && s.bound.Some? && s.bound.value < |users| && InInt32(id)
    ensures var k := s.bound.value;
      var u := users[k];
      ProcessInput(s, users, srv, "delete " + IntToString(id))
      == if Lookup(u.entries, id).None? then Step(s, users, Reply(UnknownId))
         else Step(s, users[k := u.(entries := Remove(u.entries, id))], Reply("ok"))
  {
    var request := "delete " + IntToString(id);
    assert "delete" + " " == "delete ";
    IdCommandRoutes("delete", id);
    ParseIdArgOfPrinted("delete", id);
    ProcessInputCommands(s, users, srv, request);
    assert ParseIdArg(request) == Id(id);
  }

  /** Deleting a stored message removes exactly that message: `delete` answers
      "ok", every other message of every user is unchanged, and showing or
      deleting the same id afterwards answers "error unknown message id". */
  lemma DeleteThenShow(s: Session, users: seq<User>, srv: Server, id: int)
    requires s.phase == Commands && s.bound.Some? && s.bound.value < |users|
    requires InInt32(id) && Lookup(users[s.bound.value].entries, id).Some?
    ensures var r := ProcessInput(s, users, srv, "delete " + IntToString(id));
      var k := s.bound.value;
      r.out == Reply("ok") && r.session == s
      && (forall j :: j != id ==> Lookup(r.users[k].entries, j) == Lookup(users[k].entries, j))
      && (forall i :: 0 <= i < |users| && i != k ==> r.users[i] == users[i])
      && ProcessInput(r.session, r.users, srv, "show " + IntToString(id)).out == Reply(UnknownId)
      && ProcessInput(r.session, r.users, srv, "delete " + IntToString(id)).out == Reply(UnknownId)
  {
    var k := s.bound.value;
    DeleteStep(s, users, srv, id);
    var r := ProcessInput(s, users, srv, "delete " + IntToString(id));
    RemoveSpec(users[k].entries, id);
    ShowStep(r.session, r.users, srv, id);
    DeleteStep(r.session, r.users, srv, id);
  }

  /** An empty mailbox lists as the single line "ok". */
  lemma EmptyList()
    ensures ListReply([]) == "ok"
  {
  }

  /** The engine keeps the user list well-formed: names stay unique and every
      mailbox keeps distinct 32-bit ids. */
  lemma ProcessInputKeepsUsers(s: Session, users: seq<User>, srv: Server, request: string)
    requires Bound(s, users) && UniqueNames(users) && AllWellFormed(users)
    ensures UniqueNames(ProcessInput(s, users, srv, request).users)
    ensures AllWellFormed(ProcessInput(s, users, srv, request).users)
  {
    var r := ProcessInput(s, users, srv, request);
    if r.users != users && |r.users| == |users| {
      var k := s.bound.value;
      forall i | 0 <= i < |r.users| ensures WellFormed(r.users[i]) {
        if i == k {
          var id :| r.users[k].entries == Remove(users[k].entries, id);
          RemoveSpec(users[k].entries, id);
          RemoveKeepsIds(users[k].entries, id);
        }
      }
    }
  }

  lemma {:induction false} RemoveKeepsIds(es: seq<Entry>, id: int)
    requires forall i :: 0 <= i < |es| ==> InInt32(es[i].id)
    ensures forall i :: 0 <= i < |Remove(es, id)| ==> InInt32(Remove(es, id)[i].id)
  {
    if |es| > 0 {
      RemoveKeepsIds(es[1..], id);
    }
  }

  /** The first line of a session, whatever it is, is answered with the
      greeting and moves to LOGIN. */
  lemma GreetingStep(users: seq<User>, srv: Server, request: string)
    requires !EqualsIgnoreCase(request, "quit") && !EqualsIgnoreCase(request, "startsecure")
    ensures ProcessInput(Fresh, users, srv, request) == Step(Session(Login, None, false), users, Reply(Greeting))
  {
  }

  /** `startsecure` from a logged-in plaintext session keeps the user, and
      the "ok" that ends the handshake returns to LOGIN still holding it. */
  lemma SecureKeepsUser(k: nat, users: seq<User>, srv: Server)
    requires k < |users|
    ensures var s3 := ProcessInput(Session(Commands, Some(k), false), users, srv, "startsecure");
      s3.session == Session(Secure, Some(k), true)
      && ProcessInput(s3.session, users, srv, "ok").session == Session(Login, Some(k), true)
  {
    assert EqualsIgnoreCase("startsecure", "startsecure") && !EqualsIgnoreCase("startsecure", "quit");
    assert EqualsIgnoreCase("ok", "ok") && !EqualsIgnoreCase("ok", "quit") && !EqualsIgnoreCase("ok", "startsecure");
  }

  /** The stale binding of the source: a session that logged in as alice and
      then went through `startsecure` and "ok" is back in LOGIN still holding
      alice. */
  lemma StaleSessionReachable()
    ensures var srv := Server(map["alice" := "pw", "bob" := "pw2"], "mailbox-earth-planet");
      var s1 := ProcessInput(Fresh, [], srv, "");
      var s2 := ProcessInput(s1.session, s1.users, srv, "login alice pw");
      var s3 := ProcessInput(s2.session, s2.users, srv, "startsecure");
      var s4 := ProcessInput(s3.session, s3.users, srv, "ok");
      s4.session == Session(Login, Some(0), true) && s4.users == [NewUser("alice")]
  {
    var srv := Server(map["alice" := "pw", "bob" := "pw2"], "mailbox-earth-planet");
    assert "login alice pw" == "login " + "alice" + " " + "pw";
    StaleSession(srv, "alice", "pw", "login alice pw");
  }

  /** The same run for any user with the right password. */
  lemma StaleSession(srv: Server, name: string, password: string, request: string)
    requires name != "" && FreeOf(name, Whitespace) && password != "" && FreeOf(password, Whitespace)
    requires name in srv.passwords && srv.passwords[name] == password
    requires request == "login " + name + " " + password
    ensures var s1 := ProcessInput(Fresh, [], srv, "");
      var s2 := ProcessInput(s1.session, s1.users, srv, request);
      var s3 := ProcessInput(s2.session, s2.users, srv, "startsecure");
      var s4 := ProcessInput(s3.session, s3.users, srv, "ok");
      s4.session == Session(Login, Some(0), true) && s4.users == [NewUser(name)]
  {
    assert !EqualsIgnoreCase("", "quit") && !EqualsIgnoreCase("", "startsecure");
    GreetingStep([], srv, "");
    LoginOutcome(Session(Login, None, false), [], srv, name, password);
    var s2 := ProcessInput(Session(Login, None, false), [], srv, request);
    assert s2.session == Session(Commands, Some(0), false) && s2.users == [NewUser(name)];
    SecureKeepsUser(0, [NewUser(name)], srv);
  }

  /** There the engine, asked to log in bob, who is configured but has no
      entry yet, answers "ok" and still holds alice's mailbox, while the
      corrected step would bind a new user bob. */
  lemma StaleLoginBinding()
    ensures var srv := Server(map["alice" := "pw", "bob" := "pw2"], "mailbox-earth-planet");
      var users := [NewUser("alice")];
      var s := Session(Login, Some(0), true);
      var r := ProcessInput(s, users, srv, "login bob pw2");
      r.out == Reply("ok") && r.session.phase == Commands
      && r.session.bound == Some(0) && r.users == users && users[0].name != "bob"
      && Bind(users, "bob") == (users + [NewUser("bob")], 1)
  {
    var srv := Server(map["alice" := "pw", "bob" := "pw2"], "mailbox-earth-planet");
    var users := [NewUser("alice")];
    assert FindUser(users, "bob").None?;
    assert "login bob pw2" == "login " + "bob" + " " + "pw2";
    LoginOutcome(Session(Login, Some(0), true), users, srv, "bob", "pw2");
  }

  /** The corrected binding always holds the user with the requested name,
      reusing the first entry with it or appending one, and it agrees with
      the binding as written exactly when the session held nobody or the
      name already has an entry. */
  lemma BindIntended(users: seq<User>, bound: Option<nat>, name: string)
    requires bound.Some? ==> bound.value < |users|
    ensures var (us, k) := Bind(users, name);
      us[k].name == name
      && (FindUser(users, name).Some? ==> us == users && Some(k) == FindUser(users, name))
      && (FindUser(users, name).None? ==> us == users + [NewUser(name)] && k == |users|)
    ensures BindAsWritten(users, bound, name) == Bind(users, name)
      <==> bound.None? || FindUser(users, name).Some?
  {
  }
}

=== FILE: dmtp.dfy ===
/** The submission protocol engine (dslab.protocol.DMTP): a three-state machine
    that builds one message a line at a time. `ProcessInput` is the variant the
    transfer server runs (address syntax is checked); `ValidateRequest` is the
    variant a mailbox server runs (recipients are checked against the users of
    its domain). Each call takes the engine and one request line and gives the
    next engine and the one reply line. */
module Dmtp {
  import opened Wrappers
  import opened JString
  import opened Patterns
  import opened Mail

  datatype Phase = Waiting | Begin | Email

  datatype Engine = Engine(phase: Phase, message: Message)

  /** `new DMTP()`. */
  const Fresh: Engine := Engine(Waiting, Blank)

  datatype Step = Step(engine: Engine, reply: string)

  const Greeting: string := "ok DMTP2.0"
  const Bye: string := "ok bye"
  const ProtocolError: string := "error protocol error"

  /** `request.split("^(<keyword> )")[1]` after a successful prefix test: the
      text after the keyword and one space, or None where the split leaves
      fewer than two pieces (nothing follows the space, or the prefix is not
      there at all). */
  function Argument(request: string, keyword: string): (r: Option<string>)
    ensures r.Some? <==> StartsWith(request, keyword + " ") && |request| > |keyword| + 1
    ensures r.Some? ==> r.value != "" && request == keyword + " " + r.value
  {
    if StartsWith(request, keyword + " ") && |request| > |keyword| + 1
    then Some(request[|keyword| + 1..])
    else None
  }

  /** The checks of `send`, in the source's order. */
  function SendCheck(m: Message): (reply: string)
    ensures reply == "ok" <==>
      Present(m.subject) && Present(m.sender) && Present(m.data) && |m.recipients| >= 1
  {
    if !Present(m.subject) then "error no subject"
    else if !Present(m.sender) then "error no sender"
    else if !Present(m.data) then "error no content"
    else if |m.recipients| < 1 then "error no recipients"
    else "ok"
  }

  /** One line in state EMAIL of the transfer variant. */
  function TransferCommand(m: Message, request: string): (r: (Message, string))
    ensures WellAddressed(m) ==> WellAddressed(r.0)
    ensures r.0.hash == m.hash || (StartsWith(request, "hash") && Present(r.0.hash))
  {
    if StartsWith(request, "subject ") then
      match Argument(request, "subject")
      case None => (m, "error no subject")
      case Some(t) => (m.(subject := Some(t)), "ok")
    else if StartsWith(request, "from ") then
      match Argument(request, "from")
      case None => (m, "error no sender")
      case Some(t) =>
        match SenderMatch(t)
        case Some(a) => (m.(sender := Some(a)), "ok")
        case None => (m, "error invalid sender")
    else if StartsWith(request, "data") then
      match Argument(request, "data")
      case None => (m, "error no content")
      case Some(t) => (m.(data := Some(t)), "ok")
    else if StartsWith(request, "to ") then
      match Argument(request, "to")
      case None => (m, "error no recipients")
      case Some(t) =>
        var found := FindAddresses(t);
        FoundAreAddresses(t);
        (m.(recipients := found),
         if |found| < 1 then "error no recipients" else "ok " + IntToString(|found|))
    else if StartsWith(request, "hash") then
      match Argument(request, "hash")
      case None => (m, "error no hash value")
      case Some(t) => (m.(hash := Some(t)), "ok")
    else if EqualsIgnoreCase(request, "send") then (m, SendCheck(m))
    else (m, ProtocolError)
  }

  /** DMTP.processInput: the transfer server's engine. */
  function ProcessInput(e: Engine, request: string): (r: Step)
    ensures EqualsIgnoreCase(request, "quit") ==> r == Step(e, Bye)
    ensures !EqualsIgnoreCase(request, "quit") && e.phase == Waiting ==>
      r == Step(e.(phase := Begin), Greeting)
    ensures !EqualsIgnoreCase(request, "quit") && e.phase == Begin ==>
      r.engine.message == e.message
      && (if EqualsIgnoreCase(request, "begin") then r.engine.phase == Email && r.reply == "ok"
          else r.engine == e && r.reply == ProtocolError)
    ensures e.phase == Email ==> r.engine.phase == Email
    ensures WellAddressed(e.message) ==> WellAddressed(r.engine.message)
    ensures r.engine.message.hash == e.message.hash || Present(r.engine.message.hash)
  {
    if EqualsIgnoreCase(request, "quit") then Step(e, Bye)
    else match e.phase
      case Waiting => Step(e.(phase := Begin), Greeting)
      case Begin =>
        if EqualsIgnoreCase(request, "begin") then Step(e.(phase := Email), "ok")
        else Step(e, ProtocolError)
      case Email =>
        var (m, reply) := TransferCommand(e.message, request);
        Step(e.(message := m), reply)
  }

  /** The local parts in `locals` that are not configured users, in order. */
  function UnknownLocals(locals: seq<string>, users: set<string>): (r: seq<string>)
    ensures forall i :: 0 <= i < |r| ==> r[i] !in users && r[i] in locals
    ensures forall i :: 0 <= i < |locals| && locals[i] !in users ==> locals[i] in r
  {
    if |locals| == 0 then []
    else if locals[0] in users then UnknownLocals(locals[1..], users)
    else [locals[0]] + UnknownLocals(locals[1..], users)
  }

  /** Each name followed by one space, as the reply accumulates them. */
  function Spaced(names: seq<string>): string {
    if |names| == 0 then "" else names[0] + " " + Spaced(names[1..])
  }

  /** A reply after which both session drivers stop reading. */
  predicate Ends(reply: string) {
    reply == Bye || reply == ProtocolError
  }

  const UnknownPrefix: string := "error unknown recipient "

  /** One line in state EMAIL of the mailbox variant. */
  function MailboxCommand(m: Message, request: string, users: set<string>, domain: string): (r: (Message, string))
  {
    if StartsWith(request, "subject ") then
      match Argument(request, "subject")
      case None => (m, "error no subject")
      case Some(t) => (m.(subject := Some(t)), "ok")
    else if StartsWith(request, "from ") then
      match Argument(request, "from")
      case None => (m, "error no sender")
      case Some(t) => (m.(sender := Some(t)), "ok")
    else if StartsWith(request, "data") then
      match Argument(request, "data")
      case None => (m, "error no content")
      case Some(t) => (m.(data := Some(t)), "ok")
    else if StartsWith(request, "to ") then
      match Argument(request, "to")
      case None => (m, "error no recipients")
      case Some(t) =>
        var unknown := UnknownLocals(FindLocals(t, domain), users);
        (m.(recipients := [ReplaceChar(t, ',', None)]),
         if |unknown| > 0 then UnknownPrefix + Spaced(unknown) else "ok 1")
    else if Contains(request, "hash ") then
      match Argument(request, "hash")
      case None => (m, "error no hash value")
      case Some(t) => (m.(hash := Some(t)), "ok")
    else if EqualsIgnoreCase(request, "send") then (m, "ok")
    else (m, ProtocolError)
  }

  /** DMTP.validateRequest: the mailbox server's engine. */
  function ValidateRequest(e: Engine, request: string, users: set<string>, domain: string): (r: Step)
    ensures EqualsIgnoreCase(request, "quit") ==> r == Step(e, Bye)
    ensures !EqualsIgnoreCase(request, "quit") && e.phase == Waiting ==>
      r == Step(e.(phase := Begin), Greeting)
    ensures !EqualsIgnoreCase(request, "quit") && e.phase == Begin ==>
      r.engine.message == e.message
      && (if EqualsIgnoreCase(request, "begin") then r.engine.phase == Email && r.reply == "ok"
          else r.engine == e && r.reply == ProtocolError)
    ensures e.phase == Email ==> r.engine.phase == Email
  {
    if EqualsIgnoreCase(request, "quit") then Step(e, Bye)
    else match e.phase
      case Waiting => Step(e.(phase := Begin), Greeting)
      case Begin =>
        if EqualsIgnoreCase(request, "begin") then Step(e.(phase := Email), "ok")
        else Step(e, ProtocolError)
      case Email =>
        var (m, reply) := MailboxCommand(e.message, request, users, domain);
        Step(e.(message := m), reply)
  }

  /** The engine after a sequence of lines (replies dropped). */
  function Feed(e: Engine, lines: seq<string>): Engine
    decreases |lines|
  {
    if |lines| == 0 then e else Feed(ProcessInput(e, lines[0]).engine, lines[1..])
  }

  /** The replies to a sequence of lines. */
  function Replies(e: Engine, lines: seq<string>): (r: seq<string>)
    ensures |r| == |lines|
    decreases |lines|
  {
    if |lines| == 0 then []
    else
      var s := ProcessInput(e, lines[0]);
      [s.reply] + Replies(s.engine, lines[1..])
  }

  // ---------------------------------------------------------------- lemmas

  /** The text after "<keyword> " is the argument when there is any. */
  lemma ArgumentOf(keyword: string, x: string)
    requires x != ""
    ensures Argument(keyword + " " + x, keyword) == Some(x)
  {
    var request := keyword + " " + x;
    assert request[..|keyword| + 1] == keyword + " ";
    assert request[|keyword| + 1..] == x;
  }

  /** "subject <t>", "data <t>" and "hash <t>" in state EMAIL of the transfer
      engine set that field to <t> and answer "ok". */
  lemma SubjectSets(e: Engine, t: string)
    requires e.phase == Email && t != ""
    ensures ProcessInput(e, "subject " + t) == Step(e.(message := e.message.(subject := Some(t))), "ok")
  {
    var request := "subject " + t;
    ArgumentOf("subject", t);
    assert request[..8] == "subject ";
    assert request[0] == 's' && |request| > 4;
    NotQuit(request);
  }

  lemma DataSets(e: Engine, t: string)
    requires e.phase == Email && t != ""
    ensures ProcessInput(e, "data " + t) == Step(e.(message := e.message.(data := Some(t))), "ok")
  {
    var request := "data " + t;
    ArgumentOf("data", t);
    assert request[0] == 'd';
    assert request[..4] == "data";
    NotQuit(request);
  }

  lemma HashSets(e: Engine, t: string)
    requires e.phase == Email && t != ""
    ensures ProcessInput(e, "hash " + t) == Step(e.(message := e.message.(hash := Some(t))), "ok")
  {
    var request := "hash " + t;
    ArgumentOf("hash", t);
    assert request[0] == 'h';
    assert request[..4] == "hash";
    NotQuit(request);
  }

  lemma NotQuit(request: string)
    requires |request| != 4 || LowerAscii(request[0]) != 'q'
    ensures !EqualsIgnoreCase(request, "quit")
  {
  }

  /** `from <t>` in state EMAIL of the transfer engine sets the sender exactly
      when `t` is an address followed by at most one final line terminator,
      and the sender stored is the address without it; otherwise the engine
      is left untouched. */
  lemma FromChecksAddress(e: Engine, t: string)
    requires e.phase == Email && t != ""
    ensures var r := ProcessInput(e, "from " + t);
      (forall a :: IsAddress(a) && |a| <= |t| && t[..|a|] == a && FinalTerminator(t[|a|..]) ==>
         r == Step(e.(message := e.message.(sender := Some(a))), "ok"))
      && (IsAddress(t) ==> r == Step(e.(message := e.message.(sender := Some(t))), "ok"))
      && (SenderMatch(t).None? ==> r == Step(e, "error invalid sender"))
  {
    FromRoutes(e, t);
    FromOutcome(e, t, ProcessInput(e, "from " + t));
  }

  lemma FromOutcome(e: Engine, t: string, r: Step)
    requires r == match SenderMatch(t)
      case Some(a) => Step(e.(message := e.message.(sender := Some(a))), "ok")
      case None => Step(e, "error invalid sender")
    ensures forall a :: IsAddress(a) && |a| <= |t| && t[..|a|] == a && FinalTerminator(t[|a|..]) ==>
      r == Step(e.(message := e.message.(sender := Some(a))), "ok")
    ensures IsAddress(t) ==> r == Step(e.(message := e.message.(sender := Some(t))), "ok")
  {
    forall a | IsAddress(a) && |a| <= |t| && t[..|a|] == a && FinalTerminator(t[|a|..])
      ensures SenderMatch(t) == Some(a)
    {
      SenderMatchIff(t, a);
    }
    if IsAddress(t) {
      SenderAlone(t);
    }
  }

  /** A whole address is its own sender match. */
  lemma SenderAlone(t: string)
    requires IsAddress(t)
    ensures SenderMatch(t) == Some(t)
  {
    SenderMatchIff(t, t);
    assert t[|t|..] == "";
  }

  /** `from <t>` in EMAIL reaches the sender check. */
  lemma FromRoutes(e: Engine, t: string)
    requires e.phase == Email && t != ""
    ensures ProcessInput(e, "from " + t)
      == match SenderMatch(t)
         case Some(a) => Step(e.(message := e.message.(sender := Some(a))), "ok")
         case None => Step(e, "error invalid sender")
  {
    var request := "from " + t;
    NotQuit(request);
    assert !StartsWith(request, "subject ") by { assert request[0] == 'f'; }
    assert StartsWith(request, "from ");
    assert request[5..] == t;
  }

  /** `to <t>` in state EMAIL of the transfer engine replaces the recipient
      list by the left-to-right address matches in `t`, and reports how many
      there were. */
  lemma ToReplacesRecipients(e: Engine, t: string)
    requires e.phase == Email && t != ""
    ensures var r := ProcessInput(e, "to " + t);
      var found := FindAddresses(t);
      r.engine == e.(message := e.message.(recipients := found))
      && r.reply == (if |found| == 0 then "error no recipients" else "ok " + IntToString(|found|))
  {
    var request := "to " + t;
    assert request[0] == 't';
    NotQuit(request);
    ToCommand(e.message, t);
  }

  /** The `to` branch of the transfer engine's command table. */
  lemma ToCommand(m: Message, t: string)
    requires t != ""
    ensures var found := FindAddresses(t);
      TransferCommand(m, "to " + t)
      == (m.(recipients := found), if |found| == 0 then "error no recipients" else "ok " + IntToString(|found|))
  {
    var request := "to " + t;
    assert request[0] == 't';
    assert !StartsWith(request, "subject ") && !StartsWith(request, "from ") && !StartsWith(request, "data");
    assert StartsWith(request, "to ");
    assert request[3..] == t;
  }

  /** A comma-separated list of addresses yields exactly those recipients and
      the reply "ok <count>". */
  lemma ToCountsAddresses(e: Engine, addrs: seq<string>)
    requires e.phase == Email && |addrs| >= 1
    requires forall i :: 0 <= i < |addrs| ==> IsAddress(addrs[i])
    ensures var r := ProcessInput(e, "to " + Join(addrs, ","));
      r.engine.message.recipients == addrs && r.reply == "ok " + IntToString(|addrs|)
  {
    var t := Join(addrs, ",");
    assert !IsWordChar(","[0]);
    FindAddressesJoin(addrs, ",");
    JoinLength(addrs, ",");
    assert IsAddress(addrs[0]);
    ToReplacesRecipients(e, t);
  }

  /** `send` never changes the engine; it answers "ok" exactly when subject,
      sender, data and recipients are all present, and otherwise names the
      first missing one in that order. */
  lemma SendReport(e: Engine)
    requires e.phase == Email
    ensures var r := ProcessInput(e, "send");
      var m := e.message;
      r.engine == e
      && r.reply == (if !Present(m.subject) then "error no subject"
                     else if !Present(m.sender) then "error no sender"
                     else if !Present(m.data) then "error no content"
                     else if |m.recipients| == 0 then "error no recipients"
                     else "ok")
  {
    assert "send"[0] == 's';
    assert !StartsWith("send", "subject ") && !StartsWith("send", "from ") && !StartsWith("send", "data");
    assert !StartsWith("send", "to ") && !StartsWith("send", "hash");
    assert EqualsIgnoreCase("send", "send");
    assert !EqualsIgnoreCase("send", "quit") by { assert LowerAscii("send"[0]) != LowerAscii("quit"[0]); }
  }

  /** A keyword with nothing after it is answered with that field's error and
      changes nothing. */
  lemma EmptyArgumentRejected(e: Engine)
    requires e.phase == Email
    ensures ProcessInput(e, "subject ") == Step(e, "error no subject")
    ensures ProcessInput(e, "from ") == Step(e, "error no sender")
    ensures ProcessInput(e, "data") == Step(e, "error no content")
    ensures ProcessInput(e, "data ") == Step(e, "error no content")
    ensures ProcessInput(e, "to ") == Step(e, "error no recipients")
    ensures ProcessInput(e, "hash") == Step(e, "error no hash value")
  {
    assert "subject "[0] == 's' && "from "[0] == 'f' && "data"[0] == 'd' && "data "[0] == 'd';
    assert "to "[0] == 't' && "hash"[0] == 'h';
    assert StartsWith("subject ", "subject ");
    assert StartsWith("from ", "from ");
    assert StartsWith("data", "data") && StartsWith("data ", "data");
    assert StartsWith("to ", "to ");
    assert StartsWith("hash", "hash");
  }

  /** Every engine the transfer server can reach from a fresh one keeps a
      well-addressed message, so a message it accepts with "ok" to `send` has
      a valid sender, at least one recipient and only valid recipients. */
  lemma {:induction false} FeedWellAddressed(e: Engine, lines: seq<string>)
    requires WellAddressed(e.message)
    ensures WellAddressed(Feed(e, lines).message)
    decreases |lines|
  {
    if |lines| > 0 {
      FeedWellAddressed(ProcessInput(e, lines[0]).engine, lines[1..]);
    }
  }

  lemma AcceptedOnSend(lines: seq<string>)
    requires Feed(Fresh, lines).phase == Email
    requires ProcessInput(Feed(Fresh, lines), "send").reply == "ok"
    ensures Accepted(Feed(Fresh, lines).message)
  {
    FeedWellAddressed(Fresh, lines);
    SendReport(Feed(Fresh, lines));
  }

  /** The mailbox engine's `to <t>` stores the whole text with commas removed
      as its single recipient; it answers "ok 1" when every local part it
      finds at its own domain is a known user and otherwise names each unknown
      one. */
  lemma ValidateTo(e: Engine, t: string, users: set<string>, domain: string)
    requires e.phase == Email && t != ""
    ensures var r := ValidateRequest(e, "to " + t, users, domain);
      var unknown := UnknownLocals(FindLocals(t, domain), users);
      r.engine == e.(message := e.message.(recipients := [ReplaceChar(t, ',', None)]))
      && (r.reply == "ok 1" <==> forall i :: 0 <= i < |FindLocals(t, domain)| ==> FindLocals(t, domain)[i] in users)
      && (r.reply != "ok 1" ==> r.reply == UnknownPrefix + Spaced(unknown))
  {
    var request := "to " + t;
    assert request[0] == 't';
    NotQuit(request);
    MailboxToCommand(e.message, t, users, domain);
    var locals := FindLocals(t, domain);
    var unknown := UnknownLocals(locals, users);
    if |unknown| > 0 {
      assert unknown[0] in locals && unknown[0] !in users;
      assert (UnknownPrefix + Spaced(unknown))[0] == 'e';
    }
  }

  /** The `to` branch of the mailbox engine's command table. */
  lemma MailboxToCommand(m: Message, t: string, users: set<string>, domain: string)
    requires t != ""
    ensures var unknown := UnknownLocals(FindLocals(t, domain), users);
      MailboxCommand(m, "to " + t, users, domain)
      == (m.(recipients := [ReplaceChar(t, ',', None)]), if |unknown| > 0 then UnknownPrefix + Spaced(unknown) else "ok 1")
  {
    var request := "to " + t;
    assert request[0] == 't';
    assert !StartsWith(request, "subject ") && !StartsWith(request, "from ") && !StartsWith(request, "data");
    assert StartsWith(request, "to ");
    assert request[3..] == t;
  }

  /** In state EMAIL a line that starts with none of the keywords and is not
      "send" is refused as a protocol error and changes nothing. */
  lemma UnknownLineRejected(e: Engine, request: string)
    requires e.phase == Email && !EqualsIgnoreCase(request, "quit")
    requires !StartsWith(request, "subject ") && !StartsWith(request, "from ") && !StartsWith(request, "data")
    requires !StartsWith(request, "to ") && !StartsWith(request, "hash") && !EqualsIgnoreCase(request, "send")
    ensures ProcessInput(e, request) == Step(e, ProtocolError)
  {
  }

  /** The mailbox engine answers "ok" to `send` whatever it holds. */
  lemma ValidateSendAlwaysOk(e: Engine, users: set<string>, domain: string)
    requires e.phase == Email
    ensures ValidateRequest(e, "send", users, domain) == Step(e, "ok")
  {
    assert "send"[0] == 's';
    assert !StartsWith("send", "subject ") && !StartsWith("send", "from ") && !StartsWith("send", "data");
    assert !StartsWith("send", "to ") && !Contains("send", "hash ");
    assert EqualsIgnoreCase("send", "send");
    assert !EqualsIgnoreCase("send", "quit") by { assert LowerAscii("send"[0]) != LowerAscii("quit"[0]); }
  }
}

=== FILE: forwarding.dfy ===
/** The forwarding task of the transfer server (dslab.transfer.MailboxConnection):
    one accepted message is taken, the mailbox server of every recipient's
    domain is found by walking the nameserver zones, the message is sent once
    to each such server, and a delivery-failure notice goes back to the sender
    when a domain cannot be found or a server reports unknown recipients.

    Sockets are replaced by `respond`, the lines a mailbox server writes back
    to the eight lines it is sent (its greeting first); a line that is never
    written reads as null (`None`). The local host address is the parameter
    `host`. A runtime exception that ends the forwarding job (an index out of bounds, a
    number that does not parse, a null sender) is `Crash`. */
module Forwarding {
  import opened Wrappers
  import opened JString
  import opened Mail
  import opened Nameservers
  import Dmtp

  // ------------------------------------------------------------- resolution

  /** lookupDomainOfMailbox: follow the zones of `domain` from the root,
      rightmost label first down to label 1, then look label 0 up where the
      walk arrived. `Ok(None)` is the null the source returns when a zone is
      missing or a remote call fails; a domain that splits into no labels at
      all is the index error of printing label 0. */
  function Resolve(net: Net, root: NodeId, domain: string): (r: Outcome<Option<string>>)
    ensures r.Crash? <==> |Labels(domain)| == 0
  {
    var labels := Labels(domain);
    if |labels| == 0 then Crash
    else match Descend(net, root, labels[1..])
      case None => Ok(None)
      case Some(zone) =>
        match Lookup(net, zone, labels[0])
        case Success(found) => Ok(found)
        case Failure(_) => Ok(None)
  }

  // ------------------------------------------------------------- the envelope

  /** The recipient list as the loop of parseMessage builds it: every
      recipient followed by ", ". */
  function Listed(recipients: seq<string>): (r: string)
    ensures |recipients| >= 1 ==> |r| >= 2
  {
    if |recipients| == 0 then ""
    else Listed(recipients[..|recipients| - 1]) + recipients[|recipients| - 1] + ", "
  }

  /** parseMessage: the eight request lines that replay `m` to a mailbox
      server. The last two characters of the recipient list are cut off,
      which throws on an empty list (`None`). Null fields print as "null". */
  function ParseMessage(m: Message): (r: Option<seq<string>>)
    ensures r.Some? <==> |m.recipients| >= 1
    ensures r.Some? ==>
      (|r.value| == 8 && r.value[0] == "begin" && r.value[6] == "send" && r.value[7] == "quit")
  {
    if |m.recipients| == 0 then None
    else
      var listed := Listed(m.recipients);
      Some(["begin",
            "from " + Text(m.sender),
            "to " + listed[..|listed| - 2],
            "subject " + Text(m.subject),
            "data " + Text(m.data),
            "hash " + Text(m.hash),
            "send",
            "quit"])
  }

  // ------------------------------------------------------------- response scan

  const UnknownMarker: string := "error unknown recipient"

  /** What `send` learns from the replies: nothing, the text after the last
      "error unknown recipient" reply, or an exception from a reply too short
      to cut 24 characters off. */
  datatype Scan = Clean | Unknown(names: string) | Aborted

  predicate Flags(reply: Option<string>) {
    reply.Some? && Contains(reply.value, UnknownMarker)
  }

  /** The replies read one per request line; a later unknown-recipient reply
      overrides an earlier one. */
  function ScanReplies(replies: seq<Option<string>>): (r: Scan)
    ensures r.Unknown? ==> exists i :: 0 <= i < |replies| && Flags(replies[i])
    decreases |replies|
  {
    if |replies| == 0 then Clean
    else
      var before := ScanReplies(replies[..|replies| - 1]);
      var last := replies[|replies| - 1];
      if before.Aborted? then Aborted
      else if Flags(last) then
        (if |last.value| < 24 then Aborted else Unknown(last.value[24..]))
      else before
  }

  /** The eight replies after the greeting. Missing lines are nulls and do
      not change the scan. */
  function Window(replies: seq<Option<string>>): (r: seq<Option<string>>)
    ensures |replies| <= 1 ==> r == []
    ensures |replies| > 1 ==> |r| == (if |replies| < 9 then |replies| - 1 else 8)
    ensures forall i :: 0 <= i < |r| ==> r[i] == replies[i + 1]
  {
    if |replies| <= 1 then [] else replies[1..if |replies| < 9 then |replies| else 9]
  }

  /** The parameters of one forwarding task: the nameserver tree, the local
      host address, whether `new Socket(host, port)` gets through to a
      listening server, and what such a server answers. */
  datatype Env = Env(
    net: Net,
    root: NodeId,
    host: string,
    reachable: (string, int) -> bool,
    respond: (string, seq<string>) -> seq<Option<string>>)

  /** send: replay `m` to the server at `address` and scan its replies; the
      scan is clean exactly when none of the eight replies after the
      greeting reports unknown recipients. */
  function Send(env: Env, address: string, m: Message): (r: Scan)
    ensures ParseMessage(m).None? ==> r == Aborted
    ensures ParseMessage(m).Some? ==>
      var w := Window(env.respond(address, ParseMessage(m).value));
      (r == Clean <==> forall i :: 0 <= i < |w| ==> !Flags(w[i]))
  {
    match ParseMessage(m)
    case None => Aborted
    case Some(lines) =>
      ScanCleanIff(Window(env.respond(address, lines)));
      ScanReplies(Window(env.respond(address, lines)))
  }

  const MaxPort: int := 0xFFFF

  /** setUpConnectionToMailbox, before the connection: the port is piece 1
      of `host:port`; `None` is the exception thrown when that piece is
      missing, does not parse as an int, or lies outside 0..65535, which
      `new Socket` refuses. */
  function Port(address: string): (r: Option<int>)
    ensures r.Some? ==> 0 <= r.value <= MaxPort
    ensures r.Some? <==>
      |Split(address, Exactly(':'))| >= 2 && ParseInt(Split(address, Exactly(':'))[1]).Some?
      && 0 <= ParseInt(Split(address, Exactly(':'))[1]).value <= MaxPort
  {
    var pieces := Split(address, Exactly(':'));
    if |pieces| < 2 then None
    else match ParseInt(pieces[1])
      case None => None
      case Some(n) => if 0 <= n <= MaxPort then Some(n) else None
  }

  /** setUpConnectionToMailbox: a crash when the port is unusable; otherwise
      whether the connection was made, false being the IOException of a
      refused or unknown host, which the loop's catch handles. */
  function Connect(env: Env, address: string): (r: Outcome<bool>)
    ensures r.Crash? <==> Port(address).None?
    ensures r.Ok? ==> (r.value <==> env.reachable(Split(address, Exactly(':'))[0], Port(address).value))
  {
    match Port(address)
    case None => Crash
    case Some(port) => Ok(env.reachable(Split(address, Exactly(':'))[0], port))
  }

  // ------------------------------------------------------------- the run

  /** A message sent to a mailbox server. */
  datatype Event =
    | Forward(domain: string, address: string, message: Message)
    | Bounce(address: string, message: Message)

  /** The forwarding job's state between recipients: the domains already
      served, the last failure message created, what has been sent, and
      whether an IOException has left the loop (the reports are still
      sent). */
  datatype Progress = Progress(served: seq<string>, failure: Option<Message>, events: seq<Event>, halted: bool)

  const Start: Progress := Progress([], None, [], false)

  /** The body of the delivery-failure notice. */
  function Reason(recipient: string, unknown: Option<string>): string {
    match unknown
    case Some(names) => "Declined from mailbox - Unknown recipient: " + names
    case None => "could not find domain for recipient(s): " + recipient
  }

  /** The failure message sendDeliveryFailure fills in. */
  function Notice(host: string, sender: string, recipient: string, unknown: Option<string>): (f: Message)
    ensures f.recipients == [sender] && f.subject == Some("error delivery failure")
    ensures f.sender == Some("mailer@" + host) && f.hash.None?
    ensures f.data == Some(Reason(recipient, unknown))
  {
    Message(Some("mailer@" + host), [sender], Some("error delivery failure"),
            Some(Reason(recipient, unknown)), None)
  }

  /** What became of a failure notice: sent, dropped because the sender's
      own domain cannot be found, or cut short by an IOException when the
      sender's server could not be reached (the notice is still blank). */
  datatype NoticeResult = Sent(event: Event) | Dropped | Unreachable

  /** sendDeliveryFailure. */
  function DeliveryFailure(env: Env, m: Message, recipient: string, unknown: Option<string>): (r: Outcome<NoticeResult>)
    ensures r.Ok? && r.value.Sent? ==>
      (m.sender.Some? && r.value.event.Bounce?
       && r.value.event.message == Notice(env.host, m.sender.value, recipient, unknown))
    ensures r.Ok? && !r.value.Dropped? ==>
      m.sender.Some? && |Split(m.sender.value, Exactly('@'))| >= 2
      && Resolve(env.net, env.root, Split(m.sender.value, Exactly('@'))[1]).Ok?
      && Resolve(env.net, env.root, Split(m.sender.value, Exactly('@'))[1]).value.Some?
      && var address := Resolve(env.net, env.root, Split(m.sender.value, Exactly('@'))[1]).value.value;
         Connect(env, address).Ok?
         && (r.value.Unreachable? <==> Connect(env, address) == Ok(false))
         && (r.value.Sent? ==> r.value.event.address == address)
  {
    if m.sender.None? then Crash
    else
      var at := Split(m.sender.value, Exactly('@'));
      if |at| < 2 then Crash
      else match Resolve(env.net, env.root, at[1])
        case Crash => Crash
        case Ok(None) => Ok(Dropped)
        case Ok(Some(address)) =>
          match Connect(env, address)
          case Crash => Crash
          case Ok(false) => Ok(Unreachable)
          case Ok(true) =>
            var notice := Notice(env.host, m.sender.value, recipient, unknown);
            if Send(env, address, notice).Aborted? then Crash
            else Ok(Sent(Bounce(address, notice)))
  }

  /** The notice step shared by both branches of the loop: the failure
      object exists from here on, filled in only when the notice was sent,
      and an unreachable server for it ends the loop. */
  function Report(p: Progress, outcome: Outcome<NoticeResult>): (r: Outcome<Progress>)
    ensures r.Crash? <==> outcome.Crash?
    ensures r.Ok? ==>
      r.value.served == p.served && r.value.failure.Some?
      && (r.value.halted <==> p.halted || outcome.value.Unreachable?)
      && (outcome.value.Sent? ==>
            r.value.events == p.events + [outcome.value.event] && r.value.failure == Some(outcome.value.event.message))
      && (!outcome.value.Sent? ==> r.value.events == p.events && r.value.failure == Some(Blank))
  {
    match outcome
    case Crash => Crash
    case Ok(Dropped) => Ok(p.(failure := Some(Blank)))
    case Ok(Unreachable) => Ok(p.(failure := Some(Blank), halted := true))
    case Ok(Sent(e)) => Ok(p.(failure := Some(e.message), events := p.events + [e]))
  }

  /** One pass of the loop in run, for one recipient of `m`: at most one
      forward and at most one notice are added, and the only domain that
      may be marked served is the recipient's. */
  function Deliver(env: Env, m: Message, p: Progress, recipient: string): (r: Outcome<Progress>)
    ensures |Split(recipient, Exactly('@'))| < 2 ==> r.Crash?
    ensures r.Ok? ==>
      (r.value.served == p.served
       || r.value.served == p.served + [Split(recipient, Exactly('@'))[1]])
      && |p.events| <= |r.value.events| <= |p.events| + 2
      && r.value.events[..|p.events|] == p.events
      && (p.halted ==> r.value.halted)
  {
    var at := Split(recipient, Exactly('@'));
    if |at| < 2 then Crash
    else
      var domain := at[1];
      match Resolve(env.net, env.root, domain)
      case Crash => Crash
      case Ok(None) => Report(p, DeliveryFailure(env, m, recipient, None))
      case Ok(Some(address)) =>
        if domain in p.served || |Split(address, Exactly(':'))| <= 1 then Ok(p)
        else match Connect(env, address)
          case Crash => Crash
          case Ok(false) => Ok(p.(halted := true))
          case Ok(true) =>
            var p' := p.(served := p.served + [domain], events := p.events + [Forward(domain, address, m)]);
            match Send(env, address, m)
            case Aborted => Crash
            case Clean => Ok(p')
            case Unknown(names) => Report(p', DeliveryFailure(env, m, recipient, Some(names)))
  }

  /** The loop of run over `recipients`, from progress `p`; it stops at the
      first IOException. Events are only ever appended. */
  function Run(env: Env, m: Message, p: Progress, recipients: seq<string>): (r: Outcome<Progress>)
    ensures p.halted ==> r == Ok(p)
    ensures r.Ok? ==>
      |p.events| <= |r.value.events| && r.value.events[..|p.events|] == p.events
      && |p.served| <= |r.value.served| && r.value.served[..|p.served|] == p.served
    decreases |recipients|
  {
    if |recipients| == 0 || p.halted then Ok(p)
    else match Deliver(env, m, p, recipients[0])
      case Crash => Crash
      case Ok(p') =>
        var r := Run(env, m, p', recipients[1..]);
        if r.Crash? then r
        else
          PrefixTrans(p.events, p'.events, r.value.events);
          PrefixTrans(p.served, p'.served, r.value.served);
          r
  }

  /** The senders reported to the monitoring server once the loop is over,
      also after an IOException left it: the last failure message's (printed
      "null" when it was never filled in), then the message's own. A crash
      reports nothing. */
  function Reports(m: Message, outcome: Outcome<Progress>): (r: seq<string>)
    ensures outcome.Crash? <==> |r| == 0
    ensures |r| > 0 ==> r[|r| - 1] == Text(m.sender)
    ensures outcome.Ok? ==> (|r| == 2 <==> outcome.value.failure.Some?)
  {
    match outcome
    case Crash => []
    case Ok(p) => (if p.failure.Some? then [Text(p.failure.value.sender)] else []) + [Text(m.sender)]
  }

  // ---------------------------------------------------------------- lemmas

  lemma PrefixTrans<T>(a: seq<T>, b: seq<T>, c: seq<T>)
    requires |a| <= |b| && b[..|a|] == a && |b| <= |c| && c[..|b|] == b
    ensures c[..|a|] == a
  {
    assert c[..|a|] == c[..|b|][..|a|];
  }

  /** The loop and the cut of two characters list the recipients separated
      by ", ". */
  lemma {:induction false} ListedJoin(recipients: seq<string>)
    requires |recipients| >= 1
    ensures Listed(recipients) == Join(recipients, ", ") + ", "
  {
    var n := |recipients|;
    if n > 1 {
      var init := recipients[..n - 1];
      ListedJoin(init);
      JoinSnoc(init, recipients[n - 1], ", ");
      assert init + [recipients[n - 1]] == recipients;
    } else {
      assert recipients[..0] == [];
    }
  }

  /** The envelope layout: the eight lines, with the recipients joined by
      ", " and null fields printed "null". */
  lemma Envelope(m: Message)
    requires |m.recipients| >= 1
    ensures ParseMessage(m) == Some(["begin", "from " + Text(m.sender),
      "to " + Join(m.recipients, ", "), "subject " + Text(m.subject),
      "data " + Text(m.data), "hash " + Text(m.hash), "send", "quit"])
  {
    var listed := Listed(m.recipients);
    ListedJoin(m.recipients);
    assert listed[..|listed| - 2] == Join(m.recipients, ", ");
  }

  /** Round trip with the directory: once a mailbox server is registered for
      a domain at the root, resolving that domain yields its address. */
  lemma ResolveRegistered(net: Net, root: NodeId, labels: seq<string>, address: string)
    requires |labels| >= 1 && AllLabels(labels)
    requires RegisterMailboxServer(net, root, Join(labels, "."), address).Success?
    ensures Resolve(RegisterMailboxServer(net, root, Join(labels, "."), address).value,
                    root, Join(labels, ".")) == Ok(Some(address))
  {
    LabelsOfJoin(labels);
    RegisterMailboxResolves(net, root, labels, address);
  }

  /** Resolution gives null when the root cannot be reached, and when the
      rightmost zone of a domain of two or more labels is unknown. */
  lemma ResolveNull(net: Net, root: NodeId, domain: string)
    requires |Labels(domain)| >= 1
    requires root !in net
      || (|Labels(domain)| >= 2 && Labels(domain)[|Labels(domain)| - 1] !in net[root].children)
    ensures Resolve(net, root, domain) == Ok(None)
  {
    var labels := Labels(domain);
    var rest := labels[1..];
    if |rest| > 0 {
      assert rest[|rest| - 1] == labels[|labels| - 1];
    }
  }

  /** The scan stays clean exactly when no reply reports unknown recipients. */
  lemma {:induction false} ScanCleanIff(replies: seq<Option<string>>)
    ensures ScanReplies(replies) == Clean <==> forall i :: 0 <= i < |replies| ==> !Flags(replies[i])
  {
    if |replies| > 0 {
      var init := replies[..|replies| - 1];
      ScanCleanIff(init);
      assert forall i :: 0 <= i < |init| ==> init[i] == replies[i];
    }
  }

  /** The mailbox server's unknown-recipient reply (its prefix is exactly 24
      characters) hands the names after it to the bounce, when no later reply
      reports again. */
  lemma {:induction false} ScanTakesNames(pre: seq<Option<string>>, names: string, post: seq<Option<string>>)
    requires forall i :: 0 <= i < |pre| ==> !Flags(pre[i])
    requires forall i :: 0 <= i < |post| ==> !Flags(post[i])
    ensures ScanReplies(pre + [Some(Dmtp.UnknownPrefix + names)] + post) == Unknown(names)
    decreases |post|
  {
    var reply := Dmtp.UnknownPrefix + names;
    if |post| == 0 {
      ScanCleanIff(pre);
      assert (pre + [Some(reply)] + post)[..|pre|] == pre;
      assert reply[..|UnknownMarker|] == UnknownMarker;
      assert Flags(Some(reply));
      assert reply[24..] == names;
    } else {
      var init := post[..|post| - 1];
      ScanTakesNames(pre, names, init);
      assert (pre + [Some(reply)] + post)[..|pre| + 1 + |init|] == pre + [Some(reply)] + init;
    }
  }

  /** What a run keeps true: the served domains are exactly the forwarded
      ones, in order and without repeats; each forward went to the address
      its domain resolves to and carried the whole message; each bounce is a
      notice to the sender. */
  predicate Sound(env: Env, m: Message, p: Progress) {
    (forall i, j :: 0 <= i < j < |p.served| ==> p.served[i] != p.served[j])
    && Forwarded(p.events) == p.served
    && (forall i :: 0 <= i < |p.events| && p.events[i].Forward? ==>
          p.events[i].message == m
          && Resolve(env.net, env.root, p.events[i].domain) == Ok(Some(p.events[i].address)))
    && (forall i :: 0 <= i < |p.events| && p.events[i].Bounce? ==>
          m.sender.Some? && p.events[i].message.recipients == [m.sender.value]
          && p.events[i].message.subject == Some("error delivery failure"))
  }

  /** The domains of the forward events, in order. */
  function Forwarded(events: seq<Event>): seq<string> {
    if |events| == 0 then []
    else
      var last := events[|events| - 1];
      Forwarded(events[..|events| - 1]) + (if last.Forward? then [last.domain] else [])
  }

  lemma ReportSound(env: Env, m: Message, p: Progress, recipient: string, unknown: Option<string>)
    requires Sound(env, m, p)
    requires Report(p, DeliveryFailure(env, m, recipient, unknown)).Ok?
    ensures Sound(env, m, Report(p, DeliveryFailure(env, m, recipient, unknown)).value)
  {
    var r := DeliveryFailure(env, m, recipient, unknown);
    if r.Ok? && r.value.Sent? {
      var events := p.events + [r.value.event];
      assert events[..|events| - 1] == p.events;
    }
  }

  lemma DeliverSound(env: Env, m: Message, p: Progress, recipient: string)
    requires Sound(env, m, p) && Deliver(env, m, p, recipient).Ok?
    ensures Sound(env, m, Deliver(env, m, p, recipient).value)
  {
    var at := Split(recipient, Exactly('@'));
    var domain := at[1];
    match Resolve(env.net, env.root, domain)
    case Ok(None) =>
      ReportSound(env, m, p, recipient, None);
    case Ok(Some(address)) =>
      if !(domain in p.served || |Split(address, Exactly(':'))| <= 1) && Connect(env, address) == Ok(true) {
        ForwardSound(env, m, p, domain, address);
        ForwardedSound(env, m, p, recipient, domain, address);
      }
  }

  /** The pass that forwards to a newly served domain keeps a run sound. */
  lemma ForwardedSound(env: Env, m: Message, p: Progress, recipient: string, domain: string, address: string)
    requires |Split(recipient, Exactly('@'))| >= 2 && domain == Split(recipient, Exactly('@'))[1]
    requires Resolve(env.net, env.root, domain) == Ok(Some(address))
    requires domain !in p.served && |Split(address, Exactly(':'))| > 1 && Connect(env, address) == Ok(true)
    requires Deliver(env, m, p, recipient).Ok?
    requires Sound(env, m, p.(served := p.served + [domain], events := p.events + [Forward(domain, address, m)]))
    ensures Sound(env, m, Deliver(env, m, p, recipient).value)
  {
    var p' := p.(served := p.served + [domain], events := p.events + [Forward(domain, address, m)]);
    match Send(env, address, m)
    case Clean =>
      assert Deliver(env, m, p, recipient) == Ok(p');
    case Unknown(names) =>
      assert Deliver(env, m, p, recipient) == Report(p', DeliveryFailure(env, m, recipient, Some(names)));
      ReportSound(env, m, p', recipient, Some(names));
  }

  /** Forwarding to a domain not yet served, at the address it resolves to,
      keeps a run sound. */
  lemma ForwardSound(env: Env, m: Message, p: Progress, domain: string, address: string)
    requires Sound(env, m, p) && domain !in p.served
    requires Resolve(env.net, env.root, domain) == Ok(Some(address))
    ensures Sound(env, m, p.(served := p.served + [domain], events := p.events + [Forward(domain, address, m)]))
  {
    var events := p.events + [Forward(domain, address, m)];
    assert events[..|events| - 1] == p.events;
  }

  lemma {:induction false} RunSound(env: Env, m: Message, p: Progress, recipients: seq<string>)
    requires Sound(env, m, p) && Run(env, m, p, recipients).Ok?
    ensures Sound(env, m, Run(env, m, p, recipients).value)
    decreases |recipients|
  {
    if |recipients| > 0 && !p.halted {
      DeliverSound(env, m, p, recipients[0]);
      RunSound(env, m, Deliver(env, m, p, recipients[0]).value, recipients[1..]);
    }
  }

  /** A whole task contacts each domain's server at most once, at the address
      the domain resolves to, with the full original message, and sends every
      failure notice to the sender alone. */
  lemma ForwardOncePerDomain(env: Env, m: Message)
    requires Run(env, m, Start, m.recipients).Ok?
    ensures Sound(env, m, Run(env, m, Start, m.recipients).value)
  {
    RunSound(env, m, Start, m.recipients);
  }

  /** A printed int holds no ':'. */
  lemma IntToStringNoColon(n: int)
    ensures FreeOf(IntToString(n), Exactly(':'))
  {
    var t := IntToString(n);
    var digits := NatToString(if n < 0 then -n else n);
    forall k | 0 <= k < |t| ensures t[k] != ':' {
      if n < 0 && k > 0 { assert t[k] == digits[k - 1]; }
      else if n >= 0 { assert t[k] == digits[k]; }
    }
  }

  /** A nameserver entry `host:port` gives back its port when that lies in
      0..65535, and the exception that ends the forwarding task when it does not. */
  lemma PortOfPrinted(host: string, n: int)
    requires host != "" && FreeOf(host, Exactly(':')) && InInt32(n)
    ensures Port(host + ":" + IntToString(n)) == if 0 <= n <= MaxPort then Some(n) else None
    ensures Split(host + ":" + IntToString(n), Exactly(':')) == [host, IntToString(n)]
  {
    IntToStringNoColon(n);
    assert host + ":" + IntToString(n) == Join([host, IntToString(n)], ":") by {
      assert [host, IntToString(n)][1..] == [IntToString(n)];
    }
    SplitJoinBy([host, IntToString(n)], ':', Exactly(':'));
    ParseIntToString(n);
  }

  /** A recipient whose domain resolves to a server not yet served that
      cannot be reached: the IOException leaves the loop, so no later
      recipient is handled, and both reports are still sent. */
  lemma UnreachableHalts(env: Env, m: Message, p: Progress, recipient: string, rest: seq<string>, address: string)
    requires !p.halted && |Split(recipient, Exactly('@'))| >= 2
    requires var domain := Split(recipient, Exactly('@'))[1];
      Resolve(env.net, env.root, domain) == Ok(Some(address)) && domain !in p.served
    requires |Split(address, Exactly(':'))| > 1 && Connect(env, address) == Ok(false)
    ensures Run(env, m, p, [recipient] + rest) == Ok(p.(halted := true))
    ensures Reports(m, Run(env, m, p, [recipient] + rest))
      == (if p.failure.Some? then [Text(p.failure.value.sender)] else []) + [Text(m.sender)]
  {
    assert Deliver(env, m, p, recipient) == Ok(p.(halted := true));
    RunStep(env, m, p, [recipient] + rest, p.(halted := true));
  }

  /** A recipient whose domain cannot be found, with a sender whose server
      cannot be reached: the notice fails before it is filled in, the loop
      ends, and the reports name "null" and then the sender. */
  lemma NoticeUnreachableHalts(env: Env, m: Message, p: Progress, recipient: string, rest: seq<string>, address: string)
    requires !p.halted && m.sender.Some? && |Split(m.sender.value, Exactly('@'))| >= 2
    requires Resolve(env.net, env.root, Split(m.sender.value, Exactly('@'))[1]) == Ok(Some(address))
    requires Connect(env, address) == Ok(false)
    requires |Split(recipient, Exactly('@'))| >= 2
    requires Resolve(env.net, env.root, Split(recipient, Exactly('@'))[1]) == Ok(None)
    ensures Run(env, m, p, [recipient] + rest) == Ok(p.(failure := Some(Blank), halted := true))
    ensures Reports(m, Run(env, m, p, [recipient] + rest)) == ["null", Text(m.sender)]
  {
    assert DeliveryFailure(env, m, recipient, None) == Ok(Unreachable);
    assert Deliver(env, m, p, recipient) == Ok(p.(failure := Some(Blank), halted := true));
    RunStep(env, m, p, [recipient] + rest, p.(failure := Some(Blank), halted := true));
  }

  /** A domain whose entry carries a port outside 0..65535 ends the forwarding task
      with an uncaught exception, and nothing is reported. */
  lemma PortOutOfRangeCrashes(env: Env, m: Message, p: Progress, recipient: string, rest: seq<string>, host: string, n: int)
    requires !p.halted && |Split(recipient, Exactly('@'))| >= 2
    requires host != "" && FreeOf(host, Exactly(':')) && InInt32(n) && !(0 <= n <= MaxPort)
    requires var domain := Split(recipient, Exactly('@'))[1];
      Resolve(env.net, env.root, domain) == Ok(Some(host + ":" + IntToString(n))) && domain !in p.served
    ensures Run(env, m, p, [recipient] + rest).Crash?
    ensures Reports(m, Run(env, m, p, [recipient] + rest)) == []
  {
    PortOfPrinted(host, n);
    assert Deliver(env, m, p, recipient).Crash?;
  }

  /** The failure notices for `recipients` whose domains could not be found,
      all sent to the sender's server at `address`. */
  function NotFoundNotices(env: Env, sender: string, address: string, recipients: seq<string>): (r: seq<Event>)
    ensures |r| == |recipients|
  {
    if |recipients| == 0 then []
    else
      var first := Bounce(address, Notice(env.host, sender, recipients[0], None));
      [first] + NotFoundNotices(env, sender, address, recipients[1..])
  }

  /** A recipient whose domain cannot be found, and whose notice the
      sender's server at `address` takes without an exception. */
  predicate Unfound(env: Env, sender: string, address: string, recipient: string) {
    var at := Split(recipient, Exactly('@'));
    |at| >= 2 && Resolve(env.net, env.root, at[1]) == Ok(None)
    && !Send(env, address, Notice(env.host, sender, recipient, None)).Aborted?
  }

  /** A notice is dropped when the sender's own domain cannot be found; the
      loop still marks the failure as created, with every field null. */
  lemma NoticeDropped(env: Env, m: Message, p: Progress, recipient: string, unknown: Option<string>)
    requires m.sender.Some? && |Split(m.sender.value, Exactly('@'))| >= 2
    requires Resolve(env.net, env.root, Split(m.sender.value, Exactly('@'))[1]) == Ok(None)
    ensures DeliveryFailure(env, m, recipient, unknown) == Ok(Dropped)
    ensures Report(p, DeliveryFailure(env, m, recipient, unknown)) == Ok(p.(failure := Some(Blank)))
  {
  }

  /** One recipient whose domain cannot be found, with a sender whose domain
      can, adds one notice. */
  lemma UnresolvedBounced(env: Env, m: Message, p: Progress, recipient: string, address: string)
    requires m.sender.Some? && |Split(m.sender.value, Exactly('@'))| >= 2
    requires Resolve(env.net, env.root, Split(m.sender.value, Exactly('@'))[1]) == Ok(Some(address))
    requires Connect(env, address) == Ok(true)
    requires Unfound(env, m.sender.value, address, recipient)
    ensures var notice := Notice(env.host, m.sender.value, recipient, None);
      Deliver(env, m, p, recipient)
      == Ok(p.(failure := Some(notice), events := p.events + [Bounce(address, notice)]))
  {
    var notice := Notice(env.host, m.sender.value, recipient, None);
    var failure := DeliveryFailure(env, m, recipient, None);
    assert failure == Ok(Sent(Bounce(address, notice)));
    var at := Split(recipient, Exactly('@'));
    assert Resolve(env.net, env.root, at[1]) == Ok(None);
    assert Deliver(env, m, p, recipient) == Report(p, failure);
  }

  lemma AppendAssoc<T>(a: seq<T>, b: seq<T>, c: seq<T>)
    ensures (a + b) + c == a + (b + c)
  {
  }

  lemma LastOfTail<T>(s: seq<T>)
    requires |s| >= 2
    ensures s[1..][|s| - 2] == s[|s| - 1]
  {
  }

  lemma RunStep(env: Env, m: Message, p: Progress, recipients: seq<string>, q: Progress)
    requires |recipients| > 0 && !p.halted && Deliver(env, m, p, recipients[0]) == Ok(q)
    ensures Run(env, m, p, recipients) == Run(env, m, q, recipients[1..])
  {
  }

  /** When no recipient's domain can be found but the sender's can, every
      recipient gets a notice of its own: failures are not merged per domain,
      and the failure kept for reporting is the last notice. */
  lemma EachUnresolvedBounced(env: Env, m: Message, p: Progress, recipients: seq<string>, address: string)
    requires m.sender.Some? && |Split(m.sender.value, Exactly('@'))| >= 2
    requires Resolve(env.net, env.root, Split(m.sender.value, Exactly('@'))[1]) == Ok(Some(address))
    requires !p.halted && Connect(env, address) == Ok(true)
    requires forall r :: r in recipients ==> Unfound(env, m.sender.value, address, r)
    ensures Run(env, m, p, recipients) == Ok(p.(
      failure := if |recipients| == 0 then p.failure
                 else Some(Notice(env.host, m.sender.value, recipients[|recipients| - 1], None)),
      events := p.events + NotFoundNotices(env, m.sender.value, address, recipients)))
  {
    BouncedRun(env, m, p, recipients, address);
  }

  /** The progress after notices for `recipients`, starting from `p`. */
  function Bounced(env: Env, sender: string, address: string, p: Progress, recipients: seq<string>): Progress {
    p.(failure := if |recipients| == 0 then p.failure else Some(Notice(env.host, sender, recipients[|recipients| - 1], None)),
       events := p.events + NotFoundNotices(env, sender, address, recipients))
  }

  /** A notice for the first recipient, then notices for the rest, is
      notices for them all. */
  lemma BouncedStep(env: Env, sender: string, address: string, p: Progress, recipients: seq<string>)
    requires |recipients| > 0
    ensures var notice := Notice(env.host, sender, recipients[0], None);
      Bounced(env, sender, address, p.(failure := Some(notice), events := p.events + [Bounce(address, notice)]), recipients[1..])
      == Bounced(env, sender, address, p, recipients)
  {
    var notice := Notice(env.host, sender, recipients[0], None);
    var rest := recipients[1..];
    assert NotFoundNotices(env, sender, address, recipients) == [Bounce(address, notice)] + NotFoundNotices(env, sender, address, rest);
    AppendAssoc(p.events, [Bounce(address, notice)], NotFoundNotices(env, sender, address, rest));
    if |rest| > 0 {
      LastOfTail(recipients);
    }
  }

  lemma {:induction false} BouncedRun(env: Env, m: Message, p: Progress, recipients: seq<string>, address: string)
    requires m.sender.Some? && |Split(m.sender.value, Exactly('@'))| >= 2
    requires Resolve(env.net, env.root, Split(m.sender.value, Exactly('@'))[1]) == Ok(Some(address))
    requires !p.halted && Connect(env, address) == Ok(true)
    requires forall r :: r in recipients ==> Unfound(env, m.sender.value, address, r)
    ensures Run(env, m, p, recipients) == Ok(Bounced(env, m.sender.value, address, p, recipients))
    decreases |recipients|
  {
    if |recipients| == 0 {
      assert NotFoundNotices(env, m.sender.value, address, recipients) == [];
      assert p.events + [] == p.events;
    } else {
      var notice := Notice(env.host, m.sender.value, recipients[0], None);
      var p' := p.(failure := Some(notice), events := p.events + [Bounce(address, notice)]);
      assert recipients[0] in recipients;
      UnresolvedBounced(env, m, p, recipients[0], address);
      RunStep(env, m, p, recipients, p');
      assert forall r :: r in recipients[1..] ==> r in recipients;
      BouncedRun(env, m, p', recipients[1..], address);
      BouncedStep(env, m.sender.value, address, p, recipients);
    }
  }
}

=== FILE: jstring.dfy ===
/** The few java.lang.String and java.lang.Integer operations the mail system
    relies on, with Java's exact edge cases (String.split drops trailing empty
    pieces, String.trim strips every char up to U+0020, Integer.parseInt
    rejects values outside the 32-bit range). */
module JString {
  import opened Wrappers

  const Int32Min: int := -0x8000_0000
  const Int32Max: int := 0x7fff_ffff

  predicate InInt32(n: int) { Int32Min <= n <= Int32Max }

  /** Java's `\w` without UNICODE_CHARACTER_CLASS: [a-zA-Z_0-9]. */
  predicate IsWordChar(c: char) {
    ('a' <= c <= 'z') || ('A' <= c <= 'Z') || ('0' <= c <= '9') || c == '_'
  }

  /** A non-empty run of `\w` characters. */
  predicate IsWord(w: string) {
    |w| > 0 && forall k :: 0 <= k < |w| ==> IsWordChar(w[k])
  }

  /** Java's `\s`: [ \t\n\x0B\f\r]. */
  predicate IsWhitespace(c: char) {
    c == ' ' || c == '\t' || c == '\n' || c == '\U{000B}' || c == '\U{000C}' || c == '\r'
  }

  /** The characters a regex `.` does not match (no DOTALL flag). */
  predicate IsLineTerminator(c: char) {
    c == '\n' || c == '\r' || c == '\U{0085}' || c == '\U{2028}' || c == '\U{2029}'
  }

  function LowerAscii(c: char): char {
    if 'A' <= c <= 'Z' then (c as int + 32) as char else c
  }

  /** String.equalsIgnoreCase, with ASCII case folding. */
  predicate EqualsIgnoreCase(a: string, b: string) {
    |a| == |b| && forall i :: 0 <= i < |a| ==> LowerAscii(a[i]) == LowerAscii(b[i])
  }

  predicate StartsWith(s: string, p: string) {
    |p| <= |s| && s[..|p|] == p
  }

  predicate Contains(s: string, p: string)
    decreases |s|
  {
    StartsWith(s, p) || (|s| > 0 && Contains(s[1..], p))
  }

  /** The argument to String.split: one literal character, or the class `\s`. */
  datatype Delim = Exactly(c: char) | Whitespace

  predicate IsDelim(d: Delim, x: char) {
    match d
    case Exactly(c) => x == c
    case Whitespace => IsWhitespace(x)
  }

  /** Every piece between delimiters, empty pieces included. */
  function SplitAll(s: string, d: Delim): (r: seq<string>)
    ensures |r| >= 1
    decreases |s|
  {
    if |s| == 0 then [""]
    else
      var rest := SplitAll(s[1..], d);
      if IsDelim(d, s[0]) then [""] + rest
      else [[s[0]] + rest[0]] + rest[1..]
  }

  function DropTrailingEmpty(p: seq<string>): (r: seq<string>)
    ensures |r| <= |p| && r == p[..|r|]
    ensures |r| == 0 || r[|r| - 1] != ""
    ensures forall i :: |r| <= i < |p| ==> p[i] == ""
  {
    if |p| == 0 then []
    else if p[|p| - 1] == "" then DropTrailingEmpty(p[..|p| - 1])
    else p
  }

  /** String.split(regex) with limit 0: the input itself when it is empty,
      otherwise every piece with the trailing empty pieces removed. */
  function Split(s: string, d: Delim): seq<string> {
    if |s| == 0 then [""] else DropTrailingEmpty(SplitAll(s, d))
  }

  /** String.join. */
  function Join(parts: seq<string>, sep: string): string {
    if |parts| == 0 then ""
    else if |parts| == 1 then parts[0]
    else parts[0] + sep + Join(parts[1..], sep)
  }

  /** s.replace(a, b) for single characters; `b` absent removes `a`. */
  function ReplaceChar(s: string, a: char, b: Option<char>): (r: string)
    ensures a !in r || b == Some(a)
    ensures b.None? ==> |r| <= |s|
  {
    if |s| == 0 then ""
    else
      var head := if s[0] != a then [s[0]] else if b.Some? then [b.value] else [];
      head + ReplaceChar(s[1..], a, b)
  }

  function TrimStart(s: string): string {
    if |s| > 0 && s[0] <= ' ' then TrimStart(s[1..]) else s
  }

  function TrimEnd(s: string): string {
    if |s| > 0 && s[|s| - 1] <= ' ' then TrimEnd(s[..|s| - 1]) else s
  }

  /** String.trim. */
  function Trim(s: string): string {
    TrimEnd(TrimStart(s))
  }

  function IndexOf(s: string, c: char): (r: Option<nat>)
    ensures r.Some? ==> r.value < |s| && s[r.value] == c && c !in s[..r.value]
    ensures r.None? ==> c !in s
  {
    if |s| == 0 then None
    else if s[0] == c then Some(0)
    else match IndexOf(s[1..], c)
      case None => None
      case Some(i) => Some(i + 1)
  }

  /** `s.split(" ", 2)[1]`: the text after the first `c`; None where Java
      throws ArrayIndexOutOfBoundsException. */
  function AfterFirst(s: string, c: char): Option<string> {
    match IndexOf(s, c)
    case None => None
    case Some(i) => Some(s[i + 1..])
  }

  /** `s.substring(0, s.indexOf(c))`, None when `c` is absent. */
  function BeforeFirst(s: string, c: char): Option<string> {
    match IndexOf(s, c)
    case None => None
    case Some(i) => Some(s[..i])
  }

  predicate IsDigit(c: char) { '0' <= c <= '9' }

  predicate AllDigits(s: string) {
    forall i :: 0 <= i < |s| ==> IsDigit(s[i])
  }

  function DigitsValue(s: string): nat
    requires AllDigits(s)
  {
    if |s| == 0 then 0
    else DigitsValue(s[..|s| - 1]) * 10 + (s[|s| - 1] as int - '0' as int)
  }

  /** Integer.parseInt(s) for ASCII digits; None where Java throws
      NumberFormatException (empty, a bare sign, a non-digit, or a value
      outside the 32-bit range). */
  function ParseInt(s: string): (r: Option<int>)
    ensures r.Some? ==> InInt32(r.value)
  {
    if |s| == 0 then None
    else
      var signed := s[0] == '-' || s[0] == '+';
      var digits := if signed then s[1..] else s;
      if |digits| == 0 || !AllDigits(digits) then None
      else
        var v: int := DigitsValue(digits);
        var n := if s[0] == '-' then -v else v;
        if InInt32(n) then Some(n) else None
  }

  function DigitChar(d: nat): char
    requires d < 10
  {
    ('0' as int + d) as char
  }

  function NatToString(n: nat): (r: string)
    ensures |r| >= 1 && AllDigits(r)
  {
    if n < 10 then [DigitChar(n)] else NatToString(n / 10) + [DigitChar(n % 10)]
  }

  /** Integer.toString / string concatenation of an int. */
  function IntToString(n: int): (r: string)
    ensures |r| >= 1
  {
    if n < 0 then "-" + NatToString(-n) else NatToString(n)
  }

  // ---------------------------------------------------------------- lemmas

  lemma {:induction false} NatToStringValue(n: nat)
    ensures DigitsValue(NatToString(n)) == n
  {
    if n >= 10 {
      var s := NatToString(n);
      NatToStringValue(n / 10);
      assert s[..|s| - 1] == NatToString(n / 10);
    }
  }

  /** Printing an int and parsing it back gives the same int: the id a client
      reads off a `list` line is the id the server parses from `show <id>`. */
  lemma ParseIntToString(n: int)
    requires InInt32(n)
    ensures ParseInt(IntToString(n)) == Some(n)
  {
    if n < 0 {
      NatToStringValue(-n);
      assert IntToString(n)[1..] == NatToString(-n);
    } else {
      NatToStringValue(n);
    }
  }

  /** No character of `p` is a delimiter. */
  predicate FreeOf(p: string, d: Delim) {
    forall k :: 0 <= k < |p| ==> !IsDelim(d, p[k])
  }

  lemma {:induction false} SplitAllNoDelim(p: string, d: Delim)
    requires FreeOf(p, d)
    ensures SplitAll(p, d) == [p]
  {
    if |p| > 0 {
      SplitAllNoDelim(p[1..], d);
      assert [p[0]] + p[1..] == p;
    }
  }

  lemma {:induction false} SplitAllPrefix(p: string, c: char, t: string, d: Delim)
    requires FreeOf(p, d) && IsDelim(d, c)
    ensures SplitAll(p + [c] + t, d) == [p] + SplitAll(t, d)
  {
    if |p| == 0 {
      assert ([c] + t)[1..] == t;
    } else {
      assert (p + [c] + t)[1..] == p[1..] + [c] + t;
      SplitAllPrefix(p[1..], c, t, d);
      assert [p[0]] + p[1..] == p;
    }
  }

  /** Splitting a join on a delimiter character recovers the pieces. */
  lemma {:induction false} SplitAllJoin(parts: seq<string>, c: char, d: Delim)
    requires |parts| >= 1 && IsDelim(d, c)
    requires forall i :: 0 <= i < |parts| ==> FreeOf(parts[i], d)
    ensures SplitAll(Join(parts, [c]), d) == parts
  {
    if |parts| == 1 {
      SplitAllNoDelim(parts[0], d);
    } else {
      SplitAllJoin(parts[1..], c, d);
      SplitAllPrefix(parts[0], c, Join(parts[1..], [c]), d);
    }
  }

  /** Java's split undoes String.join for pieces free of the delimiter whose
      last piece is not empty, whether the delimiter is one character or the
      class `\s`. */
  lemma SplitJoinBy(parts: seq<string>, c: char, d: Delim)
    requires |parts| >= 1 && IsDelim(d, c) && parts[|parts| - 1] != ""
    requires forall i :: 0 <= i < |parts| ==> FreeOf(parts[i], d)
    ensures Split(Join(parts, [c]), d) == parts
  {
    SplitAllJoin(parts, c, d);
    if |Join(parts, [c])| == 0 {
      JoinLength(parts, [c]);
    }
  }

  lemma SplitJoin(parts: seq<string>, c: char)
    requires |parts| >= 1
    requires forall i :: 0 <= i < |parts| ==> parts[i] != "" && c !in parts[i]
    ensures Split(Join(parts, [c]), Exactly(c)) == parts
  {
    SplitJoinBy(parts, c, Exactly(c));
  }

  lemma {:induction false} JoinLength(parts: seq<string>, sep: string)
    requires |parts| >= 1
    ensures |Join(parts, sep)| >= |parts[0]|
    ensures |parts| >= 2 ==> |Join(parts, sep)| >= |parts[0]| + |sep|
  {
  }

  /** Joining the pieces produced by SplitAll gives the input back. */
  lemma {:induction false} JoinSplitAll(s: string, c: char)
    ensures Join(SplitAll(s, Exactly(c)), [c]) == s
  {
    if |s| > 0 {
      JoinSplitAll(s[1..], c);
      var rest := SplitAll(s[1..], Exactly(c));
      if s[0] != c && |rest| > 1 {
        assert Join(rest, [c]) == rest[0] + [c] + Join(rest[1..], [c]);
        assert ([[s[0]] + rest[0]] + rest[1..])[1..] == rest[1..];
      }
      assert [s[0]] + s[1..] == s;
    }
  }

  /** Joining a proper prefix of the pieces gives a strictly shorter string. */
  lemma {:induction false} JoinPrefixShorter(parts: seq<string>, k: nat, sep: string)
    requires 1 <= k < |parts| && |sep| >= 1
    ensures |Join(parts[..k], sep)| < |Join(parts, sep)|
  {
    if k == 1 {
      assert parts[..1] == [parts[0]];
    } else {
      JoinPrefixShorter(parts[1..], k - 1, sep);
      assert parts[..k][1..] == parts[1..][..k - 1];
    }
  }

  /** The domain one hop further down (the pieces of `s` without the last one,
      joined again) is strictly shorter than `s`. */
  lemma DroppingLastPieceShortens(s: string, c: char)
    requires |Split(s, Exactly(c))| >= 2
    ensures var p := Split(s, Exactly(c));
            |Join(p[..|p| - 1], [c])| < |s|
  {
    var all := SplitAll(s, Exactly(c));
    var p := Split(s, Exactly(c));
    JoinSplitAll(s, c);
    assert p == all[..|p|];
    assert p[..|p| - 1] == all[..|p| - 1];
    JoinPrefixShorter(all, |p| - 1, [c]);
  }

  /** Joining one more part at the end adds the separator and that part. */
  lemma {:induction false} JoinSnoc(parts: seq<string>, x: string, sep: string)
    requires |parts| >= 1
    ensures Join(parts + [x], sep) == Join(parts, sep) + sep + x
  {
    if |parts| > 1 {
      JoinSnoc(parts[1..], x, sep);
      assert (parts + [x])[1..] == parts[1..] + [x];
    }
  }

  /** Replacing a character works piece by piece. */
  lemma {:induction false} ReplaceAppend(x: string, y: string, a: char, b: Option<char>)
    ensures ReplaceChar(x + y, a, b) == ReplaceChar(x, a, b) + ReplaceChar(y, a, b)
  {
    if |x| > 0 {
      ReplaceAppend(x[1..], y, a, b);
      assert (x + y)[1..] == x[1..] + y;
    } else {
      assert x + y == y;
    }
  }

  /** Text without the character is left as it is. */
  lemma {:induction false} ReplaceAbsent(x: string, a: char, b: Option<char>)
    requires a !in x
    ensures ReplaceChar(x, a, b) == x
  {
    if |x| > 0 {
      ReplaceAbsent(x[1..], a, b);
    }
  }

  /** Replacing a character that occurs in no piece replaces it in the
      separators only. */
  lemma {:induction false} ReplaceJoin(parts: seq<string>, sep: string, a: char, b: Option<char>)
    requires forall i :: 0 <= i < |parts| ==> a !in parts[i]
    ensures ReplaceChar(Join(parts, sep), a, b) == Join(parts, ReplaceChar(sep, a, b))
  {
    if |parts| == 1 {
      ReplaceAbsent(parts[0], a, b);
    } else if |parts| > 1 {
      ReplaceJoin(parts[1..], sep, a, b);
      ReplaceAppend(parts[0] + sep, Join(parts[1..], sep), a, b);
      ReplaceAppend(parts[0], sep, a, b);
      ReplaceAbsent(parts[0], a, b);
    }
  }

  /** Text that starts and ends with a visible character is its own trim. */
  lemma TrimVisible(s: string)
    requires |s| > 0 && s[0] > ' ' && s[|s| - 1] > ' '
    ensures Trim(s) == s
  {
  }

  /** The text before and after the first space of "<keyword> <x>", for a
      keyword without spaces. */
  lemma AfterKeyword(keyword: string, x: string)
    requires ' ' !in keyword
    ensures AfterFirst(keyword + " " + x, ' ') == Some(x)
    ensures BeforeFirst(keyword + " " + x, ' ') == Some(keyword)
  {
    var s := keyword + " " + x;
    IndexOfPrefix(keyword, " " + x, ' ');
    assert s == keyword + (" " + x);
    assert s[|keyword| + 1..] == x;
  }

  lemma {:induction false} IndexOfPrefix(k: string, t: string, c: char)
    requires c !in k && |t| > 0 && t[0] == c
    ensures IndexOf(k + t, c) == Some(|k|)
  {
    if |k| > 0 {
      IndexOfPrefix(k[1..], t, c);
      assert (k + t)[1..] == k[1..] + t;
    }
  }
}

=== FILE: mailbox_access.dfy ===
/** The mailbox server's access session (dslab.mailbox.MailboxAccess): the
    DMAP engine behind a line-based connection that starts in plaintext and,
    after `startsecure` and a successful handshake, carries every request
    and reply encrypted under the AES session the client proposed. */
module MailboxAccess {
  import opened Wrappers
  import opened JString
  import opened Users
  import opened Crypto
  import Dmap

  /** The handler's state: the engine's session and the user list, the
      handler's own `secure` flag, and the AES session once `aesEncryption`
      is on. */
  datatype Conn = Conn(session: Dmap.Session, users: seq<User>, secure: bool, channel: Option<Channel>)

  /** How the loop ended: a reply that closes the session, a failed
      handshake, an exception that escapes run (a line that is not Base64
      once encrypted, a message id that is not a number), or the end of
      input. */
  datatype End = Closed | Refused | Crashed | Eof

  /** The lines written, the user list afterwards, and how the loop ended. */
  datatype Trace = Trace(out: seq<string>, users: seq<User>, end: End)

  /** A reply after which the loop stops reading. */
  predicate Ends(reply: string) {
    reply == "ok bye" || reply == Dmap.ProtocolError
  }

  /** What the client proposes in its RSA-sealed line: the challenge to echo
      and the AES session. */
  datatype Offer = Offer(challenge: Bytes, channel: Channel)

  /** The decoding in startSecure of the client's line, up to the cipher
      set-up; None wherever a step throws. */
  function ParseOffer(p: Primitives, request: string): (r: Option<Offer>)
    ensures r.Some? ==> AesAccepts(r.value.channel.key, r.value.channel.iv)
  {
    match p.decode(request)
    case None => None
    case Some(sealed) =>
      match p.unseal(sealed)
      case None => None
      case Some(plain) =>
        var parts := Split(p.text(plain), Exactly(' '));
        if |parts| < 4 then None
        else
          match (p.decode(parts[1]), p.decode(parts[2]), p.decode(parts[3]))
          case (Some(c), Some(k), Some(iv)) =>
            if AesAccepts(k, iv) then Some(Offer(c, Channel(k, iv))) else None
          case _ => None
  }

  /** startSecure's result: the lines it wrote and, on success, the AES
      session and the engine's step for the "ok" it passes on. */
  datatype Handshake =
    | Failed(out: seq<string>)
    | Established(out: seq<string>, channel: Channel, step: Dmap.Step)

  /** startSecure on the client's line `request`, with `next` the line read
      after the server's answer (None at end of input). */
  function StartSecure(p: Primitives, srv: Dmap.Server, s: Dmap.Session, users: seq<User>,
                       request: string, next: Option<string>): (r: Handshake)
    requires Dmap.Bound(s, users)
    ensures r.Established? <==>
      ParseOffer(p, request).Some? && next.Some?
      && Unwrap(p, ParseOffer(p, request).value.channel, next.value) == Some("ok")
    ensures ParseOffer(p, request).None? <==> r.out == []
    ensures ParseOffer(p, request).Some? ==>
      var o := ParseOffer(p, request).value;
      r.out == [Wrap(p, o.channel, "ok " + p.encode(o.challenge))]
      && (r.Established? ==> r.channel == o.channel)
  {
    match ParseOffer(p, request)
    case None => Failed([])
    case Some(o) =>
      var reply := Wrap(p, o.channel, "ok " + p.encode(o.challenge));
      match next
      case None => Failed([reply])
      case Some(line) =>
        if Unwrap(p, o.channel, line) == Some("ok")
        then Established([reply], o.channel, Dmap.ProcessInput(s, users, srv, "ok"))
        else Failed([reply])
  }

  /** The read loop of run, from the handler state `c`. */
  function Serve(p: Primitives, srv: Dmap.Server, c: Conn, lines: seq<string>): (r: Trace)
    requires Dmap.Bound(c.session, c.users)
    ensures |r.out| <= |lines|
    decreases |lines|
  {
    if |lines| == 0 then Trace([], c.users, Eof)
    else match c.channel
      case Some(ch) =>
        (match Unwrap(p, ch, lines[0])
         case None => Trace([], c.users, Crashed)
         case Some(request) =>
           var st := Dmap.ProcessInput(c.session, c.users, srv, request);
           match st.out
           case Abort => Trace([], st.users, Crashed)
           case Reply(reply) =>
             if Ends(reply) then Trace([Wrap(p, ch, reply)], st.users, Closed)
             else
               var rest := Serve(p, srv, c.(session := st.session, users := st.users), lines[1..]);
               Trace([Wrap(p, ch, reply)] + rest.out, rest.users, rest.end))
      case None =>
        var request := lines[0];
        var secure := c.secure || EqualsIgnoreCase(request, "startsecure");
        if secure && !EqualsIgnoreCase(request, "startsecure") then
          var next := if |lines| > 1 then Some(lines[1]) else None;
          match StartSecure(p, srv, c.session, c.users, request, next)
          case Failed(out) => Trace(out, c.users, Refused)
          case Established(out, ch, st) =>
            var rest := Serve(p, srv, Conn(st.session, st.users, true, Some(ch)), lines[2..]);
            Trace(out + rest.out, rest.users, rest.end)
        else
          var st := Dmap.ProcessInput(c.session, c.users, srv, request);
          match st.out
          case Abort => Trace([], st.users, Crashed)
          case Reply(reply) =>
            if Ends(reply) then Trace([reply], st.users, Closed)
            else
              var rest := Serve(p, srv, Conn(st.session, st.users, secure, None), lines[1..]);
              Trace([reply] + rest.out, rest.users, rest.end)
  }

  /** run: the engine's greeting in plaintext, then the loop. */
  function Session(p: Primitives, srv: Dmap.Server, users: seq<User>, lines: seq<string>): (r: Trace)
    ensures |r.out| >= 1 && r.out[0] == Dmap.Greeting
  {
    var hello := Dmap.ProcessInput(Dmap.Fresh, users, srv, "");
    assert hello.out == Dmap.Reply(Dmap.Greeting) by {
      assert !EqualsIgnoreCase("", "startsecure");
    }
    var rest := Serve(p, srv, Conn(hello.session, hello.users, false, None), lines);
    Trace([hello.out.line] + rest.out, rest.users, rest.end)
  }

  // ---------------------------------------------------------------- lemmas

  /** The engine on a bare connection: every line to DMAP, every reply
      written as it is. */
  function Plain(srv: Dmap.Server, s: Dmap.Session, users: seq<User>, lines: seq<string>): (r: Trace)
    requires Dmap.Bound(s, users)
    decreases |lines|
  {
    if |lines| == 0 then Trace([], users, Eof)
    else
      var st := Dmap.ProcessInput(s, users, srv, lines[0]);
      match st.out
      case Abort => Trace([], st.users, Crashed)
      case Reply(reply) =>
        if Ends(reply) then Trace([reply], st.users, Closed)
        else
          var rest := Plain(srv, st.session, st.users, lines[1..]);
          Trace([reply] + rest.out, rest.users, rest.end)
  }

  /** Until a line "startsecure" (in any case) arrives, the handler is the
      bare engine: each line goes straight to DMAP and each reply goes back
      in plaintext. */
  lemma {:induction false} PlainUntilStartsecure(p: Primitives, srv: Dmap.Server, c: Conn, lines: seq<string>)
    requires Dmap.Bound(c.session, c.users) && c.channel.None? && !c.secure
    requires forall i :: 0 <= i < |lines| ==> !EqualsIgnoreCase(lines[i], "startsecure")
    ensures Serve(p, srv, c, lines) == Plain(srv, c.session, c.users, lines)
    decreases |lines|
  {
    if |lines| > 0 {
      var st := Dmap.ProcessInput(c.session, c.users, srv, lines[0]);
      PlainUntilStartsecure(p, srv, Conn(st.session, st.users, false, None), lines[1..]);
    }
  }

  /** Each line written through the channel, in order. */
  function WrapAll(p: Primitives, ch: Channel, ls: seq<string>): (r: seq<string>)
    ensures |r| == |ls|
  {
    if |ls| == 0 then [] else [Wrap(p, ch, ls[0])] + WrapAll(p, ch, ls[1..])
  }

  /** Once encryption is on, the channel is transparent: requests sent
      encrypted are answered as the bare engine answers them, each reply
      encrypted. */
  lemma {:induction false} EncryptedTransparent(p: Primitives, srv: Dmap.Server, c: Conn, ls: seq<string>)
    requires Laws(p) && Dmap.Bound(c.session, c.users) && c.channel.Some?
    ensures var plain := Plain(srv, c.session, c.users, ls);
      Serve(p, srv, c, WrapAll(p, c.channel.value, ls))
      == Trace(WrapAll(p, c.channel.value, plain.out), plain.users, plain.end)
    decreases |ls|
  {
    if |ls| > 0 {
      var ch := c.channel.value;
      var lines := WrapAll(p, ch, ls);
      UnwrapWrap(p, ch, ls[0]);
      assert lines[1..] == WrapAll(p, ch, ls[1..]);
      var st := Dmap.ProcessInput(c.session, c.users, srv, ls[0]);
      EncryptedTransparent(p, srv, c.(session := st.session, users := st.users), ls[1..]);
      if st.out.Reply? && !Ends(st.out.line) {
        var rest := Plain(srv, st.session, st.users, ls[1..]);
        assert WrapAll(p, ch, [st.out.line] + rest.out)[1..] == WrapAll(p, ch, rest.out);
      }
    }
  }

  /** The first "startsecure" is answered by the engine in plaintext with
      "ok <component id>", and the handler is then waiting for the sealed
      offer. (A component id "bye" would make that answer "ok bye" and end
      the session.) */
  lemma StartsecureAnsweredPlain(p: Primitives, srv: Dmap.Server, c: Conn, rest: seq<string>)
    requires Dmap.Bound(c.session, c.users) && c.channel.None? && !c.secure && !c.session.secure
    requires srv.componentId != "bye"
    ensures var st := Dmap.ProcessInput(c.session, c.users, srv, "startsecure");
      var after := Serve(p, srv, Conn(st.session, st.users, true, None), rest);
      Serve(p, srv, c, ["startsecure"] + rest)
      == Trace(["ok " + srv.componentId] + after.out, after.users, after.end)
  {
    var lines := ["startsecure"] + rest;
    assert lines[1..] == rest;
    assert EqualsIgnoreCase("startsecure", "startsecure");
    assert !EqualsIgnoreCase("startsecure", "quit");
    var reply := "ok " + srv.componentId;
    assert !Ends(reply) by {
      assert reply[3..] == srv.componentId;
      assert "ok bye"[3..] == "bye";
      assert reply[0] != Dmap.ProtocolError[0];
    }
  }

  /** The handshake line after "startsecure": the answer is written through
      the proposed channel, and the session goes on encrypted exactly when
      the line after it decrypts to "ok"; otherwise the loop ends there. */
  lemma HandshakeStep(p: Primitives, srv: Dmap.Server, c: Conn, offer: string, rest: seq<string>)
    requires Dmap.Bound(c.session, c.users) && c.channel.None? && c.secure
    requires !EqualsIgnoreCase(offer, "startsecure")
    ensures var r := Serve(p, srv, c, [offer] + rest);
      var o := ParseOffer(p, offer);
      (o.None? ==> r == Trace([], c.users, Refused))
      && (o.Some? ==>
            |r.out| >= 1 && r.out[0] == Wrap(p, o.value.channel, "ok " + p.encode(o.value.challenge))
            && (r.end == Refused <==> !(|rest| >= 1 && Unwrap(p, o.value.channel, rest[0]) == Some("ok")))
            && (r.end == Refused ==> r.users == c.users && |r.out| == 1))
  {
    var lines := [offer] + rest;
    assert lines[0] == offer && lines[1..] == rest;
    var next := if |lines| > 1 then Some(lines[1]) else None;
    var h := StartSecure(p, srv, c.session, c.users, offer, next);
    if h.Established? {
      var st := h.step;
      var after := Serve(p, srv, Conn(st.session, st.users, true, Some(h.channel)), lines[2..]);
      assert after.end != Refused by {
        ChannelNeverRefuses(p, srv, Conn(st.session, st.users, true, Some(h.channel)), lines[2..]);
      }
    }
  }

  /** Once encrypted, the loop never ends with a failed handshake. */
  lemma {:induction false} ChannelNeverRefuses(p: Primitives, srv: Dmap.Server, c: Conn, lines: seq<string>)
    requires Dmap.Bound(c.session, c.users) && c.channel.Some?
    ensures Serve(p, srv, c, lines).end != Refused
    decreases |lines|
  {
    if |lines| > 0 && Unwrap(p, c.channel.value, lines[0]).Some? {
      var st := Dmap.ProcessInput(c.session, c.users, srv, Unwrap(p, c.channel.value, lines[0]).value);
      ChannelNeverRefuses(p, srv, c.(session := st.session, users := st.users), lines[1..]);
    }
  }
}

=== FILE: mailbox_handler.dfy ===
/** One delivery session of a mailbox server (dslab.mailbox.MailboxHandler):
    the mailbox variant of the submission engine answers every line, and a
    `send` it accepts stores the message with each configured user named in
    the recipient text. `config` is the set of configured user names and
    `domain` the server's own domain. */
module MailboxHandler {
  import opened Wrappers
  import opened JString
  import opened Patterns
  import opened Mail
  import opened Users
  import Dmtp

  /** The loop of send() over the matched local parts: names that are not
      configured are skipped; otherwise the user is created when no user of
      that name exists, and the message is added to the first user of that
      name. */
  function DeliverTo(users: seq<User>, names: seq<string>, m: Message, config: set<string>): (r: seq<User>)
    requires AllWellFormed(users)
    ensures AllWellFormed(r)
    ensures UniqueNames(users) ==> UniqueNames(r)
    ensures |r| >= |users| && forall i :: 0 <= i < |users| ==> r[i].name == users[i].name
    ensures forall i :: 0 <= i < |users| && (users[i].name !in config || users[i].name !in names) ==>
      r[i] == users[i]
    ensures forall i :: |users| <= i < |r| ==> r[i].name in config && r[i].name in names
    decreases |names|
  {
    if |names| == 0 then users
    else if names[0] !in config then DeliverTo(users, names[1..], m, config)
    else
      var (us, k) := Ensure(users, names[0]);
      AddMessageWellFormed(us[k], m);
      DeliverTo(us[k := AddMessage(us[k], m)], names[1..], m, config)
  }

  /** send(): the local parts of `\w+@<domain>` matches in the message's
      first recipient entry. `None` is the exception of taking that entry
      from an empty list. */
  function Deliver(users: seq<User>, m: Message, config: set<string>, domain: string): (r: Option<seq<User>>)
    requires AllWellFormed(users)
    ensures r.None? <==> |m.recipients| == 0
    ensures r.Some? ==> AllWellFormed(r.value) && |r.value| >= |users|
  {
    if |m.recipients| == 0 then None
    else Some(DeliverTo(users, FindLocals(m.recipients[0], domain), m, config))
  }

  /** The outcome of a session: the user list, the reply lines written, and
      whether the session ended in an exception. */
  datatype Trace = Trace(users: seq<User>, replies: seq<string>, crashed: bool)

  /** The read loop of run: one reply per line until a reply ends the
      session or a delivery throws; delivery follows exactly a line "send"
      answered "ok". */
  function Serve(e: Dmtp.Engine, users: seq<User>, config: set<string>, domain: string, lines: seq<string>): (r: Trace)
    requires AllWellFormed(users)
    ensures AllWellFormed(r.users) && |r.users| >= |users|
    ensures |r.replies| <= |lines|
    ensures |r.replies| == |lines| || r.crashed || (|r.replies| > 0 && Dmtp.Ends(r.replies[|r.replies| - 1]))
    decreases |lines|
  {
    if |lines| == 0 then Trace(users, [], false)
    else
      var st := Dmtp.ValidateRequest(e, lines[0], config, domain);
      if Dmtp.Ends(st.reply) then Trace(users, [st.reply], false)
      else
        var delivered :=
          if lines[0] == "send" && st.reply == "ok" then Deliver(users, st.engine.message, config, domain)
          else Some(users);
        match delivered
        case None => Trace(users, [st.reply], true)
        case Some(us) =>
          var rest := Serve(st.engine, us, config, domain, lines[1..]);
          Trace(rest.users, [st.reply] + rest.replies, rest.crashed)
  }

  /** run: the greeting is the engine's reply to an empty line, written
      before anything is read. */
  function Session(users: seq<User>, config: set<string>, domain: string, lines: seq<string>): (r: Trace)
    requires AllWellFormed(users)
    ensures |r.replies| >= 1 && r.replies[0] == Dmtp.Greeting
    ensures |r.replies| <= |lines| + 1
  {
    var hello := Dmtp.ValidateRequest(Dmtp.Fresh, "", config, domain);
    var rest := Serve(hello.engine, users, config, domain, lines);
    Trace(rest.users, [hello.reply] + rest.replies, rest.crashed)
  }

  // ---------------------------------------------------------------- lemmas

  /** How often `w` occurs in `names`. */
  function Count(names: seq<string>, w: string): nat {
    if |names| == 0 then 0 else (if names[0] == w then 1 else 0) + Count(names[1..], w)
  }

  /** Every id of `u` stays `k` below the largest `int`, so `k` more
      messages get fresh ids without wrapping around. */
  predicate UserHeadroom(u: User, k: nat) {
    forall j :: 0 <= j < |u.entries| ==> u.entries[j].id + k < Int32Max
  }

  predicate Headroom(users: seq<User>, k: nat) {
    k + 1 < Int32Max && forall i :: 0 <= i < |users| ==> UserHeadroom(users[i], k)
  }

  /** Away from the wrap-around, adding a message appends one entry holding
      it and uses up one unit of headroom. */
  lemma AddWithinHeadroom(u: User, m: Message, k: nat)
    requires WellFormed(u) && UserHeadroom(u, k) && 1 <= k && k + 1 < Int32Max
    ensures |AddMessage(u, m).entries| == |u.entries| + 1
    ensures AddMessage(u, m).entries[..|u.entries|] == u.entries
    ensures AddMessage(u, m).entries[|u.entries|].message == m
    ensures UserHeadroom(AddMessage(u, m), k - 1)
  {
    if |u.entries| > 0 {
      var top := MaxId(u.entries);
      assert top + k < Int32Max;
    }
    AddMessageFresh(u, m);
  }

  /** A message named for one user keeps the other entries and appends. */
  predicate Extends(before: User, after: User, n: nat, m: Message) {
    |after.entries| == |before.entries| + n
    && after.entries[..|before.entries|] == before.entries
    && forall j :: |before.entries| <= j < |after.entries| ==> after.entries[j].message == m
  }

  lemma ExtendsTrans(a: User, b: User, c: User, n1: nat, n2: nat, m: Message)
    requires Extends(a, b, n1, m) && Extends(b, c, n2, m)
    ensures Extends(a, c, n1 + n2, m)
  {
    assert c.entries[..|a.entries|] == c.entries[..|b.entries|][..|a.entries|];
  }

  /** The user list after the first configured name has been handled. */
  function Step(users: seq<User>, w: string, m: Message): (r: seq<User>)
    requires AllWellFormed(users)
    ensures |users| <= |r| <= |users| + 1
    ensures var k := Ensure(users, w).1;
      k < |r| && r[k].name == w && |r[k].entries| >= 1
      && (forall i :: 0 <= i < |users| && i != k ==> r[i] == users[i])
  {
    var (us, k) := Ensure(users, w);
    us[k := AddMessage(us[k], m)]
  }

  /** What one handled name does to the list: the named user gains one
      entry, everyone else is unchanged, and the invariants carry over with
      one unit of headroom less. */
  lemma StepFacts(users: seq<User>, w: string, m: Message, n: nat)
    requires AllWellFormed(users) && UniqueNames(users) && Headroom(users, n) && n >= 1
    ensures var k := Ensure(users, w).1; var us' := Step(users, w, m);
      AllWellFormed(us') && UniqueNames(us') && Headroom(us', n - 1)
      && |us'| == |Ensure(users, w).0| && k < |us'| && us'[k].name == w
      && (forall i :: 0 <= i < |users| && i != k ==> us'[i] == users[i])
      && (forall i :: 0 <= i < |users| ==> us'[i].name == users[i].name)
      && (k < |users| ==> Extends(users[k], us'[k], 1, m))
      && (k >= |users| ==> k == |users| && Extends(NewUser(w), us'[k], 1, m))
  {
    var (us, k) := Ensure(users, w);
    var u := us[k];
    AddMessageWellFormed(u, m);
    assert UserHeadroom(u, n);
    AddWithinHeadroom(u, m, n);
    var us' := us[k := AddMessage(u, m)];
    assert Extends(u, us'[k], 1, m);
    assert Headroom(us', n - 1) by {
      forall i | 0 <= i < |us'| ensures UserHeadroom(us'[i], n - 1) {
        if i != k { assert us'[i] == us[i]; }
      }
    }
    assert UniqueNames(us') by {
      forall i, j | 0 <= i < j < |us'| ensures us'[i].name != us'[j].name {
        assert us'[i].name == us[i].name && us'[j].name == us[j].name;
      }
    }
  }

  /** The counts claimed for a delivery of `names` to `users`. */
  predicate Counted(users: seq<User>, names: seq<string>, m: Message, config: set<string>, r: seq<User>)
    requires |r| >= |users|
  {
    (forall i :: 0 <= i < |users| ==>
       Extends(users[i], r[i], if users[i].name in config then Count(names, users[i].name) else 0, m))
    && (forall i :: |users| <= i < |r| ==> Extends(NewUser(r[i].name), r[i], Count(names, r[i].name), m))
  }

  /** Delivery counts: every configured user named in the recipient text
      receives the message once per occurrence of its name, after the
      messages it already had; every new user is a configured name and holds
      exactly its occurrences. This holds while no id wraps around. */
  lemma {:induction false} DeliverCounts(users: seq<User>, names: seq<string>, m: Message, config: set<string>)
    requires AllWellFormed(users) && UniqueNames(users) && Headroom(users, |names|)
    ensures Counted(users, names, m, config, DeliverTo(users, names, m, config))
    decreases |names|
  {
    var r := DeliverTo(users, names, m, config);
    if |names| == 0 {
      forall i | 0 <= i < |users| ensures Extends(users[i], r[i], 0, m) {
        assert r[i].entries[..|users[i].entries|] == r[i].entries;
      }
    } else if names[0] !in config {
      assert Headroom(users, |names| - 1);
      DeliverCounts(users, names[1..], m, config);
    } else {
      var w := names[0];
      StepFacts(users, w, m, |names|);
      var us' := Step(users, w, m);
      DeliverCounts(us', names[1..], m, config);
      assert r == DeliverTo(us', names[1..], m, config);
      CountsCombine(users, names, m, config, us', r);
    }
  }

  /** The induction step of DeliverCounts for a configured first name. */
  lemma CountsCombine(users: seq<User>, names: seq<string>, m: Message, config: set<string>, us': seq<User>, r: seq<User>)
    requires |names| >= 1 && names[0] in config
    requires AllWellFormed(users) && UniqueNames(users) && |r| >= |us'| >= |users|
    requires var k := Ensure(users, names[0]).1;
      |us'| == |Ensure(users, names[0]).0| && k < |us'| && us'[k].name == names[0]
      && (forall i :: 0 <= i < |users| && i != k ==> us'[i] == users[i])
      && (forall i :: 0 <= i < |users| ==> us'[i].name == users[i].name)
      && (k < |users| ==> Extends(users[k], us'[k], 1, m))
      && (k >= |users| ==> k == |users| && Extends(NewUser(names[0]), us'[k], 1, m))
    requires UniqueNames(r) && forall i :: 0 <= i < |us'| ==> r[i].name == us'[i].name
    requires Counted(us', names[1..], m, config, r)
    ensures Counted(users, names, m, config, r)
  {
    var w := names[0];
    var k := Ensure(users, w).1;
    forall i | 0 <= i < |users|
      ensures Extends(users[i], r[i], if users[i].name in config then Count(names, users[i].name) else 0, m)
    {
      if users[i].name == w {
        assert k == i;
        ExtendsTrans(users[i], us'[i], r[i], 1, Count(names[1..], w), m);
      } else {
        assert us'[i] == users[i];
      }
    }
    forall i | |users| <= i < |r| ensures Extends(NewUser(r[i].name), r[i], Count(names, r[i].name), m) {
      if i < |us'| {
        assert k == |users| && i == k;
        ExtendsTrans(NewUser(w), us'[k], r[i], 1, Count(names[1..], w), m);
      } else {
        assert r[k].name == w;
      }
    }
  }

  /** Without a line "send" nothing is delivered. */
  lemma {:induction false} NoSendNoDelivery(e: Dmtp.Engine, users: seq<User>, config: set<string>, domain: string, lines: seq<string>)
    requires AllWellFormed(users)
    requires forall i :: 0 <= i < |lines| ==> lines[i] != "send"
    ensures Serve(e, users, config, domain, lines).users == users
    decreases |lines|
  {
    if |lines| > 0 {
      var st := Dmtp.ValidateRequest(e, lines[0], config, domain);
      NoSendNoDelivery(st.engine, users, config, domain, lines[1..]);
    }
  }

  /** The mailbox engine accepts `send` without any recipient, and the
      delivery that follows throws: the session writes "ok" and dies. */
  lemma SendWithoutRecipientCrashes(users: seq<User>, config: set<string>, domain: string)
    requires AllWellFormed(users)
    ensures Session(users, config, domain, ["begin", "send"])
      == Trace(users, [Dmtp.Greeting, "ok", "ok"], true)
  {
    var hello := Dmtp.ValidateRequest(Dmtp.Fresh, "", config, domain);
    Dmtp.NotQuit("");
    Dmtp.NotQuit("begin");
    Dmtp.NotQuit("send");
    var e1 := Dmtp.ValidateRequest(hello.engine, "begin", config, domain);
    assert e1.engine == Dmtp.Engine(Dmtp.Email, Blank);
    assert !StartsWith("send", "subject ") && !StartsWith("send", "from ");
    assert !StartsWith("send", "data") && !StartsWith("send", "to ");
    assert !Contains("send", "hash ");
    var e2 := Dmtp.ValidateRequest(e1.engine, "send", config, domain);
    assert e2.reply == "ok";
    assert ["begin", "send"][1..] == ["send"];
  }
}

=== FILE: message.dfy ===
/** The envelope every component passes around (dslab.Message). Its source
    file is not part of this model; the engines only use its five properties,
    a fresh instance has an empty recipient list, and every other field starts
    out null. */
module Mail {
  import opened Wrappers
  import opened JString
  import opened Patterns

  /** A null field is `None`. */
  datatype Message = Message(
    sender: Option<string>,
    recipients: seq<string>,
    subject: Option<string>,
    data: Option<string>,
    hash: Option<string>)

  /** `new Message()`. */
  const Blank: Message := Message(None, [], None, None, None)

  /** How Java string concatenation prints a field that may be null. */
  function Text(o: Option<string>): string {
    match o
    case Some(s) => s
    case None => "null"
  }

  /** The `send` check on one field: neither null nor equal to "". */
  predicate Present(o: Option<string>) {
    o.Some? && o.value != ""
  }

  /** What the transfer engine keeps true of its message at all times: the
      sender, once set, and every recipient passed the address pattern. */
  predicate WellAddressed(m: Message) {
    (m.sender.None? || IsAddress(m.sender.value))
    && forall i :: 0 <= i < |m.recipients| ==> IsAddress(m.recipients[i])
  }

  /** A message the transfer engine lets through `send`. */
  predicate Accepted(m: Message) {
    WellAddressed(m) && Present(m.subject) && m.sender.Some?
    && Present(m.data) && |m.recipients| >= 1
  }
}

=== FILE: message_client.dfy ===
/** The message client's commands (dslab.client.MessageClient): `msg`
    authenticates the message with an HMAC over its four fields and submits
    it; `verify` recomputes that HMAC from a stored message as `show` prints
    it; `inbox` lists the ids to show. Each command's server replies are
    parameters: the decrypted line the mailbox server answered, or None for
    the null that readSecure gives at the end of the stream. */
module MessageClient {
  import opened Wrappers
  import opened JString
  import opened Mail
  import opened Users
  import opened Patterns
  import opened Crypto
  import Dmap
  import Relay
  import ClientHandler
  import ClientConnection

  // ------------------------------------------------------------------- msg

  /** The text msg authenticates: sender, recipients as typed, subject and
      data, joined by line breaks. */
  function MacInput(from: string, to: string, subject: string, data: string): string {
    Join([from, to, subject, data], "\n")
  }

  /** The authenticated text splits back into its four fields. */
  lemma MacInputSplits(from: string, to: string, subject: string, data: string)
    requires FreeOf(from, Exactly('\n')) && FreeOf(to, Exactly('\n')) && FreeOf(subject, Exactly('\n'))
    requires FreeOf(data, Exactly('\n')) && data != ""
    ensures Split(MacInput(from, to, subject, data), Exactly('\n')) == [from, to, subject, data]
  {
    var fields := [from, to, subject, data];
    assert forall i :: 0 <= i < 4 ==> FreeOf(fields[i], Exactly('\n'));
    SplitJoinBy(fields, '\n', Exactly('\n'));
  }

  /** The hash line's value: the Base64 of the HMAC of that text. */
  function Hash(p: Primitives, key: Bytes, from: string, to: string, subject: string, data: string): string {
    p.encode(p.mac(key, p.bytes(MacInput(from, to, subject, data))))
  }

  /** msg: on the transfer server's greeting, send the envelope carrying the
      hash; on another first line, do nothing. A missing first line is a null
      whose equals throws. */
  function Msg(p: Primitives, key: Bytes, from: string, to: string, subject: string, data: string,
               replies: seq<string>): (r: Outcome<Option<ClientConnection.Exchange>>)
    ensures r.Ok? && r.value.Some? ==>
      var x := r.value.value;
      |replies| >= 1 && ClientConnection.ConnectsDmtp(replies[0]) && |x.sent| <= 7
      && x.sent == ClientConnection.Envelope(from, to, subject, data, Hash(p, key, from, to, subject, data))[..|x.sent|]
    ensures r == Ok(None) <==> |replies| >= 1 && !ClientConnection.ConnectsDmtp(replies[0])
  {
    if |replies| == 0 then Crash
    else if !ClientConnection.ConnectsDmtp(replies[0]) then Ok(None)
    else Ok(Some(ClientConnection.SendMessage(from, to, subject, data, Hash(p, key, from, to, subject, data), replies[1..])))
  }

  // ---------------------------------------------------------------- verify

  /** `line.split(" ", 2)[1]` for each line: the text after the first space;
      None when some line has no space and the index throws. */
  function AfterSpaces(lines: seq<string>): (r: Option<seq<string>>)
    ensures r.Some? <==> forall i :: 0 <= i < |lines| ==> ' ' in lines[i]
    ensures r.Some? ==> (|r.value| == |lines|
      && forall i :: 0 <= i < |lines| ==> AfterFirst(lines[i], ' ') == Some(r.value[i]))
  {
    if |lines| == 0 then Some([])
    else match AfterFirst(lines[0], ' ')
      case None => None
      case Some(x) =>
        match AfterSpaces(lines[1..])
        case None => None
        case Some(rest) =>
          assert forall i :: 1 <= i < |lines| ==> lines[i] == lines[1..][i - 1];
          Some([x] + rest)
  }

  /** verify, given the decrypted answer to "show <id>": trim it, split it
      into lines, take the text after the first space of every line but the
      last into five slots (unfilled slots stay null), recompute the HMAC of
      the first four joined by line breaks (a null joins as "null"), and
      compare it with the Base64-decoded fifth. More than six lines overflow
      the slots; a line without a space, a null fifth slot and bad Base64 all
      throw. */
  function Verify(p: Primitives, key: Bytes, answer: Option<string>): (r: Outcome<bool>)
    ensures r.Ok? ==> answer.Some? && |Split(Trim(answer.value), Exactly('\n'))| == 6
  {
    match answer
    case None => Crash
    case Some(s) =>
      var lines := Split(Trim(s), Exactly('\n'));
      if |lines| == 0 || |lines| - 1 > 5 then Crash
      else match AfterSpaces(lines[..|lines| - 1])
        case None => Crash
        case Some(filled) =>
          var slot := (i: nat) => if i < |filled| then Some(filled[i]) else None;
          var text := Join([Text(slot(0)), Text(slot(1)), Text(slot(2)), Text(slot(3))], "\n");
          match slot(4)
          case None => Crash
          case Some(h) =>
            match p.decode(h)
            case None => Crash
            case Some(received) => Ok(p.mac(key, p.bytes(text)) == received)
  }

  // ----------------------------------------------------------------- inbox

  /** `text.substring(0, text.indexOf(" "))` of every line holding a space,
      in order. */
  function LeadingWords(lines: seq<string>): (r: seq<string>)
    ensures |r| <= |lines|
    ensures forall i :: 0 <= i < |r| ==> ' ' !in r[i]
  {
    if |lines| == 0 then []
    else match BeforeFirst(lines[0], ' ')
      case None => LeadingWords(lines[1..])
      case Some(w) => [w] + LeadingWords(lines[1..])
  }

  /** inbox, given the decrypted answer to "list": the ids it then shows, one
      "show <id>" each; none when the answer has fewer than two lines (the
      inbox is reported empty). */
  function Inbox(answer: Option<string>): (r: Outcome<seq<string>>)
    ensures r.Ok? ==> answer.Some?
    ensures r.Ok? && |Split(answer.value, Exactly('\n'))| < 2 ==> r.value == []
  {
    match answer
    case None => Crash
    case Some(list) =>
      var lines := Split(list, Exactly('\n'));
      if |lines| < 2 then Ok([]) else Ok(LeadingWords(lines))
  }

  // ---------------------------------------------------------------- lemmas

  lemma {:induction false} JoinFree(parts: seq<string>, sep: string, c: char)
    requires c !in sep && forall i :: 0 <= i < |parts| ==> c !in parts[i]
    ensures c !in Join(parts, sep)
    decreases |parts|
  {
    if |parts| > 1 {
      JoinFree(parts[1..], sep, c);
    }
  }

  /** How `show` prints the recipients of a relayed message: the original
      list joined by commas, as the sender typed it when canonical. */
  lemma RelayedRecipients(addrs: seq<string>)
    requires forall i :: 0 <= i < |addrs| ==> IsAddress(addrs[i])
    ensures Dmap.ShowRecipients(Relay.Relayed(Blank.(recipients := addrs))) == Join(addrs, ",")
  {
    forall i | 0 <= i < |addrs| ensures ',' !in addrs[i] && ' ' !in addrs[i] {
      AddressPlain(addrs[i]);
    }
    ReplaceJoin(addrs, ", ", ',', None);
    assert ReplaceChar(", ", ',', None) == " ";
    var r := ReplaceChar(Join(addrs, ", "), ',', None);
    assert Dmap.Concat([r]) == r;
    ReplaceJoin(addrs, " ", ' ', Some(','));
    assert ReplaceChar(" ", ' ', Some(',')) == ",";
  }

  /** The six lines of a `show` answer survive trimming and splitting. */
  lemma ShowLines(fields: seq<string>)
    requires |fields| == 5 && |fields[0]| > 5 && fields[0][..5] == "from "
    requires forall i :: 0 <= i < 5 ==> '\n' !in fields[i]
    ensures Split(Trim(Join(fields + ["ok"], "\n")), Exactly('\n')) == fields + ["ok"]
  {
    var all := fields + ["ok"];
    var s := Join(all, "\n");
    JoinSnoc(fields, "ok", "\n");
    assert s == Join(fields, "\n") + "\n" + "ok";
    assert s[0] == 'f' by {
      assert Join(fields, "\n") == fields[0] + "\n" + Join(fields[1..], "\n");
      assert Join(fields, "\n")[0] == fields[0][0];
    }
    assert s[|s| - 1] == 'k';
    TrimVisible(s);
    forall i | 0 <= i < |all| ensures FreeOf(all[i], Exactly('\n')) {
      if i < 5 { assert all[i] == fields[i]; } else { assert all[i] == "ok"; }
    }
    SplitJoinBy(all, '\n', Exactly('\n'));
  }

  /** The text after the keyword of each of the five field lines. */
  lemma FieldWords(from: string, to: string, subject: string, data: string, hash: string)
    ensures AfterSpaces(["from " + from, "to " + to, "subject " + subject, "data " + data, "hash " + hash])
      == Some([from, to, subject, data, hash])
  {
    var fields := ["from " + from, "to " + to, "subject " + subject, "data " + data, "hash " + hash];
    var words := [from, to, subject, data, hash];
    AfterKeyword("from", from);
    assert "from" + " " + from == fields[0];
    AfterKeyword("to", to);
    assert "to" + " " + to == fields[1];
    AfterKeyword("subject", subject);
    assert "subject" + " " + subject == fields[2];
    AfterKeyword("data", data);
    assert "data" + " " + data == fields[3];
    AfterKeyword("hash", hash);
    assert "hash" + " " + hash == fields[4];
    assert forall i :: 0 <= i < 5 ==> AfterFirst(fields[i], ' ') == Some(words[i]);
    var r := AfterSpaces(fields);
    assert forall i :: 0 <= i < 5 ==> ' ' in fields[i] by {
      forall i | 0 <= i < 5 ensures ' ' in fields[i] {
        assert IndexOf(fields[i], ' ').Some?;
      }
    }
    assert forall i :: 0 <= i < 5 ==> r.value[i] == words[i];
    assert |r.value| == |words|;
    assert r.value == words;
  }

  /** verify on an answer of five field lines and "ok": the HMAC of the
      first four words against the decoded fifth. */
  lemma VerifyOfLines(p: Primitives, key: Bytes, answer: string, fields: seq<string>, words: seq<string>)
    requires |fields| == 5 && Split(Trim(answer), Exactly('\n')) == fields + ["ok"]
    requires AfterSpaces(fields) == Some(words)
    ensures Verify(p, key, Some(answer))
      == match p.decode(words[4])
         case None => Crash
         case Some(received) => Ok(p.mac(key, p.bytes(Join(words[..4], "\n"))) == received)
  {
    var lines := fields + ["ok"];
    assert lines[..|lines| - 1] == fields;
    assert words[..4] == [words[0], words[1], words[2], words[3]];
  }

  /** verify of a `show` answer: the HMAC recomputed from the printed sender,
      recipients, subject and data is compared with the printed hash. */
  lemma VerifyShow(p: Primitives, key: Bytes, from: string, to: string, subject: string, data: string, hash: string)
    requires from != "" && '\n' !in from && '\n' !in to && '\n' !in subject && '\n' !in data && '\n' !in hash
    ensures var answer := Join(["from " + from, "to " + to, "subject " + subject, "data " + data, "hash " + hash, "ok"], "\n");
      Verify(p, key, Some(answer))
      == match p.decode(hash)
         case None => Crash
         case Some(received) => Ok(p.mac(key, p.bytes(MacInput(from, to, subject, data))) == received)
  {
    VerifyShowOn(p, key, from, to, subject, data, hash,
      Join(["from " + from, "to " + to, "subject " + subject, "data " + data, "hash " + hash, "ok"], "\n"));
  }

  /** VerifyShow with the printed answer kept abstract. */
  lemma VerifyShowOn(p: Primitives, key: Bytes, from: string, to: string, subject: string, data: string, hash: string,
                     answer: string)
    requires from != "" && '\n' !in from && '\n' !in to && '\n' !in subject && '\n' !in data && '\n' !in hash
    requires answer == Join(["from " + from, "to " + to, "subject " + subject, "data " + data, "hash " + hash, "ok"], "\n")
    ensures Verify(p, key, Some(answer))
      == match p.decode(hash)
         case None => Crash
         case Some(received) => Ok(p.mac(key, p.bytes(MacInput(from, to, subject, data))) == received)
  {
    var fields := ["from " + from, "to " + to, "subject " + subject, "data " + data, "hash " + hash];
    var words := [from, to, subject, data, hash];
    assert Split(Trim(answer), Exactly('\n')) == fields + ["ok"] by {
      assert fields + ["ok"] == ["from " + from, "to " + to, "subject " + subject, "data " + data, "hash " + hash, "ok"];
      assert forall i :: 0 <= i < 5 ==> '\n' !in fields[i];
      assert fields[0][..5] == "from ";
      ShowLines(fields);
    }
    assert AfterSpaces(fields) == Some(words) by {
      FieldWords(from, to, subject, data, hash);
    }
    VerifyOfLines(p, key, answer, fields, words);
    assert words[..4] == [from, to, subject, data];
  }

  /** End to end: a message `msg` authenticated, accepted by the transfer
      server, relayed and stored in a mailbox, is printed by `show` in a form
      `verify` judges valid, when the recipients were typed as the
      comma-separated list the transfer server extracts. */
  lemma MsgVerifies(p: Primitives, key: Bytes, from: string, addrs: seq<string>, subject: string, data: string,
                    es: seq<Entry>, id: int)
    requires Laws(p)
    requires IsAddress(from) && |addrs| >= 1 && forall i :: 0 <= i < |addrs| ==> IsAddress(addrs[i])
    requires subject != "" && data != "" && '\n' !in subject && '\n' !in data
    requires var hash := Hash(p, key, from, Join(addrs, ","), subject, data);
      Lookup(es, id) == Some(Relay.Relayed(Message(Some(from), addrs, Some(subject), Some(data), Some(hash))))
    ensures Verify(p, key, Some(Dmap.ShowReply(es, id))) == Ok(true)
  {
    var to := Join(addrs, ",");
    var hash := Hash(p, key, from, to, subject, data);
    var m := Message(Some(from), addrs, Some(subject), Some(data), Some(hash));
    var r := Relay.Relayed(m);
    RelayedRecipients(addrs);
    assert Relay.Relayed(Blank.(recipients := addrs)).recipients == r.recipients;
    assert Dmap.ShowRecipients(r) == to;
    AddressPlain(from);
    forall i | 0 <= i < |addrs| ensures '\n' !in addrs[i] {
      AddressPlain(addrs[i]);
    }
    JoinFree(addrs, ",", '\n');
    EncodeFree(p, p.mac(key, p.bytes(MacInput(from, to, subject, data))));
    assert Dmap.ShowFields(r) + ["ok"] == ["from " + from, "to " + to, "subject " + subject, "data " + data, "hash " + hash, "ok"];
    assert from != "";
    VerifyShow(p, key, from, to, subject, data, hash);
  }

  /** msg's envelope, answered by the transfer server's session, is queued
      there as the message that carries msg's hash, and msg reports "ok". */
  lemma MsgQueued(p: Primitives, key: Bytes, from: string, addrs: seq<string>, subject: string, data: string)
    requires IsAddress(from) && |addrs| >= 1 && forall i :: 0 <= i < |addrs| ==> IsAddress(addrs[i])
    requires subject != "" && data != "" && Laws(p)
    ensures var to := Join(addrs, ",");
      var hash := Hash(p, key, from, to, subject, data);
      var t := ClientHandler.Session(ClientConnection.Envelope(from, to, subject, data, hash));
      t.queued == [Message(Some(from), addrs, Some(subject), Some(data), Some(hash))]
      && Msg(p, key, from, to, subject, data, t.replies)
         == Ok(Some(ClientConnection.Exchange(ClientConnection.Envelope(from, to, subject, data, hash), Ok("ok"))))
  {
    var to := Join(addrs, ",");
    var hash := Hash(p, key, from, to, subject, data);
    var env := ClientConnection.Envelope(from, to, subject, data, hash);
    assert |p.mac(key, p.bytes(MacInput(from, to, subject, data)))| == 32;
    assert hash != "";
    ClientConnection.EnvelopeQueued(from, addrs, subject, data, hash);
    var replies := ClientHandler.Session(env).replies;
    assert ClientConnection.ConnectsDmtp(replies[0]);
    assert Msg(p, key, from, to, subject, data, replies)
      == Ok(Some(ClientConnection.SendMessage(from, to, subject, data, hash, replies[1..])));
  }

  /** The list answer is the listing lines, each followed by a line break,
      trimmed, then "ok". */
  lemma {:induction false} ListingJoined(es: seq<Entry>)
    requires |es| >= 1
    ensures Dmap.Listing(es) == Join(ListLines(es), "\n") + "\n"
    decreases |es|
  {
    if |es| > 1 {
      ListingJoined(es[1..]);
      assert ListLines(es)[1..] == ListLines(es[1..]);
    }
  }

  /** The lines `list` prints for a mailbox. */
  function ListLines(es: seq<Entry>): (r: seq<string>)
    ensures |r| == |es| && forall i :: 0 <= i < |es| ==> r[i] == Dmap.ListLine(es[i])
  {
    if |es| == 0 then [] else [Dmap.ListLine(es[0])] + ListLines(es[1..])
  }

  /** The ids of a mailbox's entries, in order, as printed. */
  function IdTexts(es: seq<Entry>): (r: seq<string>)
    ensures |r| == |es| && forall i :: 0 <= i < |es| ==> r[i] == IntToString(es[i].id)
  {
    if |es| == 0 then [] else [IntToString(es[0].id)] + IdTexts(es[1..])
  }

  /** A list line's first word is the entry's id. */
  lemma IdWord(e: Entry)
    ensures BeforeFirst(Dmap.ListLine(e), ' ') == Some(IntToString(e.id))
  {
    var t := IntToString(e.id);
    Dmap.IntToStringFree(e.id);
    assert ' ' !in t by {
      forall k | 0 <= k < |t| ensures t[k] != ' ' {
        assert !IsDelim(Whitespace, t[k]);
      }
    }
    AfterKeyword(t, Text(e.message.sender) + " " + Text(e.message.subject));
    assert Dmap.ListLine(e) == t + " " + (Text(e.message.sender) + " " + Text(e.message.subject));
  }

  /** The ids the inbox reads from the list lines followed by "ok". */
  lemma {:induction false} IdsOfLines(es: seq<Entry>)
    ensures LeadingWords(ListLines(es) + ["ok"]) == IdTexts(es)
    decreases |es|
  {
    var lines := ListLines(es) + ["ok"];
    if |es| == 0 {
      assert lines == ["ok"];
      assert IndexOf("ok", ' ') == None by {
        assert ' ' !in "ok";
      }
      assert LeadingWords(lines[1..]) == [];
    } else {
      IdsOfLines(es[1..]);
      assert lines[1..] == ListLines(es[1..]) + ["ok"];
      IdWord(es[0]);
    }
  }

  /** The list answer of a non-empty mailbox is its list lines and "ok",
      one per line, when trimming leaves the last list line whole. */
  lemma ListReplyJoined(es: seq<Entry>)
    requires |es| >= 1
    requires var last := Dmap.ListLine(es[|es| - 1]); last[|last| - 1] > ' '
    ensures Dmap.ListReply(es) == Join(ListLines(es) + ["ok"], "\n")
  {
    var lines := ListLines(es);
    var j := Join(lines, "\n");
    assert Dmap.Listing(es) == j + "\n" by { ListingJoined(es); }
    assert |lines[0]| >= 1 && lines[0][0] > ' ' by {
      assert lines[0][0] == IntToString(es[0].id)[0];
      IdVisible(es[0].id);
    }
    assert Trim(j + "\n") + "\n" + "ok" == Join(lines + ["ok"], "\n") by {
      assert lines[|lines| - 1] == Dmap.ListLine(es[|es| - 1]);
      ReplyOfLines(lines);
    }
    ListReplyOf(es);
  }

  /** A non-empty listing is answered trimmed, then "ok". */
  lemma ListReplyOf(es: seq<Entry>)
    requires Dmap.Listing(es) != ""
    ensures Dmap.ListReply(es) == Trim(Dmap.Listing(es)) + "\n" + "ok"
  {
  }

  /** Trimming the listing and appending "ok" joins the lines and "ok". */
  lemma ReplyOfLines(lines: seq<string>)
    requires |lines| >= 1 && |lines[0]| >= 1 && lines[0][0] > ' '
    requires var last := lines[|lines| - 1]; |last| >= 1 && last[|last| - 1] > ' '
    ensures Trim(Join(lines, "\n") + "\n") + "\n" + "ok" == Join(lines + ["ok"], "\n")
  {
    var j := Join(lines, "\n");
    assert |j| >= 1 && j[0] == lines[0][0];
    JoinTail(lines, "\n");
    TrimNewline(j);
    JoinSnoc(lines, "ok", "\n");
  }

  /** inbox on the answer to `list`: it shows exactly the mailbox's ids, in
      list order; an empty mailbox shows nothing. The last list line must end
      in a visible character, which trimming would otherwise eat into. */
  lemma InboxShowsIds(es: seq<Entry>)
    requires forall i :: 0 <= i < |es| ==> '\n' !in Dmap.ListLine(es[i])
    requires |es| >= 1 ==> var last := Dmap.ListLine(es[|es| - 1]); last[|last| - 1] > ' '
    ensures Inbox(Some(Dmap.ListReply(es))) == Ok(IdTexts(es))
  {
    IdsOfLines(es);
    if |es| == 0 {
      assert Dmap.ListReply(es) == "ok";
      assert Join(["ok"], [('\n')]) == "ok";
      SplitJoinBy(["ok"], '\n', Exactly('\n'));
    } else {
      var all := ListLines(es) + ["ok"];
      ListReplyJoined(es);
      forall i | 0 <= i < |all| ensures FreeOf(all[i], Exactly('\n')) {
        if i < |es| { assert all[i] == Dmap.ListLine(es[i]); } else { assert all[i] == "ok"; }
      }
      InboxOfJoined(all, Dmap.ListReply(es));
    }
  }

  /** inbox on lines joined by line breaks reads their leading words. */
  lemma InboxOfJoined(all: seq<string>, reply: string)
    requires |all| >= 2 && all[|all| - 1] != ""
    requires forall i :: 0 <= i < |all| ==> FreeOf(all[i], Exactly('\n'))
    requires reply == Join(all, "\n")
    ensures Inbox(Some(reply)) == Ok(LeadingWords(all))
  {
    SplitJoinBy(all, '\n', Exactly('\n'));
  }

  /** A printed int starts with a digit or a minus sign. */
  lemma IdVisible(n: int)
    ensures IntToString(n)[0] > ' '
  {
    if n >= 0 {
      assert AllDigits(NatToString(n));
      assert IsDigit(NatToString(n)[0]);
    }
  }

  /** The last part of a join ends it. */
  lemma {:induction false} JoinTail(parts: seq<string>, sep: string)
    requires |parts| >= 1 && |parts[|parts| - 1]| >= 1
    ensures var j := Join(parts, sep); |j| >= 1 && j[|j| - 1] == parts[|parts| - 1][|parts[|parts| - 1]| - 1]
    decreases |parts|
  {
    if |parts| > 1 {
      JoinTail(parts[1..], sep);
    }
  }

  /** String.trim of a text visible at both ends followed by a line break. */
  lemma TrimNewline(s: string)
    requires |s| >= 1 && s[0] > ' ' && s[|s| - 1] > ' '
    ensures Trim(s + "\n") == s
  {
    assert (s + "\n")[..|s|] == s;
    TrimVisible(s);
  }
}

=== FILE: monitoring.dfy ===
/** The monitoring server's packet handler (dslab.monitoring.MonitoringHandler):
    each UDP packet "<server> <address>" adds one to the count of that
    transfer server and one to the count of that sender address. The counts
    are Java ints: one past the largest wraps to the smallest. */
module Monitoring {
  import opened JString

  const IntMax: int := 0x7FFF_FFFF

  /** `count + 1` on a 32-bit int: the one int congruent to n + 1 modulo 2^32. */
  function Inc(n: int): (r: int)
    requires InInt32(n)
    ensures InInt32(r) && (n + 1 - r) % 0x1_0000_0000 == 0
  {
    if n == IntMax then -0x8000_0000 else n + 1
  }

  predicate Bounded(counts: map<string, int>) {
    forall k :: k in counts ==> InInt32(counts[k])
  }

  /** One count more for `key`, starting at 1 for a key not yet counted. */
  function Bump(counts: map<string, int>, key: string): (r: map<string, int>)
    requires Bounded(counts)
    ensures Bounded(r) && r.Keys == counts.Keys + {key}
    ensures key !in counts ==> r[key] == 1
    ensures key in counts ==> (r[key] - counts[key] - 1) % 0x1_0000_0000 == 0
    ensures forall k :: k in counts && k != key ==> r[k] == counts[k]
  {
    counts[key := if key in counts then Inc(counts[key]) else 1]
  }

  datatype Counters = Counters(servers: map<string, int>, addresses: map<string, int>)

  predicate Valid(c: Counters) {
    Bounded(c.servers) && Bounded(c.addresses)
  }

  /** The loop body for one packet: split on single whitespace characters;
      exactly two parts, each trimmed, are counted; any other packet is
      ignored. */
  function Receive(c: Counters, packet: string): (r: Counters)
    requires Valid(c)
    ensures Valid(r)
    ensures |Split(packet, Whitespace)| != 2 ==> r == c
    ensures |Split(packet, Whitespace)| == 2 ==>
      var server := Trim(Split(packet, Whitespace)[0]);
      var address := Trim(Split(packet, Whitespace)[1]);
      r.servers.Keys == c.servers.Keys + {server} && r.addresses.Keys == c.addresses.Keys + {address}
      && r.servers[server] == (if server in c.servers then Inc(c.servers[server]) else 1)
      && r.addresses[address] == (if address in c.addresses then Inc(c.addresses[address]) else 1)
      && (forall k :: k in c.servers && k != server ==> r.servers[k] == c.servers[k])
      && (forall k :: k in c.addresses && k != address ==> r.addresses[k] == c.addresses[k])
  {
    var parts := Split(packet, Whitespace);
    if |parts| == 2 then
      Counters(Bump(c.servers, Trim(parts[0])), Bump(c.addresses, Trim(parts[1])))
    else c
  }

  /** The handler's loop over the packets received, in order. */
  function Feed(c: Counters, packets: seq<string>): (r: Counters)
    requires Valid(c)
    ensures Valid(r)
    decreases |packets|
  {
    if |packets| == 0 then c else Feed(Receive(c, packets[0]), packets[1..])
  }

  /** A token both ends of the protocol keep whole: non-empty, with no
      whitespace or control characters. */
  predicate Visible(s: string) {
    s != "" && forall i :: 0 <= i < |s| ==> s[i] > ' '
  }

  /** The packet a transfer server sends: its own "<host>:<port>", a space,
      and the sender of the message it forwarded. */
  function Packet(server: string, sender: string): string {
    server + " " + sender
  }

  /** Reference reading: how often `key` occurs in `keys`. */
  function Tally(keys: seq<string>, key: string): (r: nat)
    ensures r <= |keys|
    ensures r > 0 <==> key in keys
  {
    if |keys| == 0 then 0
    else (if keys[0] == key then 1 else 0) + Tally(keys[1..], key)
  }

  /** The servers, and the senders, of a run of reports. */
  function Servers(sent: seq<(string, string)>): (r: seq<string>)
    ensures |r| == |sent| && forall i :: 0 <= i < |sent| ==> r[i] == sent[i].0
  {
    if |sent| == 0 then [] else [sent[0].0] + Servers(sent[1..])
  }

  function Senders(sent: seq<(string, string)>): (r: seq<string>)
    ensures |r| == |sent| && forall i :: 0 <= i < |sent| ==> r[i] == sent[i].1
  {
    if |sent| == 0 then [] else [sent[0].1] + Senders(sent[1..])
  }

  function Packets(sent: seq<(string, string)>): (r: seq<string>)
    ensures |r| == |sent|
  {
    if |sent| == 0 then [] else [Packet(sent[0].0, sent[0].1)] + Packets(sent[1..])
  }

  // ---------------------------------------------------------------- lemmas

  lemma {:induction false} VisibleFree(s: string)
    requires Visible(s)
    ensures FreeOf(s, Whitespace) && Trim(s) == s
  {
    TrimVisible(s);
  }

  /** A transfer server's packet is read back as its two tokens. */
  lemma PacketParts(server: string, sender: string)
    requires Visible(server) && Visible(sender)
    ensures Split(Packet(server, sender), Whitespace) == [server, sender]
    ensures Trim(server) == server && Trim(sender) == sender
  {
    VisibleFree(server);
    VisibleFree(sender);
    assert Join([server, sender], [' ']) == Packet(server, sender) by {
      assert [server, sender][1..] == [sender];
    }
    SplitJoinBy([server, sender], ' ', Whitespace);
  }

  /** A packet counts its server and its sender once each. */
  lemma PacketCounted(c: Counters, server: string, sender: string)
    requires Valid(c) && Visible(server) && Visible(sender)
    ensures var r := Receive(c, Packet(server, sender));
      r.servers == Bump(c.servers, server) && r.addresses == Bump(c.addresses, sender)
  {
    PacketParts(server, sender);
  }

  /** The count one key has before a packet, 0 when it is absent. */
  function Before(counts: map<string, int>, key: string): int {
    if key in counts then counts[key] else 0
  }

  /** One map's count of `key` after a run of reports with headroom left:
      the count before plus the number of reports naming `key`. */
  predicate CountedOn(before: map<string, int>, after: map<string, int>, keys: seq<string>, key: string) {
    (key in after <==> Before(before, key) + Tally(keys, key) > 0)
    && (key in after ==> after[key] == Before(before, key) + Tally(keys, key))
  }

  predicate Headroom(counts: map<string, int>, key: string, n: nat) {
    Before(counts, key) + n <= IntMax && (key in counts ==> counts[key] >= 1)
  }

  /** One report keeps the headroom for the reports after it. */
  lemma BumpHeadroom(m: map<string, int>, k0: string, key: string, n: nat)
    requires Bounded(m) && Headroom(m, key, n + 1)
    ensures Headroom(Bump(m, k0), key, n)
  {
  }

  /** Counting the first report, then the rest, is counting them all. */
  lemma StepCounted(m: map<string, int>, keys: seq<string>, after: map<string, int>, key: string)
    requires Bounded(m) && keys != [] && Headroom(m, key, |keys|)
    requires CountedOn(Bump(m, keys[0]), after, keys[1..], key)
    ensures CountedOn(m, after, keys, key)
  {
    assert Tally(keys, key) == (if keys[0] == key then 1 else 0) + Tally(keys[1..], key);
  }

  /** A run of transfer-server packets counts each server and each sender
      exactly as often as it was reported, as long as no count passes the
      largest int. */
  lemma CountsTally(c: Counters, sent: seq<(string, string)>, server: string, sender: string)
    requires Valid(c)
    requires forall i :: 0 <= i < |sent| ==> Visible(sent[i].0) && Visible(sent[i].1)
    requires Headroom(c.servers, server, |sent|) && Headroom(c.addresses, sender, |sent|)
    ensures var r := Feed(c, Packets(sent));
      CountedOn(c.servers, r.servers, Servers(sent), server)
      && CountedOn(c.addresses, r.addresses, Senders(sent), sender)
  {
    ServersOn(c, sent, server, Feed(c, Packets(sent)));
    SendersOn(c, sent, sender, Feed(c, Packets(sent)));
  }

  /** The first packet, then the rest. */
  lemma FeedStep(c: Counters, sent: seq<(string, string)>)
    requires Valid(c) && |sent| > 0
    ensures Feed(c, Packets(sent)) == Feed(Receive(c, Packet(sent[0].0, sent[0].1)), Packets(sent[1..]))
    ensures Servers(sent)[1..] == Servers(sent[1..]) && Senders(sent)[1..] == Senders(sent[1..])
  {
  }

  lemma {:induction false} ServersOn(c: Counters, sent: seq<(string, string)>, server: string, r: Counters)
    requires Valid(c)
    requires forall i :: 0 <= i < |sent| ==> Visible(sent[i].0) && Visible(sent[i].1)
    requires Headroom(c.servers, server, |sent|)
    requires r == Feed(c, Packets(sent))
    ensures CountedOn(c.servers, r.servers, Servers(sent), server)
    decreases |sent|
  {
    if |sent| > 0 {
      FeedStep(c, sent);
      PacketCounted(c, sent[0].0, sent[0].1);
      assert forall i :: 0 <= i < |sent[1..]| ==> sent[1..][i] == sent[i + 1];
      BumpHeadroom(c.servers, sent[0].0, server, |sent| - 1);
      ServersOn(Receive(c, Packet(sent[0].0, sent[0].1)), sent[1..], server, r);
      StepCounted(c.servers, Servers(sent), r.servers, server);
    }
  }

  lemma {:induction false} SendersOn(c: Counters, sent: seq<(string, string)>, sender: string, r: Counters)
    requires Valid(c)
    requires forall i :: 0 <= i < |sent| ==> Visible(sent[i].0) && Visible(sent[i].1)
    requires Headroom(c.addresses, sender, |sent|)
    requires r == Feed(c, Packets(sent))
    ensures CountedOn(c.addresses, r.addresses, Senders(sent), sender)
    decreases |sent|
  {
    if |sent| > 0 {
      FeedStep(c, sent);
      PacketCounted(c, sent[0].0, sent[0].1);
      assert forall i :: 0 <= i < |sent[1..]| ==> sent[1..][i] == sent[i + 1];
      BumpHeadroom(c.addresses, sent[0].1, sender, |sent| - 1);
      SendersOn(Receive(c, Packet(sent[0].0, sent[0].1)), sent[1..], sender, r);
      StepCounted(c.addresses, Senders(sent), r.addresses, sender);
    }
  }

  /** The monitoring server starts with empty maps, so every server's and
      every sender's count is the number of packets that reported it, and
      exactly those reported appear. */
  lemma CountIsTally(sent: seq<(string, string)>, server: string, sender: string)
    requires forall i :: 0 <= i < |sent| ==> Visible(sent[i].0) && Visible(sent[i].1)
    requires |sent| <= IntMax
    ensures var r := Feed(Counters(map[], map[]), Packets(sent));
      (server in r.servers <==> server in Servers(sent))
      && (server in r.servers ==> r.servers[server] == Tally(Servers(sent), server))
      && (sender in r.addresses <==> sender in Senders(sent))
      && (sender in r.addresses ==> r.addresses[sender] == Tally(Senders(sent), sender))
  {
    CountsTally(Counters(map[], map[]), sent, server, sender);
  }
}

=== FILE: nameserver.dfy ===
/** The directory of zones (dslab.nameserver.Nameserver): every nameserver
    knows its child zones by label and the mailbox servers of its own zone by
    label. Registration peels the rightmost label off a domain and forwards
    the rest to the child responsible for that label, until one label is left.

    The network of nameservers is a finite map from node ids to nodes; a
    remote reference is a node id, and a call on an id the map does not hold
    fails the way an unreachable remote object does (RemoteException). */
module Nameservers {
  import opened Wrappers
  import opened JString

  type NodeId = nat

  /** `childReferences` and `mailboxReferences`. */
  datatype Node = Node(children: map<string, NodeId>, mailboxes: map<string, string>)

  type Net = map<NodeId, Node>

  /** The exceptions registration can end in. `Malformed` is the
      ArrayIndexOutOfBoundsException of a domain that splits into no labels
      at all (one made only of dots). */
  datatype NsError = AlreadyRegistered | InvalidDomain | Remote | Malformed

  /** `domain.split("\\.")`. */
  function Labels(domain: string): seq<string> {
    Split(domain, Exactly('.'))
  }

  /** The domain with its last label removed, joined again with dots. */
  function Parent(labels: seq<string>): string
    requires |labels| >= 1
  {
    Join(labels[..|labels| - 1], ".")
  }

  /** Nameserver.getNameserver: the child registered for the zone label. */
  function GetNameserver(net: Net, at: NodeId, zone: string): (r: Result<Option<NodeId>, NsError>)
    ensures r.Failure? <==> at !in net
    ensures r.Success? ==> (r.value.Some? <==> zone in net[at].children)
    ensures r.Success? && r.value.Some? ==> r.value.value == net[at].children[zone]
  {
    if at !in net then Failure(Remote)
    else if zone in net[at].children then Success(Some(net[at].children[zone]))
    else Success(None)
  }

  /** Nameserver.lookup: the address registered for the mailbox label. */
  function Lookup(net: Net, at: NodeId, name: string): (r: Result<Option<string>, NsError>)
    ensures r.Failure? <==> at !in net
    ensures r.Success? ==> (r.value.Some? <==> name in net[at].mailboxes)
    ensures r.Success? && r.value.Some? ==> r.value.value == net[at].mailboxes[name]
  {
    if at !in net then Failure(Remote)
    else if name in net[at].mailboxes then Success(Some(net[at].mailboxes[name]))
    else Success(None)
  }

  /** Nameserver.registerNameserver, as intended: the zone's reference `ref`
      is handed down unchanged to the node that stores it. */
  function RegisterNameserver(net: Net, at: NodeId, domain: string, ref: NodeId): (r: Result<Net, NsError>)
    ensures r.Success? ==> net.Keys == r.value.Keys
    decreases |domain|
  {
    if at !in net then Failure(Remote)
    else
      var labels := Labels(domain);
      if |labels| == 0 then Failure(Malformed)
      else
        var top := labels[|labels| - 1];
        var node := net[at];
        if |labels| >= 2 && top in node.children then
          DroppingLastPieceShortens(domain, '.');
          RegisterNameserver(net, node.children[top], Parent(labels), ref)
        else if |labels| == 1 && domain !in node.children then
          Success(net[at := node.(children := node.children[domain := ref])])
        else if |labels| == 1 then Failure(AlreadyRegistered)
        else Failure(InvalidDomain)
  }

  /** Nameserver.registerNameserver AS WRITTEN (Nameserver.java:165): the
      forwarded call passes the child's own reference instead of `ref`. */
  function RegisterNameserverAsWritten(net: Net, at: NodeId, domain: string, ref: NodeId): (r: Result<Net, NsError>)
    ensures r.Success? ==> net.Keys == r.value.Keys
    decreases |domain|
  {
    if at !in net then Failure(Remote)
    else
      var labels := Labels(domain);
      if |labels| == 0 then Failure(Malformed)
      else
        var top := labels[|labels| - 1];
        var node := net[at];
        if |labels| >= 2 && top in node.children then
          DroppingLastPieceShortens(domain, '.');
          RegisterNameserverAsWritten(net, node.children[top], Parent(labels), node.children[top])
        else if |labels| == 1 && domain !in node.children then
          Success(net[at := node.(children := node.children[domain := ref])])
        else if |labels| == 1 then Failure(AlreadyRegistered)
        else Failure(InvalidDomain)
  }

  /** Nameserver.registerMailboxServer. The duplicate check consults only the
      mailbox map, so a name may name both a child zone and a mailbox. */
  function RegisterMailboxServer(net: Net, at: NodeId, domain: string, address: string): (r: Result<Net, NsError>)
    ensures r.Success? ==> net.Keys == r.value.Keys
    decreases |domain|
  {
    if at !in net then Failure(Remote)
    else
      var labels := Labels(domain);
      if |labels| == 0 then Failure(Malformed)
      else
        var top := labels[|labels| - 1];
        var node := net[at];
        if |labels| >= 2 && top in node.children then
          DroppingLastPieceShortens(domain, '.');
          RegisterMailboxServer(net, node.children[top], Parent(labels), address)
        else if |labels| == 1 && domain !in node.mailboxes then
          Success(net[at := node.(mailboxes := node.mailboxes[domain := address])])
        else if |labels| == 1 then Failure(AlreadyRegistered)
        else Failure(InvalidDomain)
  }

  /** Following `labels` from the rightmost down through child zones. */
  function Descend(net: Net, at: NodeId, labels: seq<string>): Option<NodeId>
    decreases |labels|
  {
    if |labels| == 0 then (if at in net then Some(at) else None)
    else match GetNameserver(net, at, labels[|labels| - 1])
      case Success(Some(child)) => Descend(net, child, labels[..|labels| - 1])
      case _ => None
  }

  // ---------------------------------------------------------------- lemmas

  /** A name of a well-formed domain: non-empty and free of dots. */
  predicate IsLabel(l: string) {
    l != "" && '.' !in l
  }

  predicate AllLabels(labels: seq<string>) {
    forall i :: 0 <= i < |labels| ==> IsLabel(labels[i])
  }

  lemma LabelsOfJoin(labels: seq<string>)
    requires |labels| >= 1 && AllLabels(labels)
    ensures Labels(Join(labels, ".")) == labels
  {
    SplitJoin(labels, '.');
  }

  /** A single new name is stored as a child of the node it is registered
      at, and getNameserver then returns it; a name already there is
      refused and nothing changes. */
  lemma RegisterChild(net: Net, at: NodeId, name: string, ref: NodeId)
    requires at in net && IsLabel(name)
    ensures var r := RegisterNameserver(net, at, name, ref);
      (name !in net[at].children ==>
         (r.Success? && GetNameserver(r.value, at, name) == Success(Some(ref))
          && r.value[at].mailboxes == net[at].mailboxes
          && forall n :: n in net && n != at ==> r.value[n] == net[n]))
      && (name in net[at].children ==> r == Failure(AlreadyRegistered))
  {
    LabelsOfJoin([name]);
  }

  /** A domain of two or more labels whose last name is not a child zone is
      refused as invalid. */
  lemma RegisterUnknownZone(net: Net, at: NodeId, labels: seq<string>, ref: NodeId, address: string)
    requires at in net && |labels| >= 2 && AllLabels(labels)
    requires labels[|labels| - 1] !in net[at].children
    ensures RegisterNameserver(net, at, Join(labels, "."), ref) == Failure(InvalidDomain)
    ensures RegisterMailboxServer(net, at, Join(labels, "."), address) == Failure(InvalidDomain)
  {
    LabelsOfJoin(labels);
  }

  /** `after` keeps every child zone and mailbox entry of `before`. */
  predicate Keeps(before: Net, after: Net) {
    before.Keys == after.Keys
    && (forall n, k :: n in before && k in before[n].children ==>
          k in after[n].children && after[n].children[k] == before[n].children[k])
    && forall n :: n in before ==> after[n].mailboxes == before[n].mailboxes
  }

  /** Registration of a zone only ever adds a child entry. */
  lemma RegisterNameserverKeeps(net: Net, at: NodeId, domain: string, ref: NodeId)
    requires RegisterNameserver(net, at, domain, ref).Success?
    ensures Keeps(net, RegisterNameserver(net, at, domain, ref).value)
  {
    NameserverKeepsOn(net, at, domain, ref, RegisterNameserver(net, at, domain, ref).value);
  }

  lemma {:induction false} NameserverKeepsOn(net: Net, at: NodeId, domain: string, ref: NodeId, after: Net)
    requires RegisterNameserver(net, at, domain, ref) == Success(after)
    ensures Keeps(net, after)
    decreases |domain|
  {
    var labels := Labels(domain);
    if |labels| >= 2 && labels[|labels| - 1] in net[at].children {
      NameserverForward(net, at, domain, ref);
      DroppingLastPieceShortens(domain, '.');
      NameserverKeepsOn(net, net[at].children[labels[|labels| - 1]], Parent(labels), ref, after);
    } else {
      NameserverHere(net, at, domain, ref);
    }
  }

  /** A registration that succeeds without forwarding adds one child entry
      at the node itself. */
  lemma NameserverHere(net: Net, at: NodeId, domain: string, ref: NodeId)
    requires RegisterNameserver(net, at, domain, ref).Success?
    requires var l := Labels(domain); !(|l| >= 2 && l[|l| - 1] in net[at].children)
    ensures at in net && domain !in net[at].children
    ensures RegisterNameserver(net, at, domain, ref).value
      == net[at := net[at].(children := net[at].children[domain := ref])]
  {
  }

  /** A registration of two or more labels that succeeds was forwarded. */
  lemma NameserverForwards(net: Net, at: NodeId, domain: string, ref: NodeId)
    requires RegisterNameserver(net, at, domain, ref).Success?
    requires |Labels(domain)| >= 2
    ensures at in net && Labels(domain)[|Labels(domain)| - 1] in net[at].children
  {
  }

  /** The walk takes the child for the last label. */
  lemma DescendChild(net: Net, at: NodeId, labels: seq<string>, child: NodeId)
    requires |labels| >= 1 && at in net
    requires labels[|labels| - 1] in net[at].children && net[at].children[labels[|labels| - 1]] == child
    ensures Descend(net, at, labels) == Descend(net, child, labels[..|labels| - 1])
  {
  }

  /** Following existing entries gives the same node in a network that keeps
      them. */
  lemma {:induction false} DescendKept(before: Net, after: Net, at: NodeId, labels: seq<string>)
    requires Keeps(before, after) && Descend(before, at, labels).Some?
    ensures Descend(after, at, labels) == Descend(before, at, labels)
    decreases |labels|
  {
    if |labels| > 0 {
      var child := before[at].children[labels[|labels| - 1]];
      DescendKept(before, after, child, labels[..|labels| - 1]);
    }
  }

  /** One step of registration: a domain of two or more labels whose last
      label is a child zone is handed to that child with the label removed. */
  lemma NameserverForward(net: Net, at: NodeId, domain: string, ref: NodeId)
    requires at in net
    requires var l := Labels(domain); |l| >= 2 && l[|l| - 1] in net[at].children
    ensures var l := Labels(domain);
      RegisterNameserver(net, at, domain, ref) == RegisterNameserver(net, net[at].children[l[|l| - 1]], Parent(l), ref)
  {
  }

  /** The corrected registration stores `ref` where the walk for the same
      labels arrives. */
  lemma RegisterNameserverReachable(net: Net, at: NodeId, labels: seq<string>, ref: NodeId)
    requires |labels| >= 1 && AllLabels(labels) && ref in net
    requires RegisterNameserver(net, at, Join(labels, "."), ref).Success?
    ensures Descend(RegisterNameserver(net, at, Join(labels, "."), ref).value, at, labels) == Some(ref)
  {
    LabelsOfJoin(labels);
    ReachableOn(net, at, labels, Join(labels, "."), ref);
  }

  /** The domain is the labels joined with dots; `domain` stays abstract so
      the induction unfolds registration one level at a time. */
  predicate Spells(domain: string, labels: seq<string>) {
    |labels| >= 1 && AllLabels(labels) && Labels(domain) == labels && (|labels| == 1 ==> domain == labels[0])
  }

  lemma ParentSpells(labels: seq<string>)
    requires |labels| >= 2 && AllLabels(labels)
    ensures Spells(Parent(labels), labels[..|labels| - 1])
  {
    var rest := labels[..|labels| - 1];
    LabelsOfJoin(rest);
    if |rest| == 1 {
      assert Join(rest, ".") == rest[0];
    }
  }

  lemma {:induction false} ReachableOn(net: Net, at: NodeId, labels: seq<string>, domain: string, ref: NodeId)
    requires Spells(domain, labels) && ref in net
    requires RegisterNameserver(net, at, domain, ref).Success?
    ensures Descend(RegisterNameserver(net, at, domain, ref).value, at, labels) == Some(ref)
    decreases |labels|
  {
    if |labels| == 1 {
      ReachableHere(net, at, labels, domain, ref);
    } else {
      NameserverForwards(net, at, domain, ref);
      var child := net[at].children[labels[|labels| - 1]];
      ParentSpells(labels);
      NameserverForward(net, at, domain, ref);
      ReachableOn(net, child, labels[..|labels| - 1], Parent(labels), ref);
      RegisterNameserverKeeps(net, at, domain, ref);
      DescendChild(RegisterNameserver(net, at, domain, ref).value, at, labels, child);
    }
  }

  /** A one-label zone is stored at the node itself. */
  lemma ReachableHere(net: Net, at: NodeId, labels: seq<string>, domain: string, ref: NodeId)
    requires Spells(domain, labels) && |labels| == 1 && ref in net
    requires RegisterNameserver(net, at, domain, ref).Success?
    ensures Descend(RegisterNameserver(net, at, domain, ref).value, at, labels) == Some(ref)
  {
    NameserverHere(net, at, domain, ref);
    var net' := RegisterNameserver(net, at, domain, ref).value;
    DescendChild(net', at, labels, ref);
  }

  /** A network with one zone "planet", served by node 1, and a fresh
      nameserver, node 2. */
  const Planet: Net := map[0 := Node(map["planet" := 1], map[]), 1 := Node(map[], map[]), 2 := Node(map[], map[])]

  lemma PlanetLabels()
    ensures AllLabels(["earth", "planet"]) && Join(["earth", "planet"], ".") == "earth.planet"
    ensures Labels("earth.planet") == ["earth", "planet"] && Parent(["earth", "planet"]) == "earth"
    ensures Labels("earth") == ["earth"]
  {
    TwoLabels("earth", "planet");
    assert "earth" + "." + "planet" == "earth.planet";
    OneLabel("earth");
  }

  /** A two-label domain splits back into its labels. */
  lemma TwoLabels(a: string, b: string)
    requires IsLabel(a) && IsLabel(b)
    ensures AllLabels([a, b]) && Join([a, b], ".") == a + "." + b
    ensures Labels(a + "." + b) == [a, b] && Parent([a, b]) == a
  {
    assert [a, b][1..] == [b];
    assert [a, b][..1] == [a];
    LabelsOfJoin([a, b]);
  }

  lemma OneLabel(a: string)
    requires IsLabel(a)
    ensures Labels(a) == [a]
  {
    LabelsOfJoin([a]);
  }

  /** As written, a domain of two or more labels is forwarded together with
      the child's own reference in place of the registered one. */
  lemma AsWrittenForwards(net: Net, at: NodeId, domain: string, ref: NodeId)
    requires at in net
    requires var l := Labels(domain); |l| >= 2 && l[|l| - 1] in net[at].children
    ensures var l := Labels(domain);
      var child := net[at].children[l[|l| - 1]];
      RegisterNameserverAsWritten(net, at, domain, ref) == RegisterNameserverAsWritten(net, child, Parent(l), child)
  {
  }

  /** A single new name is stored as given, in both versions. */
  lemma AsWrittenHere(net: Net, at: NodeId, domain: string, ref: NodeId)
    requires at in net && Labels(domain) == [domain] && domain !in net[at].children
    ensures RegisterNameserverAsWritten(net, at, domain, ref)
      == Success(net[at := net[at].(children := net[at].children[domain := ref])])
  {
  }

  /** The walk for two labels goes through the child for the second. */
  lemma WalkTwo(net: Net, at: NodeId, a: string, b: string, mid: NodeId, end: NodeId)
    requires at in net && b in net[at].children && net[at].children[b] == mid
    requires mid in net && a in net[mid].children && net[mid].children[a] == end && end in net
    ensures Descend(net, at, [a, b]) == Some(end)
  {
    DescendChild(net, at, [a, b], mid);
    assert [a, b][..1] == [a];
    DescendChild(net, mid, [a], end);
    assert [a][..0] == [];
  }

  /** Registering node 2 for "earth.planet" through the root, as written,
      stores node 1 as its own child "earth", so the walk for earth.planet
      arrives at node 1 instead of the registered node 2. */
  lemma ForwardedReferenceLost()
    ensures var written := RegisterNameserverAsWritten(Planet, 0, "earth.planet", 2);
      written.Success? && Descend(written.value, 0, ["earth", "planet"]) == Some(1)
  {
    PlanetLabels();
    AsWrittenForwards(Planet, 0, "earth.planet", 2);
    var net' := Planet[1 := Node(map["earth" := 1], map[])];
    AsWrittenHere(Planet, 1, "earth", 1);
    assert RegisterNameserverAsWritten(Planet, 0, "earth.planet", 2) == Success(net');
    WalkTwo(net', 0, "earth", "planet", 1, 1);
  }

  /** The corrected registration of the same zone arrives at node 2. */
  lemma ForwardedReferenceKept()
    ensures var fixed := RegisterNameserver(Planet, 0, "earth.planet", 2);
      fixed.Success? && Descend(fixed.value, 0, ["earth", "planet"]) == Some(2)
  {
    PlanetLabels();
    NameserverForward(Planet, 0, "earth.planet", 2);
    RegisterChild(Planet, 1, "earth", 2);
    RegisterNameserverReachable(Planet, 0, ["earth", "planet"], 2);
  }

  /** `after` has the same zones as `before` and keeps every mailbox entry. */
  predicate KeepsZones(before: Net, after: Net) {
    before.Keys == after.Keys
    && (forall n :: n in before ==> after[n].children == before[n].children)
    && (forall n, k :: n in before && k in before[n].mailboxes ==>
          k in after[n].mailboxes && after[n].mailboxes[k] == before[n].mailboxes[k])
  }

  /** Registering a mailbox server never touches a child zone and only ever
      adds a mailbox entry. */
  lemma RegisterMailboxKeeps(net: Net, at: NodeId, domain: string, address: string)
    requires RegisterMailboxServer(net, at, domain, address).Success?
    ensures KeepsZones(net, RegisterMailboxServer(net, at, domain, address).value)
  {
    MailboxKeepsOn(net, at, domain, address, RegisterMailboxServer(net, at, domain, address).value);
  }

  lemma {:induction false} MailboxKeepsOn(net: Net, at: NodeId, domain: string, address: string, after: Net)
    requires RegisterMailboxServer(net, at, domain, address) == Success(after)
    ensures KeepsZones(net, after)
    decreases |domain|
  {
    var labels := Labels(domain);
    if |labels| >= 2 && labels[|labels| - 1] in net[at].children {
      MailboxForward(net, at, domain, address);
      DroppingLastPieceShortens(domain, '.');
      MailboxKeepsOn(net, net[at].children[labels[|labels| - 1]], Parent(labels), address, after);
    } else {
      HereKeeps(net, at, domain, address);
    }
  }

  lemma HereKeeps(net: Net, at: NodeId, domain: string, address: string)
    requires RegisterMailboxServer(net, at, domain, address).Success?
    requires var l := Labels(domain); !(|l| >= 2 && l[|l| - 1] in net[at].children)
    ensures KeepsZones(net, RegisterMailboxServer(net, at, domain, address).value)
  {
    MailboxHere(net, at, domain, address);
  }

  /** One step of mailbox registration: forwarded to the child zone of the
      last label. */
  lemma MailboxForward(net: Net, at: NodeId, domain: string, address: string)
    requires at in net
    requires var l := Labels(domain); |l| >= 2 && l[|l| - 1] in net[at].children
    ensures var l := Labels(domain);
      RegisterMailboxServer(net, at, domain, address)
      == RegisterMailboxServer(net, net[at].children[l[|l| - 1]], Parent(l), address)
  {
  }

  /** A registration that succeeds without forwarding adds one mailbox entry
      at the node itself. */
  lemma MailboxHere(net: Net, at: NodeId, domain: string, address: string)
    requires RegisterMailboxServer(net, at, domain, address).Success?
    requires var l := Labels(domain); !(|l| >= 2 && l[|l| - 1] in net[at].children)
    ensures at in net && domain !in net[at].mailboxes
    ensures RegisterMailboxServer(net, at, domain, address).value
      == net[at := net[at].(mailboxes := net[at].mailboxes[domain := address])]
  {
  }

  /** A single new mailbox label is stored at the node it is registered at
      and lookup then returns its address; one already there is refused. */
  lemma RegisterMailboxHere(net: Net, at: NodeId, name: string, address: string)
    requires at in net && IsLabel(name)
    ensures var r := RegisterMailboxServer(net, at, name, address);
      (name !in net[at].mailboxes ==>
         (r.Success? && Lookup(r.value, at, name) == Success(Some(address))))
      && (name in net[at].mailboxes ==> r == Failure(AlreadyRegistered))
  {
    LabelsOfJoin([name]);
  }

  /** The round trip a mail transfer relies on: after a mailbox server is
      registered for a domain, walking the zones of the domain from the same
      node and looking up its first label yields the registered address. */
  lemma RegisterMailboxResolves(net: Net, at: NodeId, labels: seq<string>, address: string)
    requires |labels| >= 1 && AllLabels(labels)
    requires RegisterMailboxServer(net, at, Join(labels, "."), address).Success?
    ensures var net' := RegisterMailboxServer(net, at, Join(labels, "."), address).value;
      var zone := Descend(net', at, labels[1..]);
      zone.Some? && Lookup(net', zone.value, labels[0]) == Success(Some(address))
  {
    LabelsOfJoin(labels);
    ResolvesOn(net, at, labels, Join(labels, "."), address);
  }

  lemma {:induction false} ResolvesOn(net: Net, at: NodeId, labels: seq<string>, domain: string, address: string)
    requires Spells(domain, labels)
    requires RegisterMailboxServer(net, at, domain, address).Success?
    ensures var net' := RegisterMailboxServer(net, at, domain, address).value;
      var zone := Descend(net', at, labels[1..]);
      zone.Some? && Lookup(net', zone.value, labels[0]) == Success(Some(address))
    decreases |labels|
  {
    if |labels| == 1 {
      ResolvesHere(net, at, labels, domain, address);
    } else {
      MailboxForwards(net, at, domain, address);
      var child := net[at].children[labels[|labels| - 1]];
      ParentSpells(labels);
      MailboxForward(net, at, domain, address);
      ResolvesOn(net, child, labels[..|labels| - 1], Parent(labels), address);
      RegisterMailboxKeeps(net, at, domain, address);
      DescendThrough(RegisterMailboxServer(net, at, domain, address).value, at, labels, child);
    }
  }

  /** A one-label domain is stored at the node itself. */
  lemma ResolvesHere(net: Net, at: NodeId, labels: seq<string>, domain: string, address: string)
    requires Spells(domain, labels) && |labels| == 1
    requires RegisterMailboxServer(net, at, domain, address).Success?
    ensures var net' := RegisterMailboxServer(net, at, domain, address).value;
      var zone := Descend(net', at, labels[1..]);
      zone.Some? && Lookup(net', zone.value, labels[0]) == Success(Some(address))
  {
    MailboxHere(net, at, domain, address);
    assert labels[1..] == [];
  }

  /** A registration of two or more labels that succeeds was forwarded. */
  lemma MailboxForwards(net: Net, at: NodeId, domain: string, address: string)
    requires RegisterMailboxServer(net, at, domain, address).Success?
    requires |Labels(domain)| >= 2
    ensures at in net && Labels(domain)[|Labels(domain)| - 1] in net[at].children
  {
  }

  /** Walking all but the first label from a node whose child for the last
      label is `child` is walking the rest from `child`. */
  lemma DescendThrough(net: Net, at: NodeId, labels: seq<string>, child: NodeId)
    requires |labels| >= 2 && at in net
    requires labels[|labels| - 1] in net[at].children && net[at].children[labels[|labels| - 1]] == child
    ensures Descend(net, at, labels[1..]) == Descend(net, child, labels[..|labels| - 1][1..])
  {
    var tail := labels[1..];
    assert tail[|tail| - 1] == labels[|labels| - 1];
    assert tail[..|tail| - 1] == labels[..|labels| - 1][1..];
  }
}

=== FILE: patterns.dfy ===
/** The three fixed regular expressions of the protocol engines, written out as
    scanners.

    - `^\w+@\w+\.\w+$` (DMTP.java:55) accepts a sender address; without
      MULTILINE its `$` also matches just before one final line terminator.
    - `\w+@\w+\.\w+` found repeatedly (DMTP.java:77-80) collects recipients.
    - `\w+@` followed by the mailbox's domain, found repeatedly (DMTP.java:159,
      MailboxHandler.java:74), picks out local recipients.

    The greedy `\w+` runs cannot backtrack usefully: each is followed by '@' or
    '.', neither of which is a word character, so every match attempt is
    deterministic. None of the patterns looks behind, so "search again from
    position i" is the same as searching the suffix that starts at i, which is
    how the find loops are written here. */
module Patterns {
  import opened Wrappers
  import opened JString

  /** End of the maximal run of word characters that starts at `i`. */
  function WordEnd(s: string, i: nat): (j: nat)
    requires i <= |s|
    ensures i <= j <= |s|
    ensures forall k :: i <= k < j ==> IsWordChar(s[k])
    ensures j == |s| || !IsWordChar(s[j])
    decreases |s| - i
  {
    if i < |s| && IsWordChar(s[i]) then WordEnd(s, i + 1) else i
  }

  /** The end of the match of `\w+@\w+\.\w+` that starts at position 0, if any. */
  function AddressMatch(s: string): (r: Option<nat>)
    ensures r.Some? ==> 0 < r.value <= |s|
  {
    var a := WordEnd(s, 0);
    if a == 0 || a == |s| || s[a] != '@' then None
    else
      var b := WordEnd(s, a + 1);
      if b == a + 1 || b == |s| || s[b] != '.' then None
      else
        var c := WordEnd(s, b + 1);
        if c == b + 1 then None else Some(c)
  }

  /** The whole string matches `^\w+@\w+\.\w+$`. */
  predicate IsAddress(s: string) {
    AddressMatch(s) == Some(|s|)
  }

  /** Reference reading of the same pattern: three words around '@' and '.'. */
  ghost predicate AddressShape(s: string) {
    exists a: string, b: string, c: string ::
      IsWord(a) && IsWord(b) && IsWord(c) && s == a + "@" + b + "." + c
  }

  /** What `$` lets follow the match when MULTILINE is off: nothing, or one
      final line terminator, "\r\n" counting as one. */
  predicate FinalTerminator(t: string) {
    t == "" || t == "\r\n" || (|t| == 1 && IsLineTerminator(t[0]))
  }

  /** Matcher.find() of `^\w+@\w+\.\w+$` and then group(): the address the
      string starts with, when at most a final line terminator follows it. */
  function SenderMatch(s: string): (r: Option<string>)
    ensures r.Some? ==>
      IsAddress(r.value) && |r.value| <= |s| && s[..|r.value|] == r.value
      && FinalTerminator(s[|r.value|..])
  {
    match AddressMatch(s)
    case None => None
    case Some(c) =>
      if FinalTerminator(s[c..]) then
        MatchedPrefixIsAddress(s, c);
        Some(s[..c])
      else None
  }

  /** Matcher.find() in a loop: every match of `\w+@\w+\.\w+`, left to right. */
  function FindAddresses(s: string): seq<string>
    decreases |s|
  {
    if |s| == 0 then []
    else match AddressMatch(s)
      case Some(e) => [s[..e]] + FindAddresses(s[e..])
      case None => FindAddresses(s[1..])
  }

  /** A regex `.` matches any character but a line terminator; every other
      character of the spliced domain is matched literally. */
  predicate CharMatches(p: char, x: char) {
    if p == '.' then !IsLineTerminator(x) else x == p
  }

  predicate DomainMatches(t: string, domain: string) {
    |t| == |domain| && forall k :: 0 <= k < |domain| ==> CharMatches(domain[k], t[k])
  }

  /** The end of the match of `\w+@<domain>` that starts at position 0, if any. */
  function LocalMatch(s: string, domain: string): (r: Option<nat>)
    ensures r.Some? ==> 0 < WordEnd(s, 0) < r.value <= |s|
  {
    var a := WordEnd(s, 0);
    if a == 0 || a == |s| || s[a] != '@' then None
    else if |s| - (a + 1) >= |domain| && DomainMatches(s[a + 1..a + 1 + |domain|], domain)
    then Some(a + 1 + |domain|)
    else None
  }

  /** The local part (the text before '@') of every match of `\w+@<domain>`,
      left to right. Both callers split each match on '@' (or on '@' followed
      by the domain) and keep piece 0, which is exactly the leading word. */
  function FindLocals(s: string, domain: string): (r: seq<string>)
    ensures forall i :: 0 <= i < |r| ==> IsWord(r[i])
    decreases |s|
  {
    if |s| == 0 then []
    else match LocalMatch(s, domain)
      case Some(e) => [s[..WordEnd(s, 0)]] + FindLocals(s[e..], domain)
      case None => FindLocals(s[1..], domain)
  }

  // ---------------------------------------------------------------- lemmas

  lemma {:induction false} WordEndIs(s: string, i: nat, j: nat)
    requires i <= j <= |s|
    requires forall k :: i <= k < j ==> IsWordChar(s[k])
    requires j == |s| || !IsWordChar(s[j])
    ensures WordEnd(s, i) == j
    decreases j - i
  {
    if i < j {
      WordEndIs(s, i + 1, j);
    }
  }

  /** The scanner and the reference reading agree: a string is accepted as a
      sender exactly when it is word '@' word '.' word. */
  lemma AddressIffShape(s: string)
    ensures IsAddress(s) <==> AddressShape(s)
  {
    if IsAddress(s) {
      var a := WordEnd(s, 0);
      var b := WordEnd(s, a + 1);
      var c := WordEnd(s, b + 1);
      assert s == s[..a] + "@" + s[a + 1..b] + "." + s[b + 1..];
      assert IsWord(s[..a]) && IsWord(s[a + 1..b]) && IsWord(s[b + 1..]);
    }
    if AddressShape(s) {
      var a: string, b: string, c: string :|
        IsWord(a) && IsWord(b) && IsWord(c) && s == a + "@" + b + "." + c;
      ShapeIsAddress(a, b, c, "");
    }
  }

  /** The text `AddressMatch` accepts is itself an address. */
  lemma MatchedPrefixIsAddress(s: string, c: nat)
    requires AddressMatch(s) == Some(c)
    ensures IsAddress(s[..c])
  {
    var a := WordEnd(s, 0);
    var b := WordEnd(s, a + 1);
    assert s[..c] == s[..a] + "@" + s[a + 1..b] + "." + s[b + 1..c];
    assert IsWord(s[..a]) && IsWord(s[a + 1..b]) && IsWord(s[b + 1..c]);
    ShapeIsAddress(s[..a], s[a + 1..b], s[b + 1..c], "");
  }

  /** The sender check accepts `s` with address `a` exactly when `s` is `a`
      followed by nothing or by one final line terminator. */
  lemma SenderMatchIff(s: string, a: string)
    ensures SenderMatch(s) == Some(a) <==>
      IsAddress(a) && |a| <= |s| && s[..|a|] == a && FinalTerminator(s[|a|..])
  {
    if IsAddress(a) && |a| <= |s| && s[..|a|] == a && FinalTerminator(s[|a|..]) {
      var t := s[|a|..];
      AddressIffShape(a);
      var x: string, y: string, z: string :|
        IsWord(x) && IsWord(y) && IsWord(z) && a == x + "@" + y + "." + z;
      assert s == x + "@" + y + "." + z + t;
      ShapeIsAddress(x, y, z, t);
    }
  }

  /** A sender followed by a LINE SEPARATOR, which readLine leaves in the
      line, is accepted without it. */
  lemma SenderBeforeLineSeparator()
    ensures SenderMatch("a@b.c\U{2028}") == Some("a@b.c")
  {
    SenderMatchIff("a@b.c\U{2028}", "a@b.c");
    ShapeIsAddress("a", "b", "c", "");
  }

  /** An address followed by nothing, or by a non-word character, is matched
      in full, and the match stops right at its end. */
  lemma ShapeIsAddress(a: string, b: string, c: string, t: string)
    requires IsWord(a) && IsWord(b) && IsWord(c)
    requires |t| == 0 || !IsWordChar(t[0])
    ensures AddressMatch(a + "@" + b + "." + c + t) == Some(|a| + |b| + |c| + 2)
    ensures IsAddress(a + "@" + b + "." + c)
  {
    ShapeMatches(a, b, c, t);
    ShapeMatches(a, b, c, "");
    assert a + "@" + b + "." + c + "" == a + "@" + b + "." + c;
  }

  lemma ShapeMatches(a: string, b: string, c: string, t: string)
    requires IsWord(a) && IsWord(b) && IsWord(c)
    requires |t| == 0 || !IsWordChar(t[0])
    ensures AddressMatch(a + "@" + b + "." + c + t) == Some(|a| + |b| + |c| + 2)
  {
    var s := a + "@" + b + "." + c + t;
    var i, j, e := |a|, |a| + 1 + |b|, |a| + |b| + |c| + 2;
    assert s[i] == '@' && s[j] == '.';
    assert forall k :: 0 <= k < i ==> IsWordChar(s[k]) by {
      assert forall k :: 0 <= k < i ==> s[k] == a[k];
    }
    assert forall k :: i + 1 <= k < j ==> IsWordChar(s[k]) by {
      assert forall k :: i + 1 <= k < j ==> s[k] == b[k - i - 1];
    }
    assert forall k :: j + 1 <= k < e ==> IsWordChar(s[k]) by {
      assert forall k :: j + 1 <= k < e ==> s[k] == c[k - j - 1];
    }
    assert e == |s| || s[e] == t[0];
    ScanShape(s, i, j, e);
  }

  /** The scanner on a string already cut into word '@' word '.' word. */
  lemma ScanShape(s: string, i: nat, j: nat, e: nat)
    requires 0 < i && i + 1 < j && j + 1 < e <= |s|
    requires s[i] == '@' && s[j] == '.'
    requires forall k :: 0 <= k < i ==> IsWordChar(s[k])
    requires forall k :: i + 1 <= k < j ==> IsWordChar(s[k])
    requires forall k :: j + 1 <= k < e ==> IsWordChar(s[k])
    requires e == |s| || !IsWordChar(s[e])
    ensures AddressMatch(s) == Some(e)
  {
    WordEndIs(s, 0, i);
    WordEndIs(s, i + 1, j);
    WordEndIs(s, j + 1, e);
  }

  /** The pieces of an accepted address: Java's `split("@")` yields the local
      part and the domain, and the domain splits on '.' into two words. */
  lemma AddressParts(s: string)
    requires IsAddress(s)
    ensures var p := Split(s, Exactly('@'));
            |p| == 2 && IsWord(p[0]) && s == p[0] + "@" + p[1]
            && var q := Split(p[1], Exactly('.'));
               |q| == 2 && IsWord(q[0]) && IsWord(q[1]) && p[1] == q[0] + "." + q[1]
  {
    AddressIffShape(s);
    var l: string, x: string, y: string :|
      IsWord(l) && IsWord(x) && IsWord(y) && s == l + "@" + x + "." + y;
    assert s == l + "@" + (x + "." + y);
    WordsSplit(l, x, y);
  }

  /** Splitting word '@' word '.' word on '@', then the domain on '.'. */
  lemma WordsSplit(l: string, x: string, y: string)
    requires IsWord(l) && IsWord(x) && IsWord(y)
    ensures Split(l + "@" + (x + "." + y), Exactly('@')) == [l, x + "." + y]
    ensures Split(x + "." + y, Exactly('.')) == [x, y]
  {
    var dom := x + "." + y;
    assert l + "@" + dom == Join([l, dom], "@");
    forall i | 0 <= i < |dom| ensures dom[i] != '@' {
      if i < |x| { assert dom[i] == x[i]; } else if i > |x| { assert dom[i] == y[i - |x| - 1]; }
    }
    assert '@' !in l;
    SplitJoin([l, dom], '@');
    assert dom == Join([x, y], ".");
    assert '.' !in x && '.' !in y;
    SplitJoin([x, y], '.');
  }

  lemma {:induction false} FindSkipsNonWord(sep: string, t: string)
    requires forall k :: 0 <= k < |sep| ==> !IsWordChar(sep[k])
    ensures FindAddresses(sep + t) == FindAddresses(t)
  {
    if |sep| == 0 {
      assert sep + t == t;
    } else {
      var s := sep + t;
      assert WordEnd(s, 0) == 0;
      assert AddressMatch(s) == None;
      assert s[1..] == sep[1..] + t;
      FindSkipsNonWord(sep[1..], t);
    }
  }

  lemma {:induction false} FindLocalsSkipsNonWord(sep: string, t: string, domain: string)
    requires forall k :: 0 <= k < |sep| ==> !IsWordChar(sep[k])
    ensures FindLocals(sep + t, domain) == FindLocals(t, domain)
  {
    if |sep| == 0 {
      assert sep + t == t;
    } else {
      var s := sep + t;
      assert WordEnd(s, 0) == 0;
      assert LocalMatch(s, domain) == None;
      assert s[1..] == sep[1..] + t;
      FindLocalsSkipsNonWord(sep[1..], t, domain);
    }
  }

  /** An accepted address followed by nothing or by a non-word character is
      the first match, and the match covers exactly the address. */
  lemma FirstAddressMatch(a0: string, t: string)
    requires IsAddress(a0)
    requires |t| == 0 || !IsWordChar(t[0])
    ensures AddressMatch(a0 + t) == Some(|a0|)
  {
    AddressIffShape(a0);
    var x: string, y: string, z: string :|
      IsWord(x) && IsWord(y) && IsWord(z) && a0 == x + "@" + y + "." + z;
    ShapeIsAddress(x, y, z, t);
    assert a0 + t == x + "@" + y + "." + z + t;
  }

  /** Recipients written out with a separator of non-word characters (", " when
      the transfer server replays a message, "," when a user types them) are
      found again one by one, in order. */
  lemma {:induction false} FindAddressesJoin(addrs: seq<string>, sep: string)
    requires forall i :: 0 <= i < |addrs| ==> IsAddress(addrs[i])
    requires |sep| > 0 && forall k :: 0 <= k < |sep| ==> !IsWordChar(sep[k])
    ensures FindAddresses(Join(addrs, sep)) == addrs
  {
    if |addrs| == 1 {
      FindAfterAddress(addrs[0], "", "");
      assert addrs[0] + ("" + "") == addrs[0];
    } else if |addrs| > 1 {
      var rest := Join(addrs[1..], sep);
      assert Join(addrs, sep) == addrs[0] + (sep + rest);
      FindAfterAddress(addrs[0], sep, rest);
      FindAddressesJoin(addrs[1..], sep);
      assert [addrs[0]] + addrs[1..] == addrs;
    }
  }

  /** An address, a non-word separator and more text: the find loop takes
      the address, skips the separator and goes on with the text. */
  lemma FindAfterAddress(a0: string, sep: string, rest: string)
    requires IsAddress(a0)
    requires forall k :: 0 <= k < |sep| ==> !IsWordChar(sep[k])
    requires sep == "" ==> rest == ""
    ensures FindAddresses(a0 + (sep + rest)) == [a0] + FindAddresses(rest)
  {
    var s := a0 + (sep + rest);
    FirstAddressMatch(a0, sep + rest);
    assert s[..|a0|] == a0 && s[|a0|..] == sep + rest;
    FindSkipsNonWord(sep, rest);
  }

  /** Every recipient collected by the find loop is itself a valid address. */
  lemma {:induction false} FoundAreAddresses(s: string)
    ensures forall i :: 0 <= i < |FindAddresses(s)| ==> IsAddress(FindAddresses(s)[i])
    decreases |s|
  {
    if |s| > 0 {
      match AddressMatch(s)
      case Some(e) =>
        MatchIsAddress(s, e);
        FoundAreAddresses(s[e..]);
      case None =>
        FoundAreAddresses(s[1..]);
    }
  }

  /** The text a match covers is an address on its own. */
  lemma MatchIsAddress(s: string, e: nat)
    requires AddressMatch(s) == Some(e)
    ensures IsAddress(s[..e])
  {
    var a := WordEnd(s, 0);
    var b := WordEnd(s, a + 1);
    assert 0 < a < b < e <= |s| && s[a] == '@' && s[b] == '.';
    assert e == WordEnd(s, b + 1);
    var m := s[..e];
    assert m == s[..a] + [s[a]] + s[a + 1..b] + [s[b]] + s[b + 1..e];
    assert IsWord(s[..a]);
    assert IsWord(s[a + 1..b]);
    assert IsWord(s[b + 1..e]);
    ShapeIsAddress(s[..a], s[a + 1..b], s[b + 1..e], "");
  }

  /** The whole text being one address, the find loop collects just it. */
  lemma SingleAddressFound(s: string)
    requires IsAddress(s)
    ensures FindAddresses(s) == [s]
  {
    FindAddressesJoin([s], ",");
  }

  /** The addresses `w@<domain>` for each local part `w`, in order. */
  function AtDomain(locals: seq<string>, domain: string): (r: seq<string>)
    ensures |r| == |locals|
    ensures forall i :: 0 <= i < |r| ==> r[i] == locals[i] + "@" + domain
  {
    if |locals| == 0 then [] else [locals[0] + "@" + domain] + AtDomain(locals[1..], domain)
  }

  lemma FirstLocalMatch(w: string, domain: string, t: string)
    requires IsWord(w)
    ensures LocalMatch(w + "@" + domain + t, domain) == Some(|w| + 1 + |domain|)
    ensures WordEnd(w + "@" + domain + t, 0) == |w|
  {
    var s := w + "@" + domain + t;
    WordEndIs(s, 0, |w|);
    assert s[|w| + 1..|w| + 1 + |domain|] == domain;
    assert DomainMatches(domain, domain);
  }

  /** Addresses `w@<domain>` joined by a non-word separator yield their local
      parts, in order. */
  lemma {:induction false} FindLocalsJoin(locals: seq<string>, domain: string, sep: string)
    requires forall i :: 0 <= i < |locals| ==> IsWord(locals[i])
    requires |sep| > 0 && forall k :: 0 <= k < |sep| ==> !IsWordChar(sep[k])
    ensures FindLocals(Join(AtDomain(locals, domain), sep), domain) == locals
  {
    if |locals| > 0 {
      var w := locals[0];
      var addrs := AtDomain(locals, domain);
      var t := if |locals| == 1 then "" else sep + Join(addrs[1..], sep);
      var s := w + "@" + domain + t;
      assert Join(addrs, sep) == s;
      FirstLocalMatch(w, domain, t);
      assert s[..|w|] == w;
      assert s[|w| + 1 + |domain|..] == t;
      if |locals| > 1 {
        FindLocalsSkipsNonWord(sep, Join(addrs[1..], sep), domain);
        FindLocalsJoin(locals[1..], domain, sep);
        assert addrs[1..] == AtDomain(locals[1..], domain);
      }
    }
  }

  /** An address consists of word characters, '@' and '.', so it holds no
      comma, space or line break. */
  lemma AddressPlain(s: string)
    requires IsAddress(s)
    ensures ',' !in s && ' ' !in s && '\n' !in s
  {
    var a := WordEnd(s, 0);
    var b := WordEnd(s, a + 1);
    forall k | 0 <= k < |s|
      ensures s[k] != ',' && s[k] != ' ' && s[k] != '\n'
    {
      if k > b {
        assert IsWordChar(s[k]);
      }
    }
  }
}

=== FILE: relay.dfy ===
/** The hop between the two servers: the eight lines the transfer server's
    forwarding task writes (MailboxConnection.parseMessage) replayed through a
    mailbox server's delivery session (MailboxHandler.run). */
module Relay {
  import opened Wrappers
  import opened JString
  import opened Patterns
  import opened Mail
  import opened Users
  import Dmtp
  import Forwarding
  import MailboxHandler

  /** The message a mailbox server stores for a forwarded `m`: the fields as
      printed (a null field arrives as the text "null"), and a single
      recipient entry holding the joined list with its commas removed. */
  function Relayed(m: Message): Message {
    Message(Some(Text(m.sender)), [ReplaceChar(Join(m.recipients, ", "), ',', None)],
            Some(Text(m.subject)), Some(Text(m.data)), Some(Text(m.hash)))
  }

  /** "subject x" in state EMAIL sets the subject. */
  lemma SubjectLine(mm: Message, x: string, config: set<string>, domain: string)
    requires x != ""
    ensures Dmtp.ValidateRequest(Dmtp.Engine(Dmtp.Email, mm), "subject " + x, config, domain)
      == Dmtp.Step(Dmtp.Engine(Dmtp.Email, mm.(subject := Some(x))), "ok")
  {
    Dmtp.ArgumentOf("subject", x);
    var request := "subject " + x;
    assert request[..8] == "subject ";
    assert request[0] == 's' && |request| > 4;
    Dmtp.NotQuit(request);
  }

  /** "from x" in state EMAIL sets the sender; the mailbox side checks no
      address syntax. */
  lemma FromLine(mm: Message, x: string, config: set<string>, domain: string)
    requires x != ""
    ensures Dmtp.ValidateRequest(Dmtp.Engine(Dmtp.Email, mm), "from " + x, config, domain)
      == Dmtp.Step(Dmtp.Engine(Dmtp.Email, mm.(sender := Some(x))), "ok")
  {
    Dmtp.ArgumentOf("from", x);
    var request := "from " + x;
    assert request[0] == 'f';
    assert request[..5] == "from ";
    Dmtp.NotQuit(request);
  }

  /** "data x" in state EMAIL sets the content. */
  lemma DataLine(mm: Message, x: string, config: set<string>, domain: string)
    requires x != ""
    ensures Dmtp.ValidateRequest(Dmtp.Engine(Dmtp.Email, mm), "data " + x, config, domain)
      == Dmtp.Step(Dmtp.Engine(Dmtp.Email, mm.(data := Some(x))), "ok")
  {
    Dmtp.ArgumentOf("data", x);
    var request := "data " + x;
    assert request[0] == 'd';
    assert request[..4] == "data";
    Dmtp.NotQuit(request);
  }

  /** "to x" in state EMAIL stores x without commas as the one recipient
      entry, and its reply does not end the session. */
  lemma ToLine(mm: Message, x: string, config: set<string>, domain: string)
    requires x != ""
    ensures var st := Dmtp.ValidateRequest(Dmtp.Engine(Dmtp.Email, mm), "to " + x, config, domain);
      st.engine == Dmtp.Engine(Dmtp.Email, mm.(recipients := [ReplaceChar(x, ',', None)]))
      && !Dmtp.Ends(st.reply)
  {
    Dmtp.ValidateTo(Dmtp.Engine(Dmtp.Email, mm), x, config, domain);
    UnknownReplyGoesOn(Dmtp.Spaced(Dmtp.UnknownLocals(FindLocals(x, domain), config)));
  }

  /** The unknown-recipient reply does not end a session. */
  lemma UnknownReplyGoesOn(names: string)
    ensures !Dmtp.Ends(Dmtp.UnknownPrefix + names)
  {
    assert |Dmtp.UnknownPrefix + names| >= 24;
  }

  /** "hash x" in state EMAIL sets the hash. */
  lemma HashLine(mm: Message, x: string, config: set<string>, domain: string)
    requires x != ""
    ensures Dmtp.ValidateRequest(Dmtp.Engine(Dmtp.Email, mm), "hash " + x, config, domain)
      == Dmtp.Step(Dmtp.Engine(Dmtp.Email, mm.(hash := Some(x))), "ok")
  {
    Dmtp.ArgumentOf("hash", x);
    var request := "hash " + x;
    assert request[0] == 'h';
    assert request[..5] == "hash ";
    Dmtp.NotQuit(request);
  }

  /** A line that neither ends the session nor is "send" adds its reply in
      front of the rest of the session. */
  lemma ServeLine(e: Dmtp.Engine, users: seq<User>, config: set<string>, domain: string,
                  line: string, lines: seq<string>, next: Dmtp.Engine, reply: string)
    requires AllWellFormed(users) && line != "send" && !Dmtp.Ends(reply)
    requires Dmtp.ValidateRequest(e, line, config, domain) == Dmtp.Step(next, reply)
    ensures var rest := MailboxHandler.Serve(next, users, config, domain, lines);
      MailboxHandler.Serve(e, users, config, domain, [line] + lines)
      == MailboxHandler.Trace(rest.users, [reply] + rest.replies, rest.crashed)
  {
    assert ([line] + lines)[1..] == lines;
  }

  /** The last two lines: `send` delivers, `quit` closes. */
  lemma SendQuit(users: seq<User>, config: set<string>, domain: string, r: Message)
    requires AllWellFormed(users) && |r.recipients| >= 1
    ensures MailboxHandler.Serve(Dmtp.Engine(Dmtp.Email, r), users, config, domain, ["send", "quit"])
      == MailboxHandler.Trace(MailboxHandler.DeliverTo(users, FindLocals(r.recipients[0], domain), r, config),
                              ["ok", Dmtp.Bye], false)
  {
    assert !StartsWith("send", "subject ") && !StartsWith("send", "from ");
    assert !StartsWith("send", "data") && !StartsWith("send", "to ");
    assert !Contains("send", "hash ");
    Dmtp.NotQuit("send");
    assert EqualsIgnoreCase("quit", "quit");
    assert ["send", "quit"][1..] == ["quit"];
  }

  /** A forwarded message arrives intact: the mailbox session answers all
      eight lines without ending early, accepts `send`, delivers exactly the
      relayed message to the configured users named in its recipient text,
      and closes with "ok bye". */
  lemma RelayedIntact(users: seq<User>, config: set<string>, domain: string, m: Message)
    requires AllWellFormed(users) && Accepted(m) && m.hash != Some("")
    ensures var t := MailboxHandler.Session(users, config, domain, Forwarding.ParseMessage(m).value);
      var r := Relayed(m);
      !t.crashed && |t.replies| == 9
      && t.replies[7] == "ok" && t.replies[8] == Dmtp.Bye
      && t.users == MailboxHandler.DeliverTo(users, FindLocals(r.recipients[0], domain), r, config)
  {
    var r := Relayed(m);
    var us := MailboxHandler.DeliverTo(users, FindLocals(r.recipients[0], domain), r, config);
    var fields := FieldLines(m);
    var toReply := Fields(users, config, domain, m);
    var email := Dmtp.Engine(Dmtp.Email, Blank);
    var lines := ["begin"] + fields;
    Dmtp.NotQuit("begin");
    ServeLine(Dmtp.Engine(Dmtp.Begin, Blank), users, config, domain, "begin", fields, email, "ok");
    var served := MailboxHandler.Serve(Dmtp.Engine(Dmtp.Begin, Blank), users, config, domain, lines);
    assert served == MailboxHandler.Trace(us, ["ok"] + ["ok", toReply, "ok", "ok", "ok", "ok", Dmtp.Bye], false);
    Greeted(users, config, domain, lines);
    Written(m);
    var replies := [Dmtp.Greeting] + (["ok"] + ["ok", toReply, "ok", "ok", "ok", "ok", Dmtp.Bye]);
    assert |replies| == 9 && replies[7] == "ok" && replies[8] == Dmtp.Bye;
  }

  /** The forwarding task writes "begin" followed by the field lines. */
  lemma Written(m: Message)
    requires |m.recipients| >= 1
    ensures Forwarding.ParseMessage(m) == Some(["begin"] + FieldLines(m))
  {
    Forwarding.Envelope(m);
    var f := FieldLines(m);
    assert ["begin"] + f == ["begin", f[0], f[1], f[2], f[3], f[4], f[5], f[6]];
  }

  /** The seven lines after "begin" that the forwarding task writes for `m`. */
  function FieldLines(m: Message): seq<string> {
    ["from " + Text(m.sender), "to " + Join(m.recipients, ", "), "subject " + Text(m.subject),
     "data " + Text(m.data), "hash " + Text(m.hash), "send", "quit"]
  }

  /** From EMAIL with a blank message, the seven lines build the relayed
      message, deliver it on `send` and close on `quit`; the returned
      string is the reply to the "to" line. */
  lemma Fields(users: seq<User>, config: set<string>, domain: string, m: Message) returns (toReply: string)
    requires AllWellFormed(users) && Accepted(m) && m.hash != Some("")
    ensures var r := Relayed(m);
      MailboxHandler.Serve(Dmtp.Engine(Dmtp.Email, Blank), users, config, domain, FieldLines(m))
      == MailboxHandler.Trace(MailboxHandler.DeliverTo(users, FindLocals(r.recipients[0], domain), r, config),
                              ["ok", toReply, "ok", "ok", "ok", "ok", Dmtp.Bye], false)
  {
    assert Join(m.recipients, ", ") != "" by {
      JoinLength(m.recipients, ", ");
      assert IsAddress(m.recipients[0]);
    }
    toReply := FieldsServed(users, config, domain, m);
  }

  /** The same, for any message whose printed fields are all non-empty. */
  lemma FieldsServed(users: seq<User>, config: set<string>, domain: string, m: Message) returns (toReply: string)
    requires AllWellFormed(users) && Join(m.recipients, ", ") != ""
    requires Text(m.sender) != "" && Text(m.subject) != "" && Text(m.data) != "" && Text(m.hash) != ""
    ensures var r := Relayed(m);
      MailboxHandler.Serve(Dmtp.Engine(Dmtp.Email, Blank), users, config, domain, FieldLines(m))
      == MailboxHandler.Trace(MailboxHandler.DeliverTo(users, FindLocals(r.recipients[0], domain), r, config),
                              ["ok", toReply, "ok", "ok", "ok", "ok", Dmtp.Bye], false)
  {
    var r := Relayed(m);
    var us := MailboxHandler.DeliverTo(users, FindLocals(r.recipients[0], domain), r, config);
    SendQuit(users, config, domain, r);
    toReply := FiveFields(users, config, domain, Text(m.sender), Join(m.recipients, ", "), Text(m.subject),
      Text(m.data), Text(m.hash), ["send", "quit"], us, ["ok", Dmtp.Bye]);
    assert FieldLines(m) == ["from " + Text(m.sender), "to " + Join(m.recipients, ", "), "subject " + Text(m.subject),
      "data " + Text(m.data), "hash " + Text(m.hash)] + ["send", "quit"];
    assert ["ok", toReply, "ok", "ok", "ok"] + ["ok", Dmtp.Bye] == ["ok", toReply, "ok", "ok", "ok", "ok", Dmtp.Bye];
  }

  /** Five field lines from a blank message, in front of a rest whose
      outcome from the completed message is known; the returned string is
      the reply to the "to" line. */
  lemma FiveFields(users: seq<User>, config: set<string>, domain: string,
                   sender: string, to: string, subject: string, data: string, hash: string,
                   t: seq<string>, us: seq<User>, replies: seq<string>) returns (toReply: string)
    requires AllWellFormed(users)
    requires sender != "" && to != "" && subject != "" && data != "" && hash != ""
    requires MailboxHandler.Serve(Dmtp.Engine(Dmtp.Email, Message(Some(sender), [ReplaceChar(to, ',', None)],
                                    Some(subject), Some(data), Some(hash))), users, config, domain, t)
      == MailboxHandler.Trace(us, replies, false)
    ensures MailboxHandler.Serve(Dmtp.Engine(Dmtp.Email, Blank), users, config, domain,
              ["from " + sender, "to " + to, "subject " + subject, "data " + data, "hash " + hash] + t)
      == MailboxHandler.Trace(us, ["ok", toReply, "ok", "ok", "ok"] + replies, false)
  {
    var m2 := Blank.(sender := Some(sender));
    var m3 := m2.(recipients := [ReplaceChar(to, ',', None)]);
    var m4 := m3.(subject := Some(subject));
    var m5 := m4.(data := Some(data));
    var l1, l2, l3, l4, l5 := "from " + sender, "to " + to, "subject " + subject, "data " + data, "hash " + hash;
    HashServed(users, config, domain, m5, hash, t, us, replies);
    DataServed(users, config, domain, m4, data, [l5] + t, us, ["ok"] + replies);
    SubjectServed(users, config, domain, m3, subject, [l4] + ([l5] + t), us, ["ok"] + (["ok"] + replies));
    toReply := ToServed(users, config, domain, m2, to, [l3] + ([l4] + ([l5] + t)),
      us, ["ok"] + (["ok"] + (["ok"] + replies)));
    FromServed(users, config, domain, Blank, sender, [l2] + ([l3] + ([l4] + ([l5] + t))),
      us, [toReply] + (["ok"] + (["ok"] + (["ok"] + replies))));
    Nest5(l1, l2, l3, l4, l5, t);
    Nest5("ok", toReply, "ok", "ok", "ok", replies);
  }

  lemma Nest5<T>(a: T, b: T, c: T, d: T, e: T, t: seq<T>)
    ensures [a] + ([b] + ([c] + ([d] + ([e] + t)))) == [a, b, c, d, e] + t
  {
  }

  /** The "subject" line, in front of a rest whose outcome is known. */
  lemma SubjectServed(users: seq<User>, config: set<string>, domain: string, mm: Message, x: string,
                      rest: seq<string>, us: seq<User>, replies: seq<string>)
    requires AllWellFormed(users) && x != ""
    requires MailboxHandler.Serve(Dmtp.Engine(Dmtp.Email, mm.(subject := Some(x))), users, config, domain, rest)
      == MailboxHandler.Trace(us, replies, false)
    ensures MailboxHandler.Serve(Dmtp.Engine(Dmtp.Email, mm), users, config, domain, ["subject " + x] + rest)
      == MailboxHandler.Trace(us, ["ok"] + replies, false)
  {
    var line := "subject " + x;
    SubjectLine(mm, x, config, domain);
    assert line[0] == 's' && |line| > 4;
    FieldServed(Dmtp.Engine(Dmtp.Email, mm), users, config, domain, line, rest,
      Dmtp.Engine(Dmtp.Email, mm.(subject := Some(x))), "ok", us, replies);
  }

  /** The "data" line, in front of a rest whose outcome is known. */
  lemma DataServed(users: seq<User>, config: set<string>, domain: string, mm: Message, x: string,
                   rest: seq<string>, us: seq<User>, replies: seq<string>)
    requires AllWellFormed(users) && x != ""
    requires MailboxHandler.Serve(Dmtp.Engine(Dmtp.Email, mm.(data := Some(x))), users, config, domain, rest)
      == MailboxHandler.Trace(us, replies, false)
    ensures MailboxHandler.Serve(Dmtp.Engine(Dmtp.Email, mm), users, config, domain, ["data " + x] + rest)
      == MailboxHandler.Trace(us, ["ok"] + replies, false)
  {
    var line := "data " + x;
    DataLine(mm, x, config, domain);
    assert line[0] == 'd';
    FieldServed(Dmtp.Engine(Dmtp.Email, mm), users, config, domain, line, rest,
      Dmtp.Engine(Dmtp.Email, mm.(data := Some(x))), "ok", us, replies);
  }

  /** The "hash" line, in front of a rest whose outcome is known. */
  lemma HashServed(users: seq<User>, config: set<string>, domain: string, mm: Message, x: string,
                   rest: seq<string>, us: seq<User>, replies: seq<string>)
    requires AllWellFormed(users) && x != ""
    requires MailboxHandler.Serve(Dmtp.Engine(Dmtp.Email, mm.(hash := Some(x))), users, config, domain, rest)
      == MailboxHandler.Trace(us, replies, false)
    ensures MailboxHandler.Serve(Dmtp.Engine(Dmtp.Email, mm), users, config, domain, ["hash " + x] + rest)
      == MailboxHandler.Trace(us, ["ok"] + replies, false)
  {
    var line := "hash " + x;
    HashLine(mm, x, config, domain);
    assert line[0] == 'h';
    FieldServed(Dmtp.Engine(Dmtp.Email, mm), users, config, domain, line, rest,
      Dmtp.Engine(Dmtp.Email, mm.(hash := Some(x))), "ok", us, replies);
  }

  /** The "from" line, in front of a rest whose outcome is known. */
  lemma FromServed(users: seq<User>, config: set<string>, domain: string, mm: Message, x: string,
                   rest: seq<string>, us: seq<User>, replies: seq<string>)
    requires AllWellFormed(users) && x != ""
    requires MailboxHandler.Serve(Dmtp.Engine(Dmtp.Email, mm.(sender := Some(x))), users, config, domain, rest)
      == MailboxHandler.Trace(us, replies, false)
    ensures MailboxHandler.Serve(Dmtp.Engine(Dmtp.Email, mm), users, config, domain, ["from " + x] + rest)
      == MailboxHandler.Trace(us, ["ok"] + replies, false)
  {
    var line := "from " + x;
    FromLine(mm, x, config, domain);
    assert line[0] == 'f';
    FieldServed(Dmtp.Engine(Dmtp.Email, mm), users, config, domain, line, rest,
      Dmtp.Engine(Dmtp.Email, mm.(sender := Some(x))), "ok", us, replies);
  }

  /** The "to" line, in front of a rest whose outcome is known. */
  lemma ToServed(users: seq<User>, config: set<string>, domain: string, mm: Message, to: string,
                 rest: seq<string>, us: seq<User>, replies: seq<string>) returns (reply: string)
    requires AllWellFormed(users) && to != ""
    requires MailboxHandler.Serve(Dmtp.Engine(Dmtp.Email, mm.(recipients := [ReplaceChar(to, ',', None)])),
                                  users, config, domain, rest)
      == MailboxHandler.Trace(us, replies, false)
    ensures MailboxHandler.Serve(Dmtp.Engine(Dmtp.Email, mm), users, config, domain, ["to " + to] + rest)
      == MailboxHandler.Trace(us, [reply] + replies, false)
  {
    var line := "to " + to;
    var st := Dmtp.ValidateRequest(Dmtp.Engine(Dmtp.Email, mm), line, config, domain);
    ToLine(mm, to, config, domain);
    assert line[0] == 't';
    FieldServed(Dmtp.Engine(Dmtp.Email, mm), users, config, domain, line, rest, st.engine, st.reply, us, replies);
    reply := st.reply;
  }

  /** A field line answered without ending the session, in front of a rest
      whose outcome is known. */
  lemma FieldServed(e: Dmtp.Engine, users: seq<User>, config: set<string>, domain: string,
                    line: string, rest: seq<string>, next: Dmtp.Engine, reply: string,
                    us: seq<User>, replies: seq<string>)
    requires AllWellFormed(users) && line != "send" && !Dmtp.Ends(reply)
    requires Dmtp.ValidateRequest(e, line, config, domain) == Dmtp.Step(next, reply)
    requires MailboxHandler.Serve(next, users, config, domain, rest) == MailboxHandler.Trace(us, replies, false)
    ensures MailboxHandler.Serve(e, users, config, domain, [line] + rest)
      == MailboxHandler.Trace(us, [reply] + replies, false)
  {
    ServeLine(e, users, config, domain, line, rest, next, reply);
  }

  /** The session is the greeting followed by the read loop from BEGIN. */
  lemma Greeted(users: seq<User>, config: set<string>, domain: string, lines: seq<string>)
    requires AllWellFormed(users)
    ensures var served := MailboxHandler.Serve(Dmtp.Engine(Dmtp.Begin, Blank), users, config, domain, lines);
      MailboxHandler.Session(users, config, domain, lines)
      == MailboxHandler.Trace(served.users, [Dmtp.Greeting] + served.replies, served.crashed)
  {
    Dmtp.NotQuit("");
  }
}

=== FILE: user.dfy ===
/** A mailbox user (dslab.User) and the user list a mailbox server shares
    between its delivery and access sessions.

    The source keeps a user's messages in a hash map from message id to
    message. Here the map is a sequence of entries in insertion order, which is
    also the order `list` prints them in; `Lookup` and `Ids` are the map view.
    Java's `int` keys are modelled explicitly: the next id after the largest
    stored one wraps from 2147483647 to -2147483648. */
module Users {
  import opened Wrappers
  import opened JString
  import opened Mail

  datatype Entry = Entry(id: int, message: Message)

  datatype User = User(name: string, entries: seq<Entry>)

  /** `new User(name)`: no messages yet. */
  function NewUser(name: string): User {
    User(name, [])
  }

  /** `messages.keySet()`. */
  function Ids(es: seq<Entry>): set<int> {
    set i | 0 <= i < |es| :: es[i].id
  }

  /** No id is stored twice: the entries are a faithful picture of a map. */
  predicate DistinctIds(es: seq<Entry>) {
    forall i, j :: 0 <= i < j < |es| ==> es[i].id != es[j].id
  }

  /** `messages.get(id)`. */
  function Lookup(es: seq<Entry>, id: int): (r: Option<Message>)
    ensures r.None? <==> id !in Ids(es)
  {
    if |es| == 0 then None
    else if es[0].id == id then Some(es[0].message)
    else
      assert Ids(es) == {es[0].id} + Ids(es[1..]) by { IdsCons(es); }
      Lookup(es[1..], id)
  }

  /** The largest stored id (the head of the key list sorted in reverse). */
  function MaxId(es: seq<Entry>): (r: int)
    requires |es| > 0
    ensures r in Ids(es)
    ensures forall i :: 0 <= i < |es| ==> es[i].id <= r
  {
    if |es| == 1 then es[0].id
    else
      var rest := MaxId(es[1..]);
      IdsCons(es);
      if es[0].id >= rest then es[0].id else rest
  }

  /** Java's `int` addition of one: the largest value wraps to the smallest. */
  function Succ32(n: int): (r: int)
    requires InInt32(n)
    ensures InInt32(r)
    ensures n < Int32Max ==> r == n + 1
    ensures n == Int32Max ==> r == Int32Min
  {
    if n == Int32Max then Int32Min else n + 1
  }

  /** The id `addMessage` chooses. */
  function NextId(es: seq<Entry>): (r: int)
    requires forall i :: 0 <= i < |es| ==> InInt32(es[i].id)
    ensures InInt32(r)
    ensures |es| == 0 ==> r == 1
    ensures (|es| == 0 || MaxId(es) < Int32Max) ==> forall i :: 0 <= i < |es| ==> es[i].id < r
    ensures |es| > 0 && MaxId(es) == Int32Max ==> r == Int32Min
  {
    if |es| == 0 then |es| + 1 else Succ32(MaxId(es))
  }

  /** `messages.put(id, m)`: overwrite the entry under `id` if there is one,
      otherwise add a new entry at the end. */
  function Put(es: seq<Entry>, id: int, m: Message): (r: seq<Entry>)
    ensures |es| <= |r| <= |es| + 1
    ensures Entry(id, m) in r
  {
    if |es| == 0 then [Entry(id, m)]
    else if es[0].id == id then [Entry(id, m)] + es[1..]
    else [es[0]] + Put(es[1..], id, m)
  }

  /** `messages.remove(id)`. */
  function Remove(es: seq<Entry>, id: int): (r: seq<Entry>)
    ensures |r| <= |es|
    ensures forall i :: 0 <= i < |r| ==> r[i].id != id
  {
    if |es| == 0 then []
    else if es[0].id == id then Remove(es[1..], id)
    else [es[0]] + Remove(es[1..], id)
  }

  /** User.addMessage. */
  function AddMessage(u: User, m: Message): (r: User)
    requires forall i :: 0 <= i < |u.entries| ==> InInt32(u.entries[i].id)
    ensures r.name == u.name
    ensures forall i :: 0 <= i < |r.entries| ==> InInt32(r.entries[i].id)
  {
    var id := NextId(u.entries);
    PutInt32(u.entries, id, m);
    User(u.name, Put(u.entries, id, m))
  }

  /** Every id a mailbox holds is a Java `int` and none repeats. */
  predicate WellFormed(u: User) {
    DistinctIds(u.entries) && forall i :: 0 <= i < |u.entries| ==> InInt32(u.entries[i].id)
  }

  // ---------------------------------------------------------------- lemmas

  /** `put` behaves as a map update: the id now maps to `m` and every other
      id keeps its message. */
  lemma {:induction false} PutLookup(es: seq<Entry>, id: int, m: Message, j: int)
    ensures Lookup(Put(es, id, m), j) == if j == id then Some(m) else Lookup(es, j)
  {
    if |es| > 0 && es[0].id != id {
      PutLookup(es[1..], id, m, j);
    }
  }

  /** The key set gains exactly `id`. */
  lemma {:induction false} PutIds(es: seq<Entry>, id: int, m: Message)
    ensures Ids(Put(es, id, m)) == Ids(es) + {id}
  {
    var r := Put(es, id, m);
    if |es| > 0 {
      IdsCons(es);
      IdsCons(r);
      if es[0].id == id {
        assert r[0].id == id && r[1..] == es[1..];
        assert Ids(r) == {id} + Ids(es[1..]);
        assert Ids(es) == {id} + Ids(es[1..]);
      } else {
        PutIds(es[1..], id, m);
        assert r[0] == es[0] && r[1..] == Put(es[1..], id, m);
        assert Ids(r) == {es[0].id} + Ids(es[1..]) + {id};
      }
    } else {
      assert r[0].id == id;
    }
  }

  /** Ids stay distinct. */
  lemma {:induction false} PutDistinct(es: seq<Entry>, id: int, m: Message)
    requires DistinctIds(es)
    ensures DistinctIds(Put(es, id, m))
  {
    var r := Put(es, id, m);
    if |es| > 0 && es[0].id != id {
      IdsCons(es);
      IdsAbsentOfHead(es);
      PutDistinct(es[1..], id, m);
      PutIds(es[1..], id, m);
      var rest := Put(es[1..], id, m);
      assert r == [es[0]] + rest;
      forall k | 0 <= k < |rest| ensures rest[k].id != es[0].id {
        assert rest[k].id in Ids(rest);
      }
    }
  }

  /** A new id goes to the end. */
  lemma {:induction false} PutAppends(es: seq<Entry>, id: int, m: Message)
    requires id !in Ids(es)
    ensures Put(es, id, m) == es + [Entry(id, m)]
  {
    if |es| > 0 {
      assert es[0].id in Ids(es);
      IdsCons(es);
      PutAppends(es[1..], id, m);
      assert es == [es[0]] + es[1..];
    }
  }

  /** `remove` hides exactly the removed id. */
  lemma {:induction false} RemoveSpec(es: seq<Entry>, id: int)
    ensures Lookup(Remove(es, id), id).None?
    ensures forall j :: j != id ==> Lookup(Remove(es, id), j) == Lookup(es, j)
    ensures Ids(Remove(es, id)) == Ids(es) - {id}
    ensures DistinctIds(es) ==> DistinctIds(Remove(es, id))
  {
    var r := Remove(es, id);
    if |es| > 0 {
      IdsCons(es);
      RemoveSpec(es[1..], id);
      var rest := Remove(es[1..], id);
      if es[0].id != id {
        IdsCons(r);
        assert r[1..] == rest;
        if DistinctIds(es) {
          IdsAbsentOfHead(es);
          forall k | 0 <= k < |rest| ensures rest[k].id != es[0].id {
            assert rest[k].id in Ids(rest);
          }
        }
      }
    }
  }

  lemma IdsCons(es: seq<Entry>)
    requires |es| > 0
    ensures Ids(es) == {es[0].id} + Ids(es[1..])
  {
    forall id ensures id in Ids(es) <==> id in {es[0].id} + Ids(es[1..]) {
      if id in Ids(es) {
        var i :| 0 <= i < |es| && es[i].id == id;
        if i > 0 { assert es[1..][i - 1].id == id; }
      }
      if id in Ids(es[1..]) {
        var i :| 0 <= i < |es[1..]| && es[1..][i].id == id;
        assert es[i + 1].id == id;
      }
    }
  }

  lemma IdsAbsentOfHead(es: seq<Entry>)
    requires |es| > 0 && DistinctIds(es)
    ensures es[0].id !in Ids(es[1..])
  {
    forall k | 0 <= k < |es[1..]| ensures es[1..][k].id != es[0].id {
      assert es[1..][k] == es[k + 1];
    }
  }

  lemma PutInt32(es: seq<Entry>, id: int, m: Message)
    requires InInt32(id)
    requires forall i :: 0 <= i < |es| ==> InInt32(es[i].id)
    ensures forall i :: 0 <= i < |Put(es, id, m)| ==> InInt32(Put(es, id, m)[i].id)
  {
    var r := Put(es, id, m);
    PutIds(es, id, m);
    forall i | 0 <= i < |r| ensures InInt32(r[i].id) {
      assert r[i].id in Ids(r);
    }
  }

  /** The first message of an empty mailbox gets id 1. */
  lemma FirstMessageIdOne(u: User, m: Message)
    requires u.entries == []
    ensures AddMessage(u, m).entries == [Entry(1, m)]
  {
  }

  /** Below the wrap-around, the new id is larger than every stored id, and
      it is the largest id plus one (or 1 for an empty mailbox). */
  lemma NextIdIsFresh(u: User)
    requires WellFormed(u)
    requires |u.entries| == 0 || MaxId(u.entries) < Int32Max
    ensures forall i :: 0 <= i < |u.entries| ==> u.entries[i].id < NextId(u.entries)
    ensures |u.entries| > 0 ==> NextId(u.entries) == MaxId(u.entries) + 1
    ensures NextId(u.entries) !in Ids(u.entries)
  {
  }

  /** So no message is overwritten: the mailbox gains exactly one entry, under
      the new id and at the end of the listing, and keeps every other entry. */
  lemma AddMessageFresh(u: User, m: Message)
    requires WellFormed(u)
    requires |u.entries| == 0 || MaxId(u.entries) < Int32Max
    ensures AddMessage(u, m).entries == u.entries + [Entry(NextId(u.entries), m)]
    ensures |Ids(AddMessage(u, m).entries)| == |Ids(u.entries)| + 1
    ensures Lookup(AddMessage(u, m).entries, NextId(u.entries)) == Some(m)
    ensures forall j :: j != NextId(u.entries) ==> Lookup(AddMessage(u, m).entries, j) == Lookup(u.entries, j)
    ensures WellFormed(AddMessage(u, m))
  {
    var id := NextId(u.entries);
    NextIdIsFresh(u);
    PutIds(u.entries, id, m);
    PutDistinct(u.entries, id, m);
    PutAppends(u.entries, id, m);
    PutInt32(u.entries, id, m);
    forall j | j != id ensures Lookup(AddMessage(u, m).entries, j) == Lookup(u.entries, j) {
      PutLookup(u.entries, id, m, j);
    }
    PutLookup(u.entries, id, m, id);
  }

  /** Adding a message keeps a mailbox well formed, wrap-around included. */
  lemma AddMessageWellFormed(u: User, m: Message)
    requires WellFormed(u)
    ensures WellFormed(AddMessage(u, m))
  {
    PutDistinct(u.entries, NextId(u.entries), m);
  }

  /** At the wrap-around the next id is the smallest `int`, and a message
      already stored under it is overwritten. */
  lemma AddMessageWraps(u: User, m: Message)
    requires WellFormed(u) && |u.entries| > 0 && MaxId(u.entries) == Int32Max
    ensures NextId(u.entries) == Int32Min
    ensures Lookup(AddMessage(u, m).entries, Int32Min) == Some(m)
    ensures Ids(AddMessage(u, m).entries) == Ids(u.entries) + {Int32Min}
  {
    PutIds(u.entries, Int32Min, m);
    PutLookup(u.entries, Int32Min, m, Int32Min);
  }

  /** Removing a message hides exactly that id. */
  lemma RemoveThenLookup(u: User, id: int, j: int)
    requires WellFormed(u)
    ensures Lookup(Remove(u.entries, id), id).None?
    ensures j != id ==> Lookup(Remove(u.entries, id), j) == Lookup(u.entries, j)
  {
    RemoveSpec(u.entries, id);
  }

  // ----------------------------------------------------------- the user list

  /** The index of the first user with this name (the source's loops stop at
      the first match). */
  function FindUser(users: seq<User>, name: string): (r: Option<nat>)
    ensures r.Some? ==> r.value < |users| && users[r.value].name == name
    ensures r.Some? ==> forall k :: 0 <= k < r.value ==> users[k].name != name
    ensures r.None? ==> forall k :: 0 <= k < |users| ==> users[k].name != name
  {
    if |users| == 0 then None
    else if users[0].name == name then Some(0)
    else match FindUser(users[1..], name)
      case None => None
      case Some(k) => Some(k + 1)
  }

  /** No two users share a name: what "create a user only if none with that
      name exists" keeps true. */
  predicate UniqueNames(users: seq<User>) {
    forall i, j :: 0 <= i < j < |users| ==> users[i].name != users[j].name
  }

  predicate AllWellFormed(users: seq<User>) {
    forall i :: 0 <= i < |users| ==> WellFormed(users[i])
  }

  /** The user called `name`, appended when there is none yet; the index of
      that user. */
  function Ensure(users: seq<User>, name: string): (r: (seq<User>, nat))
    ensures r.1 < |r.0| && r.0[r.1].name == name
    ensures FindUser(users, name).Some? ==> r.0 == users && r.1 == FindUser(users, name).value
    ensures FindUser(users, name).None? ==> r.0 == users + [NewUser(name)] && r.1 == |users|
    ensures UniqueNames(users) ==> UniqueNames(r.0)
    ensures AllWellFormed(users) ==> AllWellFormed(r.0)
  {
    match FindUser(users, name)
    case Some(k) => (users, k)
    case None => (users + [NewUser(name)], |users|)
  }
}

=== FILE: wrappers.dfy ===
/** Failure-carrying wrappers shared by every module: `Option` stands in for a
    Java reference that may be null, `Result` for a call that may throw with
    a reason, `Outcome` for a step that either completes or ends its thread
    with a runtime exception. */
module Wrappers {

  datatype Option<+T> = None | Some(value: T) {
    function GetOr(default: T): T {
      match this
      case Some(v) => v
      case None => default
    }
  }

  datatype Result<+T, +E> = Success(value: T) | Failure(error: E)

  datatype Outcome<+T> = Ok(value: T) | Crash
}
